=== FILE: README.md ===
# PBR technique generation and the ellipse geometry updater

This project models two parts of a CesiumJS-based viewer in Dafny and proves properties about them.

**The PBR material processor.**
- `processPbrMaterials` gives every material of a glTF 2.0 document a `KHR_techniques_webgl` technique.
- `generateTechnique` builds, for each material:
  - its generated material values;
  - the technique's uniform table and attribute table;
  - a GLSL vertex shader;
  - a GLSL fragment shader;
  - a program.
- `getPBRValueType` gives the WebGL type of each material value.

**The ellipse geometry updater.** `EllipseGeometryUpdater` and its dynamic counterpart turn an entity's ellipse graphics into geometry options and geometry instances:
- the fill and outline instances;
- the hidden, on-terrain, dynamic and closed tests;
- the static options, sampled at the earliest time;
- the dynamic options, sampled at a given time.

**Modules.**
- `Wrappers`: `Option` and `Result`. `Result` stands for a thrown error; `None` stands for JavaScript `undefined`.
- `Text`: decimal rendering of indices, and `indexOf`.
- `OrderedMaps`: JavaScript objects used as dictionaries, with keys kept in insertion order.
- `Gltf`: the document, materials, meshes, accessor types and WebGL type constants.
  - FLOAT is 5126, FLOAT_VEC3 35665, FLOAT_VEC4 35666, FLOAT_MAT3 35675, FLOAT_MAT4 35676 and SAMPLER_2D 35678.
  - The vertex shader type is 35633 and the fragment shader type is 35632.
- `MaterialValues`: the generated material values and `getPBRValueType`.
- `TechniqueTables`: the flags, the uniform table with its stage routing, and the attribute table.
- `ShaderDeclarations`: uniform, attribute and varying declaration lines.
- `SkinningSum`: the skinning loops.
- `VertexSource`: the morph weighting and the vertex shader.
- `FragmentLines` and `FragmentSource`: the fragment shader.
- `PbrMaterials`: the morph-target search, `generateTechnique` and `processPbrMaterials`.
- `EllipseUpdater`: the ellipse updater.

**How the model is built.**
- **The vertex shader** is a sequence of its lines, with their exact text. It follows the code as written, including the unguarded `NORMAL` morph branch described under "## Findings".
- **The fragment shader** is a sequence of `FragmentLine` values.
  - Every line whose text matters to the properties is spelled out exactly.
  - The long fixed GLSL blocks are `Omitted` markers:
    - the BRDF helper functions;
    - the colour-space helper functions;
    - the lighting and image-based-lighting computation.
  - These blocks depend only on whether the shader is lit and which material model it uses.
- **Processed documents are lazy.** A technique and its shaders are stored with the inputs they were generated from (`PbrMaterials.TechniqueInputs`). The uniform table, the attribute table and the shader texts are functions of those inputs (`UniformsOf`, `AttributesOf`, `VertexSourceOf`, `FragmentSourceOf`).
- **`undefined` in shader text.** When a primitive has no texture coordinates, the source concatenates `undefined` into texture reads. The model does the same, through `Texcoord.Undefined`.

## Model

| member | source | states |
|---|---|---|
| PbrMaterials.Processed | Source/Scene/processPbrMaterials.js:41-76 | Defines the processed document: the extension pushed onto the used and required lists, the techniques container with one program and technique per material and two shaders per material, and each material bound to its technique. ProcessedDocument and ProcessedMaterial state these facts. |
| PbrMaterials.ProcessPbrMaterials | Source/Scene/processPbrMaterials.js:26-83 | A document that already uses KHR_techniques_webgl, or has no materials, is returned unchanged. Otherwise the call fails exactly when some material's primitives are morphed but no primitive supplies targets. |
| PbrMaterials.ProcessedDocument | Source/Scene/processPbrMaterials.js:41-76 | A processed document lists the extension as used and required. It keeps its meshes, skins and other extensions. It holds one technique and one program per material, and two shaders per material. |
| PbrMaterials.ProcessedMaterial | Source/Scene/processPbrMaterials.js:64-76 | Material i is bound to technique i with its generated values, and changes in nothing else. Technique i uses program i. Program i's vertex and fragment shaders are 2i and 2i+1, generated from that material. |
| PbrMaterials.ProcessIdempotent | Source/Scene/processPbrMaterials.js:31-33 | Processing a processed document again returns it unchanged. |
| PbrMaterials.WithTechnique | Source/Scene/processPbrMaterials.js:68-75 | The material gains the techniques binding. Its other extensions are kept, and nothing else changes. |
| PbrMaterials.GenerateAll | Source/Scene/processPbrMaterials.js:64-76 | The techniques of all materials are produced in material order. The first material whose targets are missing aborts the whole run. |
| PbrMaterials.GenerateTechnique | Source/Scene/processPbrMaterials.js:90-748 | Fails exactly when the flags say the primitives are morphed but no primitive supplies targets. On success, records the flags, the first skin's joint count, the found targets, CESIUM_RTC and the batch-id option. |
| PbrMaterials.ShadersAt | Source/Scene/processPbrMaterials.js:715-734 | Technique i owns shader 2i (vertex) and shader 2i+1 (fragment), in the order they are appended. |
| PbrMaterials.FindMorphTargets | Source/Scene/processPbrMaterials.js:160-172 | The loop over every primitive of every mesh computes the last-match search. |
| PbrMaterials.LastTargetsSpec | Source/Scene/processPbrMaterials.js:162-171 | The last match wins: the targets found belong to a supplying primitive that no later primitive overrides. None are found exactly when no primitive supplies any. |
| PbrMaterials.MorphTargetsFound | Source/Scene/processPbrMaterials.js:160-172 | Targets are found exactly when some primitive with the material has targets. |
| PbrMaterials.VertexUniformsDeclared | Source/Scene/processPbrMaterials.js:239-251 | Every vertex-stage uniform of a technique is declared in its vertex shader. |
| PbrMaterials.FragmentUniformsDeclared | Source/Scene/processPbrMaterials.js:239-251 | Every fragment-stage uniform of a technique is declared in its fragment shader. |
| PbrMaterials.MaterialValuesInFragmentShader | Source/Scene/processPbrMaterials.js:224-251 | Every generated material value other than `u_morphWeights` becomes a uniform typed by getPBRValueType, declared in the fragment shader. |
| PbrMaterials.AlphaCutoffExactlyForMask | Source/Scene/processPbrMaterials.js:216-222 | The alpha-cutoff uniform exists exactly for MASK materials, unless a material value of that name replaces it. |
| PbrMaterials.JointMatrixCount | Source/Scene/processPbrMaterials.js:132-137 | The joint-matrix uniform exists only with skinning, and its count is the number of joints of the first skin. |
| PbrMaterials.MorphWeightsCount | Source/Scene/processPbrMaterials.js:208-214 | The morph-weight uniform exists only with morph targets, and its count is the number of targets found. |
| PbrMaterials.TechniqueAttributesMatch | Source/Scene/processPbrMaterials.js:286-418 | The attribute declarations of the vertex shader name exactly the technique's attributes. |
| PbrMaterials.TechniqueAttributesDeclared | Source/Scene/processPbrMaterials.js:286-418 | Every attribute of the technique has an attribute line in the vertex shader. |
| MaterialValues.GenerateMaterialValues | Source/Scene/processPbrMaterials.js:100-127 | The generated values have distinct keys, and every key carries the `u_` prefix. |
| MaterialValues.GeneratedValue | Source/Scene/processPbrMaterials.js:100-127 | Value `u_p` is the value of parameter p. A top-level texture or factor property overrides the metallic-roughness or specular-glossiness parameter. Nothing else is generated. |
| MaterialValues.SpecularGlossinessExcludesMetallicRoughness | Source/Scene/processPbrMaterials.js:85-110 | With the specular-glossiness extension, no metallic-roughness parameter is extracted, unless a top-level property has the same name. |
| MaterialValues.TextureAndFactorProperties | Source/Scene/processPbrMaterials.js:122-127 | An entry is kept exactly when it is one of the material's own properties and its name contains `Texture` or `Factor`. Lookups of such names agree with the material, and keys stay distinct. |
| MaterialValues.TextureAndFactorOrder | Source/Scene/processPbrMaterials.js:122-127 | Filtering two runs of properties is filtering each and concatenating, so the kept properties stay in the order the loop visits them. |
| MaterialValues.Prefixed | Source/Scene/processPbrMaterials.js:104-108 | Entry i of the result is entry i of the parameters with its key p renamed to `u_p` and the same value. So order, count and values are kept, and every key carries the prefix. |
| MaterialValues.PrefixedGet | Source/Scene/processPbrMaterials.js:104-108 | Looking up `u_p` in the renamed values gives the value of p. |
| MaterialValues.UniformNameInjective | Source/Scene/processPbrMaterials.js:106 | Distinct parameters get distinct uniform names. |
| MaterialValues.PbrValueType | Source/Scene/processPbrMaterials.js:751-783 | A type is given exactly for the fourteen known names, and `undefined` for any other name. No value is a matrix. |
| MaterialValues.TexturesAreSamplers | Source/Scene/processPbrMaterials.js:751-783 | Among the known names, exactly the names ending in `Texture` get SAMPLER_2D. |
| TechniqueTables.DeriveFlags | Source/Scene/processPbrMaterials.js:139-158 | `isUnlit` holds exactly when the material has the unlit extension, with or without primitive info (lines 187-191). Without primitive info every other flag is off. Skinning needs a skinned primitive and at least one joint. The unlit extension switches normals and tangents off. Each other flag is copied from the primitive info. |
| TechniqueTables.FixedUniformsGet | Source/Scene/processPbrMaterials.js:175-222 | The fixed table holds the model-view matrix (CESIUM_RTC_MODELVIEW with CESIUM_RTC) and the projection matrix always. It holds the normal matrix, joint matrices, morph weights and alpha cutoff exactly when their conditions hold, with the source's types, semantics and counts. |
| TechniqueTables.MaterialUniformsGet | Source/Scene/processPbrMaterials.js:224-231 | There is one uniform per material value, typed by getPBRValueType, with no semantic or count. |
| TechniqueTables.UniformTable | Source/Scene/processPbrMaterials.js:175-236 | Defines the uniform table: the fixed uniforms, then one uniform per material value (a later assignment replacing an earlier one), then the `_3DTILESDIFFUSE` mark. The UniformTable* lemmas state its contents. |
| TechniqueTables.UniformTableKeys | Source/Scene/processPbrMaterials.js:175-236 | The table's keys are distinct. They are the fixed uniforms the flags call for plus one key per material value. |
| TechniqueTables.UniformTableFixedEntries | Source/Scene/processPbrMaterials.js:175-222 | A fixed uniform that no material value overrides keeps the type, semantic and count the source assigns. |
| TechniqueTables.UniformTableMaterialTypes | Source/Scene/processPbrMaterials.js:224-231 | Every material value gets a uniform typed by getPBRValueType. A material value replaces a fixed uniform of the same name. |
| TechniqueTables.UniformTableDiffuse | Source/Scene/processPbrMaterials.js:233-236 | Exactly one uniform carries the `_3DTILESDIFFUSE` semantic: the base-colour texture if present, else the base-colour factor, else none. |
| TechniqueTables.StageOf | Source/Scene/processPbrMaterials.js:243-249 | Defines the routing test: a uniform goes to the fragment shader unless it is a FLOAT_MAT3 or FLOAT_MAT4 or is named `u_morphWeights`. StageMembership and RoutingOfKnownUniforms state its consequences. |
| TechniqueTables.StagesPartitionTable | Source/Scene/processPbrMaterials.js:239-251 | The vertex and fragment declarations together are the table, as a multiset. |
| TechniqueTables.StageMembership | Source/Scene/processPbrMaterials.js:243-249 | Each uniform is declared in the stage its type and name call for, and not in the other stage. |
| TechniqueTables.RoutingOfKnownUniforms | Source/Scene/processPbrMaterials.js:243-249 | The matrices and the morph weights go to the vertex stage. The alpha cutoff and every material value other than `u_morphWeights` go to the fragment stage. |
| TechniqueTables.AttributeTable | Source/Scene/processPbrMaterials.js:286-418 | Defines the attribute table: `a_position`, then the morph attributes, then the flagged vertex attributes, each assignment replacing an earlier one of the same name. The AttributeTable* lemmas state its contents. |
| TechniqueTables.AttributeTableGet | Source/Scene/processPbrMaterials.js:286-418 | The attribute table maps each name to the semantic its last assignment gives. |
| TechniqueTables.AttributeTablePosition | Source/Scene/processPbrMaterials.js:287-291 | `a_position` is always present, with semantic POSITION. |
| TechniqueTables.AttributeTableVertexEntries | Source/Scene/processPbrMaterials.js:344-418 | Each vertex attribute other than `a_texcoord_0` is present exactly when its flag is on, with the source's semantic, and morph attributes never displace it. `a_texcoord_0` is `TEXCOORD_0` when texture coordinates are on. When they are off, a target-0 morph attribute named `texcoord` still creates `a_texcoord_0`, so that entry is not promised absent. |
| TechniqueTables.AttributeTableMorphEntries | Source/Scene/processPbrMaterials.js:306-314 | Every attribute of every target except `extras` gets `a_<attribute>_<k>` with semantic `<attribute>_<k>`. The only exception is a name that the texture-coordinate attribute overwrites later. |
| TechniqueTables.PlainNamesAreNotMorphAttributes | Source/Scene/processPbrMaterials.js:311 | A morph attribute name has an underscore after its prefix, so it is never a fixed attribute name. |
| OrderedMaps.Put | Source/Scene/processPbrMaterials.js:227 | Assigning a key sets it and changes no other key. A new key is appended; an existing key keeps its position. |
| OrderedMaps.PutAllGet | Source/Scene/processPbrMaterials.js:225-231 | After assigning distinct-keyed entries in turn, each assigned key holds its entry's value and every other key is as before. |
| OrderedMaps.Table | Source/Scene/processPbrMaterials.js:175-222 | A run of conditional assignments holds exactly the names its specification gives a value. |
| ShaderDeclarations.UniformDeclaredInStage | Source/Scene/processPbrMaterials.js:242-249 | Every uniform of the table has a declaration line in the stage it is routed to, with its GLSL type and array size. |
| SkinningSum.SkinningReadsEachComponentOnce | Source/Scene/processPbrMaterials.js:255-284 | The skinning sum has one line per weight component, no two lines alike. Line p is the term of the p-th component, and the components are exactly those of the type. Only component 0 is the first index (`[0]` or `[0][0]`), so the first line opens with `mat4 skinMatrix = ` and every later line with `skinMatrix += `. |
| SkinningSum.BuildSkinningLines | Source/Scene/processPbrMaterials.js:255-284 | The source's loops (one loop for vectors, two nested loops bounded by `Math.sqrt` for matrices) produce the skinning lines. |
| SkinningSum.SqrtIsRowLength | Source/Scene/processPbrMaterials.js:259-262 | For a matrix type, `Math.sqrt` of the component count is the row length. |
| SkinningSum.SkinTermInjective | Source/Scene/processPbrMaterials.js:270-280 | Distinct weight components give distinct skinning lines. |
| Gltf.MatrixTypeNames | Source/Scene/processPbrMaterials.js:259 | A type name starts with `MAT` exactly for the matrix types. |
| Text.ParseNatToString | Source/Scene/processPbrMaterials.js:242 | The decimal rendering of a count or index reads back as the same number. |
| Text.NatToStringInjective | Source/Scene/processPbrMaterials.js:311 | Distinct target indices give distinct attribute names. |
| Text.IndexOf | Source/Scene/processPbrMaterials.js:123 | `indexOf` gives the first position where the substring occurs, or -1 exactly when it occurs nowhere. |
| VertexSource.MorphWeighting | Source/Scene/processPbrMaterials.js:306-326 | In the weighting as written, every POSITION and NORMAL attribute of target j, and every TANGENT attribute when the primitive has tangents, is added with weight `u_morphWeights[j]` into the sum the source picks. Conversely, every term reads an attribute of its own target w.target, below the number of targets and not `extras`. Its name is that attribute's morph name for w.target, and its sum is the one the source picks for that attribute. |
| VertexSource.WrittenShaderUsesUndeclaredNormalSum | Source/Scene/processPbrMaterials.js:298-326 | Consider a primitive without normals whose target j has a NORMAL attribute. The vertex shader as written adds that attribute into `weightedNormal`, and no line of the shader declares `weightedNormal`. |
| VertexSource.WrittenSumsDeclaredWithNormals | Source/Scene/processPbrMaterials.js:298-326 | With normals, the weighting as written equals the guarded one, so every sum it adds into is declared. |
| VertexSource.MorphSumsDeclared | Source/Scene/processPbrMaterials.js:298-326 | With the NORMAL branch guarded by `hasNormals` (the corrected weighting), every sum the morph targets add into is declared in `main` before the weighting. |
| VertexSource.MorphAccumulator | Source/Scene/processPbrMaterials.js:316-322 | The corrected choice of sum: the normal sum only with normals, and the tangent sum only with tangents. The weighting as written uses the unguarded choice instead. |
| VertexSource.MorphAccumulatorDifference | Source/Scene/processPbrMaterials.js:316-322 | The source's choice is the guarded one with normals taken as present. The two differ exactly on a NORMAL target without normals. |
| VertexSource.UnlitNormalTargetUsesUndeclaredSum | Source/Scene/processPbrMaterials.js:187-191 | For a concrete unlit material with one NORMAL target, the weighting as written is one `weightedNormal` term. `main` never declares that sum, and the guarded weighting is empty. |
| VertexSource.VertexAttributesMatchTable | Source/Scene/processPbrMaterials.js:286-418 | The vertex shader declares an attribute exactly when it is in the technique's attribute table. |
| VertexSource.VertexMain | Source/Scene/processPbrMaterials.js:253-410 | Defines `main` in source order: the skinning sum, the declarations of the running sums, the weighting as written, then the transforms and varyings. Its properties are stated by MorphWeighting, WrittenShaderUsesUndeclaredNormalSum and SkinningReadsEachComponentOnce. |
| VertexSource.VertexShaderLines | Source/Scene/processPbrMaterials.js:128-422 | Defines the whole vertex shader: the precision line, the vertex-stage uniforms, the attribute and varying declarations, and `main`. VertexShaderDeclares and VertexAttributesMatchTable state its properties. |
| VertexSource.VertexShaderDeclares | Source/Scene/processPbrMaterials.js:420-422 | Every vertex-stage uniform, attribute and varying is declared in the vertex shader. |
| FragmentSource.FragmentMain | Source/Scene/processPbrMaterials.js:478-713 | Defines the fragment `main`: the normal, base-colour, shading, occlusion and emissive lines, the sRGB conversion and the alpha output. MainReadsWantedTextures and AlphaOutputMatchesMode state its properties. |
| FragmentSource.FragmentShaderLines | Source/Scene/processPbrMaterials.js:128-713 | Defines the whole fragment shader: the derivatives prelude when it is needed, the header with its declarations, the helper blocks and `main`. The FragmentSource lemmas state its properties. |
| FragmentSource.VaryingsAgree | Source/Scene/processPbrMaterials.js:344-411 | The fragment shader declares only varyings, each declared identically by the vertex shader. Every varying of the vertex shader is declared by the fragment shader. |
| FragmentSource.FragmentShaderDeclares | Source/Scene/processPbrMaterials.js:239-251 | Every fragment-stage uniform and every varying is declared in the fragment shader. |
| FragmentSource.DerivativesUsedExactlyWhenNeeded | Source/Scene/processPbrMaterials.js:480-522 | The normal lines take derivatives exactly when a normal texture is present without tangents. |
| FragmentSource.PreludeExactlyWhenNeeded | Source/Scene/processPbrMaterials.js:492-496 | The standard-derivatives prelude comes first exactly when derivatives are taken. Otherwise the shader starts with its precision line. |
| FragmentSource.Presence | Source/Scene/processPbrMaterials.js:483-694 | Defines the fourteen `defined(generatedMaterialValues.u_<name>)` tests the fragment shader branches on. A value counts when it is present and is not JSON `null`. PresenceFollowsMaterial states what they mean for a material. |
| FragmentSource.PresenceFollowsMaterial | Source/Scene/processPbrMaterials.js:483-694 | Each of the fourteen tests holds for a material's generated values exactly when the material itself defines that parameter: given, and not `null`, with the top-level property winning. So a parameter set to `null` counts as absent. |
| FragmentSource.MainReadsWantedTextures | Source/Scene/processPbrMaterials.js:480-695 | `main` samples each texture exactly when it is wanted (defined, and lit or not unlit as the branch requires). Defined means what JavaScript's `defined` means: the value is given and is not `null` (`FragmentSource.Presence`). Every sample goes through the primitive's texture coordinates. |
| FragmentSource.AlphaOutputMatchesMode | Source/Scene/processPbrMaterials.js:697-713 | The output coverage matches the alpha mode. MASK discards below the cutoff and otherwise writes alpha 1. BLEND writes the base alpha. Every other mode writes alpha 1. |
| EllipseUpdater.CreateFillGeometryInstance | Source/DataSources/EllipseGeometryUpdater.js:109-148 | Fails with the DeveloperError exactly when the updater has no fill. Otherwise the instance has the entity as id and ellipse geometry from the options. It has the show value and display condition at the time. Its colour is the fill colour (present exactly for colour materials), and its offset is the offset attribute (present exactly when the options have an offset mode). |
| EllipseUpdater.CreateOutlineGeometryInstance | Source/DataSources/EllipseGeometryUpdater.js:158-188 | Fails with the DeveloperError exactly when the updater has no outline. Otherwise it is like the fill, and its offset is the offset attribute. Its colour is always present: the outline colour at the time, black when that is unset or undefined. |
| EllipseUpdater.FillAndOutlineAgree | Source/DataSources/EllipseGeometryUpdater.js:109-188 | Fill and outline share the entity, options, display condition and offset. Neither is shown when the entity is unavailable or hidden, or when show is false. |
| EllipseUpdater.ShowValue | Source/DataSources/EllipseGeometryUpdater.js:122 | The show value is true exactly when all four operands are true. It is `undefined` exactly when the first operand that is not true is undefined. |
| EllipseUpdater.FillColor | Source/DataSources/EllipseGeometryUpdater.js:128-137 | The colour is present exactly for colour materials. It is sampled when it is constant or the entity is available, and that sample is used when defined. It is white when the sample is undefined, when it is not sampled, or when the material has no colour. |
| EllipseUpdater.Offset | Source/DataSources/EllipseGeometryUpdater.js:139-141 | The offset is present exactly when the options have an offset mode. It is then the terrain offset at the time when that is defined, and zero otherwise. |
| EllipseUpdater.ComputeCenter | Source/DataSources/EllipseGeometryUpdater.js:190-192 | The centre is the entity position at the time, or undefined. |
| EllipseUpdater.VisibleHasDefiningProperties | Source/DataSources/EllipseGeometryUpdater.js:194-198 | An ellipse is not hidden exactly when its position and both axes are set and the generic check passes. |
| EllipseUpdater.IsHidden | Source/DataSources/EllipseGeometryUpdater.js:194-198 | Defines the static hidden test: the position or an axis is unset, or the generic check hides the ellipse. VisibleHasDefiningProperties states its consequence. |
| EllipseUpdater.IsOnTerrain | Source/DataSources/EllipseGeometryUpdater.js:200-202 | On terrain exactly when filled, neither height is set, and ground primitives are supported. |
| EllipseUpdater.IsDynamic | Source/DataSources/EllipseGeometryUpdater.js:204-217 | Dynamic exactly when one of the eleven defining properties is not constant, or the ellipse is on terrain with a non-constant material. |
| EllipseUpdater.TerrainDecidesMaterialDynamism | Source/DataSources/EllipseGeometryUpdater.js:200-217 | If the ellipse has a height or extruded height, is not filled, or has no ground support, it is off terrain, so the material never changes whether it is dynamic. On terrain, a material that varies over time makes it dynamic. |
| EllipseUpdater.MaterialMattersOnlyOnTerrain | Source/DataSources/EllipseGeometryUpdater.js:204-217 | Off terrain the material never affects dynamism. A constant material never does. |
| EllipseUpdater.IsClosed | Source/DataSources/EllipseGeometryUpdater.js:219-223 | Closed when the height is 0, or when an extruded height is set and differs from the height. An unset height differs from any number. |
| EllipseUpdater.ClosedAfterSetOptions | Source/DataSources/EllipseGeometryUpdater.js:219-223 | On the options `_setOptions` produces, closedness follows from the ground helpers' values at the time. With no extruded height, the ellipse is closed exactly when the height is 0. With an extruded height in metres, or one clamped to the minimum terrain height, it is closed unless the height equals that value and is not 0. |
| EllipseUpdater.SetStaticOptions | Source/DataSources/EllipseGeometryUpdater.js:225-249 | The options are sampled at Iso8601.MINIMUM_VALUE, with the vertex format the material needs, and the id is kept. |
| EllipseUpdater.StaticIsDynamicAtMinimum | Source/DataSources/EllipseGeometryUpdater.js:225-293 | The static options equal the dynamic options at Iso8601.MINIMUM_VALUE, once the vertex format is chosen. |
| EllipseUpdater.SetOptions | Source/DataSources/EllipseGeometryUpdater.js:270-293 | Every option is sampled at the given time, and the id and vertex format are kept. |
| EllipseUpdater.ResolveExtrudedHeight | Source/DataSources/EllipseGeometryUpdater.js:243-248 | The clamp-to-ground sentinel becomes the minimum terrain height. Any other sampled value is kept. |
| EllipseUpdater.ExtrudedHeightResolved | Source/DataSources/EllipseGeometryUpdater.js:287-292 | The extruded height of the options is the resolved sampled value. |
| EllipseUpdater.DynamicIsHidden | Source/DataSources/EllipseGeometryUpdater.js:265-268 | Defines the dynamic hidden test: the sampled centre or a sampled axis is undefined, or the generic check hides the ellipse. DynamicHiddenAfterSetOptions states its consequences. |
| EllipseUpdater.DynamicHiddenAfterSetOptions | Source/DataSources/EllipseGeometryUpdater.js:265-279 | After setting the options, the dynamic ellipse is hidden exactly when the position or an axis has no value at the time, or the generic check hides it. Statically hidden implies dynamically hidden. |

## Left out

- JavaScript numbers: modelled as mathematical reals, so IEEE `NaN` and `-0` are not represented. With a `NaN` height, `_getIsClosed` would see `NaN !== NaN` and call the ellipse closed. No operation of the model depends on such values.
- `ModelUtility.splitIncompatibleMaterials`: its result, the primitive info per material, is an input.
- `ModelUtility.ensureSemanticExistence`: not modelled, because its source is not part of this model. The modelled result is the document as it stands before `ensureSemanticExistence` runs on it.
- `hasExtension`: modelled as membership in `extensionsUsed`, because its source is not part of this model.
- `webGLConstantToGlslType` and `ModelUtility.getShaderVariable`: written as tables over the types that occur.
- The BRDF helpers (lines 424-460), the colour-space helpers (462-476) and the lighting block (599-676): `Omitted` markers. They are fixed numeric GLSL.
- The `_pipeline` extras of a shader: `extension: '.glsl'` is not modelled. The source text is derived from the recorded inputs.
- `uniform.useInFragment`: never set in this file, so the routing ignores that disjunct.
- Partial mutation before a throw: the source edits the document before `morphTargets.length` throws. The model returns only the failure.
- JavaScript integer-like keys, which objects enumerate first: not modelled. Every generated uniform and attribute key starts with `u_` or `a_`, so the generated tables are unaffected. Input objects are different: a material, its `pbrMetallicRoughness` or specular-glossiness block, or a morph target could have integer-like property names, and JavaScript would enumerate those first. The model enumerates every input object in insertion order.
- `EllipseUpdater.CreateFillGeometryInstance` and `EllipseUpdater.CreateOutlineGeometryInstance`: the attribute constructors are not modelled. `ShowGeometryInstanceAttribute`, `ColorGeometryInstanceAttribute`, `DistanceDisplayConditionGeometryInstanceAttribute` and `OffsetGeometryInstanceAttribute` are represented by the raw values they are built from.
- `EllipseGeometry` and `EllipseOutlineGeometry` construction: an instance records the options it is built from.
- The Property system: a property is a constancy flag plus a value per time.
- `GroundGeometryUpdater` height helpers: the height, extruded height and offset mode helpers are function inputs.
- `ApproximateTerrainHeights` and `EllipseGeometry.computeRectangle`: the minimum terrain height is a function of the options.
- `GroundPrimitive.isSupported` and the base class's `_isHidden`: boolean inputs.
- Scratch objects and `result` parameters are not modelled. They do not change the values.
- `Check.defined('time')`: a time is always given.
- The debug checks: the `DeveloperError` checks are stripped from release builds, and the model keeps the debug-build behaviour.
- `EllipseUpdater.IsDynamic` and `EllipseUpdater.SetStaticOptions`: require the position and both axes to be set. The generic updater calls them only for visible ellipses (see `EllipseUpdater.VisibleHasDefiningProperties`), and the source would fail on an unset one.

## Findings

| source | as written | input that shows it | evidently intended | confidence | as-written member | corrected member |
|---|---|---|---|---|---|---|
| Source/Scene/processPbrMaterials.js:318-319 | A NORMAL morph target is always added into `weightedNormal`, but `weightedNormal` is declared only when the shader has normals (lines 300-302). | An unlit material (KHR_materials_unlit), or a primitive without normals, whose primitive has a NORMAL morph target. The vertex shader uses an undeclared variable. | Guard the NORMAL branch by `hasNormals`, as the TANGENT branch is guarded by `hasTangents`. | not executed | VertexSource.WrittenShaderUsesUndeclaredNormalSum | VertexSource.MorphSumsDeclared |

The modelled shader (`VertexSource.VertexMain`) keeps the source's behaviour: it uses the weighting as written (`WrittenMorphWeights`). The corrected weighting is `GuardedMorphWeights`, built on `MorphAccumulator`. `MorphSumsDeclared` proves the intended property of the corrected weighting. `WrittenSumsDeclaredWithNormals` shows that the two weightings agree whenever the primitive has normals. `UnlitNormalTargetUsesUndeclaredSum` gives a concrete unlit input on which they differ.

=== FILE: ellipse_updater.dfy ===
/** The ellipse geometry updater (EllipseGeometryUpdater.js): it turns an
    entity's time-varying ellipse properties into geometry-build options and
    into the fill and outline geometry instances a batch draws.

    A property is a `Property<T>`: whether it is constant and its value at
    each time, `None` standing for `undefined`. An unset property is
    `Option<Property<T>>.None`. The updater's mutable state is an immutable
    `Updater` record, and `_setStaticOptions` / `_setOptions` return the new
    options instead of writing into a scratch object.
 */
module EllipseUpdater {
  import opened Wrappers

  /** A time: the earliest representable instant (`Iso8601.MINIMUM_VALUE`)
      or a Julian date. */
  datatype Time = Iso8601Minimum | JulianDate(dayNumber: int, secondsOfDay: real)

  datatype Property<T> = Property(isConstant: bool, at: Time -> Option<T>)

  datatype Cartesian3 = Cartesian3(x: real, y: real, z: real)
  datatype Color = Color(red: real, green: real, blue: real, alpha: real)
  datatype DistanceDisplayCondition = DistanceDisplayCondition(near: real, far: real)
  datatype HeightReference = NoReference | ClampToGroundReference | RelativeToGround
  datatype GeometryOffsetAttribute = OffsetNone | OffsetTop | OffsetAll
  datatype VertexFormat = PerInstanceColorFormat | TexturedFormat

  const Zero := Cartesian3(0.0, 0.0, 0.0)
  const White := Color(1.0, 1.0, 1.0, 1.0)
  const Black := Color(0.0, 0.0, 0.0, 1.0)

  /** `Property.isConstant`: an unset property counts as constant. */
  predicate IsConstant<T>(p: Option<Property<T>>) {
    p.None? || p.value.isConstant
  }

  /** `Property.getValueOrUndefined`. */
  function ValueOrUndefined<T>(p: Option<Property<T>>, t: Time): (r: Option<T>)
    ensures p.None? ==> r.None?
    ensures p.Some? ==> r == p.value.at(t)
  {
    if p.Some? then p.value.at(t) else None
  }

  /** `Property.getValueOrDefault`: the value when the property is set and
      defined at `t`, `default` otherwise. */
  function ValueOrDefault<T>(p: Option<Property<T>>, t: Time, default: T): (r: T)
    ensures ValueOrUndefined(p, t).Some? ==> r == ValueOrUndefined(p, t).value
    ensures ValueOrUndefined(p, t).None? ==> r == default
  {
    if p.Some? then p.value.at(t).GetOr(default) else default
  }

  /** The entity the updater draws. */
  datatype Entity = Entity(id: nat, position: Option<Property<Cartesian3>>, isShowing: bool, isAvailable: Time -> bool)

  /** The entity's `ellipse` graphics: the defining properties. */
  datatype EllipseGraphics = EllipseGraphics(
    semiMajorAxis: Option<Property<real>>,
    semiMinorAxis: Option<Property<real>>,
    rotation: Option<Property<real>>,
    height: Option<Property<real>>,
    heightReference: Option<Property<HeightReference>>,
    extrudedHeight: Option<Property<real>>,
    extrudedHeightReference: Option<Property<HeightReference>>,
    granularity: Option<Property<real>>,
    stRotation: Option<Property<real>>,
    outlineWidth: Option<Property<real>>,
    numberOfVerticalLines: Option<Property<int>>,
    zIndex: Option<Property<int>>)

  /** The fill material: a solid colour (`ColorMaterialProperty`) or any
      other material. */
  datatype MaterialProperty =
    | ColorMaterial(isConstant: bool, color: Option<Property<Color>>)
    | OtherMaterial(isConstant: bool)

  /** The geometry-build options (`EllipseGeometryOptions`). */
  datatype EllipseOptions = EllipseOptions(
    id: nat,
    vertexFormat: Option<VertexFormat>,
    center: Option<Cartesian3>,
    semiMajorAxis: Option<real>,
    semiMinorAxis: Option<real>,
    rotation: Option<real>,
    height: Option<real>,
    extrudedHeight: Option<real>,
    granularity: Option<real>,
    stRotation: Option<real>,
    numberOfVerticalLines: Option<int>,
    offsetAttribute: Option<GeometryOffsetAttribute>)

  /** A sampled extruded height: metres, or the clamp-to-ground sentinel. */
  datatype ExtrudedHeight = Metres(h: real) | ClampToGround

  /** The ground-updater helpers the options depend on, whose rules this
      model does not fix: the base height, the extruded height, the offset
      mode, and the minimum approximate terrain height under the rectangle
      the options span. */
  datatype GroundHelpers = GroundHelpers(
    geometryHeight: (Option<Property<real>>, Option<Property<HeightReference>>, Time) -> Option<real>,
    geometryExtrudedHeight: (Option<Property<real>>, Option<Property<HeightReference>>, Time) -> Option<ExtrudedHeight>,
    geometryOffsetAttribute: (Option<Property<HeightReference>>, Option<Property<HeightReference>>, Time) -> Option<GeometryOffsetAttribute>,
    minimumTerrainHeight: EllipseOptions -> real)

  /** The updater's state, as the generic geometry updater leaves it. */
  datatype Updater = Updater(
    entity: Entity,
    fillEnabled: bool,
    outlineEnabled: bool,
    showProperty: Property<bool>,
    fillProperty: Property<bool>,
    showOutlineProperty: Property<bool>,
    outlineColorProperty: Option<Property<Color>>,
    materialProperty: MaterialProperty,
    distanceDisplayConditionProperty: Property<DistanceDisplayCondition>,
    terrainOffsetProperty: Option<Property<Cartesian3>>,
    options: EllipseOptions)

  datatype Geometry = EllipseGeometry(options: EllipseOptions) | EllipseOutlineGeometry(options: EllipseOptions)

  /** Per-instance attributes; `show` is the JavaScript value handed to the
      show attribute, `None` standing for `undefined`. */
  datatype Attributes = Attributes(
    show: Option<bool>,
    distanceDisplayCondition: Option<DistanceDisplayCondition>,
    color: Option<Color>,
    offset: Option<Cartesian3>)

  datatype GeometryInstance = GeometryInstance(id: nat, geometry: Geometry, attributes: Attributes)

  // ---------------------------------------------------------------------
  // Instances

  /** JavaScript `a && b` on values that are `true`, `false` or `undefined`:
      `b` when `a` is `true`, `a` otherwise. */
  function JsAnd(a: Option<bool>, b: Option<bool>): Option<bool> {
    if a == Some(true) then b else a
  }

  /** The value of `available && isShowing && show && part`. It is `true`
      exactly when all four are true, and `undefined` exactly when the first
      operand that is not `true` is `undefined`. */
  function ShowValue(available: bool, isShowing: bool, show: Option<bool>, part: Option<bool>): (r: Option<bool>)
    ensures r == Some(true) <==> available && isShowing && show == Some(true) && part == Some(true)
    ensures r.None? <==> available && isShowing && (show.None? || (show == Some(true) && part.None?))
  {
    JsAnd(JsAnd(JsAnd(Some(available), Some(isShowing)), show), part)
  }

  /** The fill colour attribute: absent unless the material is a solid
      colour; then the colour sampled at `t` — sampled only when it is
      constant or the entity is available — and white when there is none. */
  function FillColor(material: MaterialProperty, available: bool, t: Time): (r: Option<Color>)
    ensures r.Some? <==> material.ColorMaterial?
    ensures material.ColorMaterial? && material.color.Some? && (material.color.value.isConstant || available)
            && material.color.value.at(t).Some?
            ==> r == material.color.value.at(t)
    ensures material.ColorMaterial? && material.color.Some? && (material.color.value.isConstant || available)
            && material.color.value.at(t).None?
            ==> r == Some(White)
    ensures material.ColorMaterial? && material.color.Some? && !material.color.value.isConstant && !available
            ==> r == Some(White)
    ensures material.ColorMaterial? && material.color.None? ==> r == Some(White)
  {
    match material
    case OtherMaterial(_) => None
    case ColorMaterial(_, color) =>
      var current := if color.Some? && (color.value.isConstant || available) then color.value.at(t) else None;
      Some(current.GetOr(White))
  }

  /** The offset attribute: present exactly when the options carry an offset
      mode, and then the terrain offset at `t`, the zero vector by default. */
  function Offset(u: Updater, t: Time): (r: Option<Cartesian3>)
    ensures r.Some? <==> u.options.offsetAttribute.Some?
    ensures r.Some? && ValueOrUndefined(u.terrainOffsetProperty, t).Some? ==> r == ValueOrUndefined(u.terrainOffsetProperty, t)
    ensures r.Some? && ValueOrUndefined(u.terrainOffsetProperty, t).None? ==> r.value == Zero
  {
    if u.options.offsetAttribute.Some? then Some(ValueOrDefault(u.terrainOffsetProperty, t, Zero)) else None
  }

  /** `createFillGeometryInstance`: fails when the updater has no fill. */
  function CreateFillGeometryInstance(u: Updater, t: Time): (r: Result<GeometryInstance, string>)
    ensures r.Failure? <==> !u.fillEnabled
    ensures r.Failure? ==> r.error == "DeveloperError: This instance does not represent a filled geometry."
    ensures r.Success? ==> r.value.id == u.entity.id && r.value.geometry == EllipseGeometry(u.options)
    ensures r.Success? ==>
      (r.value.attributes.show == Some(true) <==>
        u.entity.isAvailable(t) && u.entity.isShowing && u.showProperty.at(t) == Some(true) && u.fillProperty.at(t) == Some(true))
    ensures r.Success? ==> (r.value.attributes.color.Some? <==> u.materialProperty.ColorMaterial?)
    ensures r.Success? ==> r.value.attributes.color == FillColor(u.materialProperty, u.entity.isAvailable(t), t)
    ensures r.Success? ==> (r.value.attributes.offset.Some? <==> u.options.offsetAttribute.Some?)
    ensures r.Success? ==> r.value.attributes.offset == Offset(u, t)
    ensures r.Success? ==> r.value.attributes.distanceDisplayCondition == u.distanceDisplayConditionProperty.at(t)
  {
    if !u.fillEnabled then Failure("DeveloperError: This instance does not represent a filled geometry.")
    else
      var available := u.entity.isAvailable(t);
      var attributes := Attributes(
        ShowValue(available, u.entity.isShowing, u.showProperty.at(t), u.fillProperty.at(t)),
        u.distanceDisplayConditionProperty.at(t),
        FillColor(u.materialProperty, available, t),
        Offset(u, t));
      Success(GeometryInstance(u.entity.id, EllipseGeometry(u.options), attributes))
  }

  /** The outline colour: the bound outline colour at `t`, black when it is
      unbound or undefined. */
  function OutlineColor(u: Updater, t: Time): (r: Color)
    ensures u.outlineColorProperty.Some? && u.outlineColorProperty.value.at(t).Some?
            ==> r == u.outlineColorProperty.value.at(t).value
    ensures u.outlineColorProperty.None? || u.outlineColorProperty.value.at(t).None? ==> r == Black
  {
    ValueOrDefault(u.outlineColorProperty, t, Black)
  }

  /** `createOutlineGeometryInstance`: fails when the updater has no
      outline; the colour attribute is always present. */
  function CreateOutlineGeometryInstance(u: Updater, t: Time): (r: Result<GeometryInstance, string>)
    ensures r.Failure? <==> !u.outlineEnabled
    ensures r.Failure? ==> r.error == "DeveloperError: This instance does not represent an outlined geometry."
    ensures r.Success? ==> r.value.id == u.entity.id && r.value.geometry == EllipseOutlineGeometry(u.options)
    ensures r.Success? ==>
      (r.value.attributes.show == Some(true) <==>
        u.entity.isAvailable(t) && u.entity.isShowing && u.showProperty.at(t) == Some(true) && u.showOutlineProperty.at(t) == Some(true))
    ensures r.Success? ==> r.value.attributes.color.Some?
    ensures r.Success? && (u.outlineColorProperty.None? || u.outlineColorProperty.value.at(t).None?)
            ==> r.value.attributes.color == Some(Black)
    ensures r.Success? ==> r.value.attributes.color == Some(OutlineColor(u, t))
    ensures r.Success? ==> (r.value.attributes.offset.Some? <==> u.options.offsetAttribute.Some?)
    ensures r.Success? ==> r.value.attributes.offset == Offset(u, t)
    ensures r.Success? ==> r.value.attributes.distanceDisplayCondition == u.distanceDisplayConditionProperty.at(t)
  {
    if !u.outlineEnabled then Failure("DeveloperError: This instance does not represent an outlined geometry.")
    else
      var available := u.entity.isAvailable(t);
      var attributes := Attributes(
        ShowValue(available, u.entity.isShowing, u.showProperty.at(t), u.showOutlineProperty.at(t)),
        u.distanceDisplayConditionProperty.at(t),
        Some(OutlineColor(u, t)),
        Offset(u, t));
      Success(GeometryInstance(u.entity.id, EllipseOutlineGeometry(u.options), attributes))
  }

  /** The fill and outline instances of one updater at one time describe the
      same entity, the same options, the same display condition and the same
      offset; neither is shown when the entity is unavailable or hidden, or
      the show property is false at that time. */
  lemma FillAndOutlineAgree(u: Updater, t: Time)
    requires u.fillEnabled && u.outlineEnabled
    ensures var fill := CreateFillGeometryInstance(u, t).value;
            var outline := CreateOutlineGeometryInstance(u, t).value;
            && fill.id == outline.id
            && fill.geometry.options == outline.geometry.options
            && fill.attributes.distanceDisplayCondition == outline.attributes.distanceDisplayCondition
            && fill.attributes.offset == outline.attributes.offset
            && (!u.entity.isAvailable(t) || !u.entity.isShowing || u.showProperty.at(t) == Some(false) ==>
                  fill.attributes.show == Some(false) && outline.attributes.show == Some(false))
  {
  }

  /** `_computeCenter`: the entity position at `t`, if any. */
  function ComputeCenter(entity: Entity, t: Time): (r: Option<Cartesian3>)
    ensures r.Some? ==> entity.position.Some? && entity.position.value.at(t) == r
    ensures entity.position.Some? ==> r == entity.position.value.at(t)
  {
    ValueOrUndefined(entity.position, t)
  }

  // ---------------------------------------------------------------------
  // Derived flags

  /** `_isHidden`: hidden when the position or either axis is unset,
      otherwise whatever the generic check (`baseHidden`) says. */
  predicate IsHidden(entity: Entity, ellipse: EllipseGraphics, baseHidden: bool) {
    entity.position.None? || ellipse.semiMajorAxis.None? || ellipse.semiMinorAxis.None? || baseHidden
  }

  /** The properties `_isDynamic` and `_setStaticOptions` dereference
      without a definedness test. */
  predicate HasDefiningProperties(entity: Entity, ellipse: EllipseGraphics) {
    entity.position.Some? && ellipse.semiMajorAxis.Some? && ellipse.semiMinorAxis.Some?
  }

  /** A visible ellipse has its defining properties, so the generic updater,
      which asks `_isDynamic` and `_setStaticOptions` only of visible shapes,
      never dereferences an unset one. */
  lemma VisibleHasDefiningProperties(entity: Entity, ellipse: EllipseGraphics, baseHidden: bool)
    ensures !IsHidden(entity, ellipse, baseHidden) <==> HasDefiningProperties(entity, ellipse) && !baseHidden
  {
  }

  /** `_isOnTerrain`: drawn as ground geometry when it is filled, neither
      height is set, and the scene supports ground primitives. */
  function IsOnTerrain(fillEnabled: bool, ellipse: EllipseGraphics, groundSupported: bool): (r: bool)
    ensures r ==> fillEnabled && groundSupported
    ensures r ==> ellipse.height.None? && ellipse.extrudedHeight.None?
    ensures fillEnabled && groundSupported && ellipse.height.None? && ellipse.extrudedHeight.None? ==> r
  {
    fillEnabled && ellipse.height.None? && ellipse.extrudedHeight.None? && groundSupported
  }

  /** Whether each of the eleven defining properties is constant, in the
      order `_isDynamic` tests them. */
  function DefiningConstancy(entity: Entity, ellipse: EllipseGraphics): (r: seq<bool>)
    requires HasDefiningProperties(entity, ellipse)
    ensures |r| == 11
  {
    [ entity.position.value.isConstant,
      ellipse.semiMajorAxis.value.isConstant,
      ellipse.semiMinorAxis.value.isConstant,
      IsConstant(ellipse.rotation),
      IsConstant(ellipse.height),
      IsConstant(ellipse.extrudedHeight),
      IsConstant(ellipse.granularity),
      IsConstant(ellipse.stRotation),
      IsConstant(ellipse.outlineWidth),
      IsConstant(ellipse.numberOfVerticalLines),
      IsConstant(ellipse.zIndex) ]
  }

  /** `_isDynamic`: some defining property varies over time, or the ellipse
      is on terrain and its material varies. */
  function IsDynamic(entity: Entity, ellipse: EllipseGraphics, onTerrain: bool, material: MaterialProperty): (r: bool)
    requires HasDefiningProperties(entity, ellipse)
    ensures r <==> (exists i :: 0 <= i < 11 && !DefiningConstancy(entity, ellipse)[i]) || (onTerrain && !material.isConstant)
  {
    var c := DefiningConstancy(entity, ellipse);
    assert (exists i :: 0 <= i < 11 && !c[i]) <==>
      !c[0] || !c[1] || !c[2] || !c[3] || !c[4] || !c[5] || !c[6] || !c[7] || !c[8] || !c[9] || !c[10] by {
      if exists i :: 0 <= i < 11 && !c[i] {
        var i :| 0 <= i < 11 && !c[i];
        assert i in {0, 1, 2, 3, 4, 5, 6, 7, 8, 9, 10};
      }
    }
    !entity.position.value.isConstant
    || !ellipse.semiMajorAxis.value.isConstant
    || !ellipse.semiMinorAxis.value.isConstant
    || !IsConstant(ellipse.rotation)
    || !IsConstant(ellipse.height)
    || !IsConstant(ellipse.extrudedHeight)
    || !IsConstant(ellipse.granularity)
    || !IsConstant(ellipse.stRotation)
    || !IsConstant(ellipse.outlineWidth)
    || !IsConstant(ellipse.numberOfVerticalLines)
    || !IsConstant(ellipse.zIndex)
    || (onTerrain && !material.isConstant)
  }

  /** Off terrain the material never makes an ellipse dynamic; and an ellipse
      whose set properties are all constant is static whatever its unset
      ones. */
  lemma MaterialMattersOnlyOnTerrain(entity: Entity, ellipse: EllipseGraphics, m1: MaterialProperty, m2: MaterialProperty)
    requires HasDefiningProperties(entity, ellipse)
    ensures IsDynamic(entity, ellipse, false, m1) == IsDynamic(entity, ellipse, false, m2)
    ensures m1.isConstant ==> IsDynamic(entity, ellipse, true, m1) == IsDynamic(entity, ellipse, false, m1)
  {
  }

  /** An ellipse with a height or an extruded height, or one that is not
      filled or has no ground support, is drawn off terrain, so its material
      never decides whether it is dynamic; on terrain, a material that varies
      over time makes it dynamic. */
  lemma TerrainDecidesMaterialDynamism(entity: Entity, ellipse: EllipseGraphics, fillEnabled: bool,
                                          groundSupported: bool, m1: MaterialProperty, m2: MaterialProperty)
    requires HasDefiningProperties(entity, ellipse)
    ensures ellipse.height.Some? || ellipse.extrudedHeight.Some? || !fillEnabled || !groundSupported
            ==> IsDynamic(entity, ellipse, IsOnTerrain(fillEnabled, ellipse, groundSupported), m1)
                == IsDynamic(entity, ellipse, IsOnTerrain(fillEnabled, ellipse, groundSupported), m2)
    ensures fillEnabled && groundSupported && ellipse.height.None? && ellipse.extrudedHeight.None? && !m1.isConstant
            ==> IsDynamic(entity, ellipse, IsOnTerrain(fillEnabled, ellipse, groundSupported), m1)
  {
    if ellipse.height.Some? || ellipse.extrudedHeight.Some? || !fillEnabled || !groundSupported {
      assert !IsOnTerrain(fillEnabled, ellipse, groundSupported);
      MaterialMattersOnlyOnTerrain(entity, ellipse, m1, m2);
    }
  }

  /** `_getIsClosed`: an ellipse at height zero is closed; otherwise it is
      closed exactly when it has an extruded height different from its
      height (an undefined height differs from every number). */
  function IsClosed(o: EllipseOptions): (r: bool)
    ensures o.extrudedHeight.None? ==> (r <==> o.height == Some(0.0))
    ensures o.extrudedHeight.Some? && o.height.None? ==> r
    ensures o.extrudedHeight.Some? && o.height.Some? ==>
              (r <==> o.height.value == 0.0 || o.extrudedHeight.value != o.height.value)
  {
    o.height == Some(0.0) || (o.extrudedHeight.Some? && o.extrudedHeight != o.height)
  }

  // ---------------------------------------------------------------------
  // Options

  /** The vertex format `_setStaticOptions` chooses: per-instance colour for
      a solid-colour material, textured otherwise. */
  function VertexFormatFor(material: MaterialProperty): VertexFormat {
    if material.ColorMaterial? then PerInstanceColorFormat else TexturedFormat
  }

  /** Replace the clamp-to-ground sentinel by the minimum terrain height;
      every other sampled extruded height is kept. */
  function ResolveExtrudedHeight(v: Option<ExtrudedHeight>, minimumTerrainHeight: real): (r: Option<real>)
    ensures v.None? ==> r.None?
    ensures v == Some(ClampToGround) ==> r == Some(minimumTerrainHeight)
    ensures v.Some? && v.value.Metres? ==> r == Some(v.value.h)
  {
    match v
    case None => None
    case Some(ClampToGround) => Some(minimumTerrainHeight)
    case Some(Metres(h)) => Some(h)
  }

  /** The options with every defining property sampled at `t` but the
      extruded height not yet replaced: what the terrain lookup sees. */
  function SampledOptions(prev: EllipseOptions, center: Option<Cartesian3>, semiMajorAxis: Option<real>,
                          semiMinorAxis: Option<real>, ellipse: EllipseGraphics, t: Time, ground: GroundHelpers): EllipseOptions
  {
    prev.(center := center,
          semiMajorAxis := semiMajorAxis,
          semiMinorAxis := semiMinorAxis,
          rotation := ValueOrUndefined(ellipse.rotation, t),
          granularity := ValueOrUndefined(ellipse.granularity, t),
          stRotation := ValueOrUndefined(ellipse.stRotation, t),
          numberOfVerticalLines := ValueOrUndefined(ellipse.numberOfVerticalLines, t),
          offsetAttribute := ground.geometryOffsetAttribute(ellipse.heightReference, ellipse.extrudedHeightReference, t),
          height := ground.geometryHeight(ellipse.height, ellipse.heightReference, t))
  }

  /** The extruded height of `SampledOptions` once resolved. */
  function FinishOptions(o: EllipseOptions, ellipse: EllipseGraphics, t: Time, ground: GroundHelpers): EllipseOptions {
    var v := ground.geometryExtrudedHeight(ellipse.extrudedHeight, ellipse.extrudedHeightReference, t);
    o.(extrudedHeight := ResolveExtrudedHeight(v, ground.minimumTerrainHeight(o)))
  }

  /** `_setStaticOptions`: the options sampled at `Iso8601.MINIMUM_VALUE`,
      with the vertex format the material needs. */
  function SetStaticOptions(prev: EllipseOptions, entity: Entity, ellipse: EllipseGraphics,
                            material: MaterialProperty, ground: GroundHelpers): (r: EllipseOptions)
    requires HasDefiningProperties(entity, ellipse)
    ensures r.id == prev.id
    ensures r.vertexFormat == Some(VertexFormatFor(material))
    ensures r.center == entity.position.value.at(Iso8601Minimum)
    ensures r.semiMajorAxis == ellipse.semiMajorAxis.value.at(Iso8601Minimum)
    ensures r.semiMinorAxis == ellipse.semiMinorAxis.value.at(Iso8601Minimum)
    ensures r.height == ground.geometryHeight(ellipse.height, ellipse.heightReference, Iso8601Minimum)
  {
    var o := prev.(vertexFormat := Some(VertexFormatFor(material)));
    var sampled := SampledOptions(o, entity.position.value.at(Iso8601Minimum),
                                  ellipse.semiMajorAxis.value.at(Iso8601Minimum),
                                  ellipse.semiMinorAxis.value.at(Iso8601Minimum), ellipse, Iso8601Minimum, ground);
    FinishOptions(sampled, ellipse, Iso8601Minimum, ground)
  }

  /** `DynamicEllipseGeometryUpdater._setOptions`: the options sampled at
      `t`; identity and vertex format are kept. */
  function SetOptions(prev: EllipseOptions, entity: Entity, ellipse: EllipseGraphics, t: Time,
                      ground: GroundHelpers): (r: EllipseOptions)
    ensures r.id == prev.id && r.vertexFormat == prev.vertexFormat
    ensures r.center == ComputeCenter(entity, t)
    ensures r.semiMajorAxis == ValueOrUndefined(ellipse.semiMajorAxis, t)
    ensures r.semiMinorAxis == ValueOrUndefined(ellipse.semiMinorAxis, t)
    ensures r.rotation == ValueOrUndefined(ellipse.rotation, t)
    ensures r.granularity == ValueOrUndefined(ellipse.granularity, t)
    ensures r.stRotation == ValueOrUndefined(ellipse.stRotation, t)
    ensures r.numberOfVerticalLines == ValueOrUndefined(ellipse.numberOfVerticalLines, t)
    ensures r.offsetAttribute == ground.geometryOffsetAttribute(ellipse.heightReference, ellipse.extrudedHeightReference, t)
    ensures r.height == ground.geometryHeight(ellipse.height, ellipse.heightReference, t)
  {
    var sampled := SampledOptions(prev, ValueOrUndefined(entity.position, t),
                                  ValueOrUndefined(ellipse.semiMajorAxis, t),
                                  ValueOrUndefined(ellipse.semiMinorAxis, t), ellipse, t, ground);
    FinishOptions(sampled, ellipse, t, ground)
  }

  /** The extruded height of the options: the sentinel becomes the minimum
      terrain height under the rectangle of the options sampled so far, and
      every other sampled value is kept unchanged. */
  lemma ExtrudedHeightResolved(prev: EllipseOptions, entity: Entity, ellipse: EllipseGraphics, t: Time, ground: GroundHelpers)
    ensures var v := ground.geometryExtrudedHeight(ellipse.extrudedHeight, ellipse.extrudedHeightReference, t);
            var r := SetOptions(prev, entity, ellipse, t, ground);
            && (v == Some(ClampToGround) ==> r.extrudedHeight == Some(ground.minimumTerrainHeight(r.(extrudedHeight := prev.extrudedHeight))))
            && (v.Some? && v.value.Metres? ==> r.extrudedHeight == Some(v.value.h))
            && (v.None? ==> r.extrudedHeight.None?)
  {
  }

  /** Whether the options `_setOptions` produces are closed, in terms of the
      ground helpers' height and extruded height at `t`: with no extruded
      height only a zero height closes the ellipse; otherwise it is closed
      unless its height equals the resolved extruded height and is not zero. */
  lemma ClosedAfterSetOptions(prev: EllipseOptions, entity: Entity, ellipse: EllipseGraphics, t: Time, ground: GroundHelpers)
    ensures var h := ground.geometryHeight(ellipse.height, ellipse.heightReference, t);
            var v := ground.geometryExtrudedHeight(ellipse.extrudedHeight, ellipse.extrudedHeightReference, t);
            var r := SetOptions(prev, entity, ellipse, t, ground);
            && (v.None? ==> (IsClosed(r) <==> h == Some(0.0)))
            && (v.Some? && v.value.Metres? ==> (IsClosed(r) <==> h == Some(0.0) || h != Some(v.value.h)))
            && (v == Some(ClampToGround) ==>
                  (IsClosed(r) <==> h == Some(0.0) || h != Some(ground.minimumTerrainHeight(r.(extrudedHeight := prev.extrudedHeight)))))
  {
    ExtrudedHeightResolved(prev, entity, ellipse, t, ground);
  }

  /** The static options are the dynamic ones at `Iso8601.MINIMUM_VALUE`,
      once the vertex format is chosen. */
  lemma StaticIsDynamicAtMinimum(prev: EllipseOptions, entity: Entity, ellipse: EllipseGraphics,
                                 material: MaterialProperty, ground: GroundHelpers)
    requires HasDefiningProperties(entity, ellipse)
    ensures SetStaticOptions(prev, entity, ellipse, material, ground)
            == SetOptions(prev.(vertexFormat := Some(VertexFormatFor(material))), entity, ellipse, Iso8601Minimum, ground)
  {
  }

  /** `DynamicEllipseGeometryUpdater._isHidden`: hidden when the sampled
      centre or either sampled axis is undefined, otherwise whatever the
      generic dynamic check (`baseHidden`) says. */
  predicate DynamicIsHidden(options: EllipseOptions, baseHidden: bool) {
    options.center.None? || options.semiMajorAxis.None? || options.semiMinorAxis.None? || baseHidden
  }

  /** After `_setOptions` at `t`, the dynamic ellipse is hidden exactly when
      the position or an axis has no value at `t` (unset, or undefined at
      that time), or the generic check hides it; so whatever the static
      check lets through is dynamically hidden only by a value missing at `t`. */
  lemma DynamicHiddenAfterSetOptions(prev: EllipseOptions, entity: Entity, ellipse: EllipseGraphics, t: Time,
                                     ground: GroundHelpers, baseHidden: bool)
    ensures DynamicIsHidden(SetOptions(prev, entity, ellipse, t, ground), baseHidden) <==>
            ValueOrUndefined(entity.position, t).None? || ValueOrUndefined(ellipse.semiMajorAxis, t).None?
            || ValueOrUndefined(ellipse.semiMinorAxis, t).None? || baseHidden
    ensures IsHidden(entity, ellipse, baseHidden) ==> DynamicIsHidden(SetOptions(prev, entity, ellipse, t, ground), baseHidden)
  {
  }
}

=== FILE: fragment_lines.dfy ===
/** The lines the fragment-shader generator emits (processPbrMaterials.js,
    `generateTechnique`). A fragment shader is recorded as a sequence of these
    lines; `LineText` gives the text of each, without its trailing newline.
 */
module FragmentLines {

  /** A line whose text never varies. */
  datatype FixedLine =
    // directives and structure
    | Precision | IfdefDerivatives | EnableDerivatives | ElseDirective | EndifDirective
    | MainSignature | OpenBrace | CloseBrace | CloseBlock
    // normals
    | GeometricNormalIn | TangentFromVarying | BitangentFromVarying | TangentFrame | NormalFromMap
    | PositionDx | PositionDy | TangentFromDerivatives | Orthogonalize | BitangentFromCross
    | UseGeometricNormal | BackFaceTest | OpenBlock | FlipNormal
    // base colour
    | BaseColorTimesFactor | BaseColorFromFactor | BaseColorWhite | BaseColorTimesVertexColor | BaseColorRgb
    // specular-glossiness
    | SpecularFromTexture | GlossinessFromTexture | SpecularTimesFactor | GlossinessTimesFactor
    | SpecularFromFactor | SpecularWhite | GlossinessFromFactor | GlossinessOne
    | DiffuseTimesFactor | DiffuseFromFactor | DiffuseWhite
    // metallic-roughness
    | MetalnessFromTexture | RoughnessFromTexture | MetalnessTimesFactor | RoughnessTimesFactor
    | MetalnessFromFactor | MetalnessOne | RoughnessFromFactor | RoughnessOne
    // unlit colour, occlusion, emission
    | ColorFromBase | EmissiveTimesFactor | AddEmissive | AddEmissiveFactor
    // output
    | ToSrgb | CutoffTest | Discard | OpaqueWrite | BlendWrite

  /** A line that reads a texture, or takes a derivative of the texture
      coordinates, through the texture-coordinate varying. */
  datatype TextureRead =
    | NormalSample | TexcoordDx | TexcoordDy | BaseColorSample | SpecularGlossinessSample
    | DiffuseSample | MetallicRoughnessSample | OcclusionSample | EmissiveSample

  /** The fixed blocks of numeric GLSL whose text the model does not spell
      out: the BRDF helper functions, the colour-space helper functions, and
      the lighting computation, whose middle lines depend on the material model. */
  datatype OmittedBlock =
    | BrdfFunctions
    | ColorSpaceFunctions
    | Lighting(specularGlossiness: bool)

  /** The texture coordinates a read uses: the varying, or — when the
      primitive has none — the JavaScript value `undefined` concatenated
      into the text. */
  datatype Texcoord = TexcoordVarying | Undefined

  function TexcoordText(tc: Texcoord): string {
    match tc
    case TexcoordVarying => "v_texcoord_0"
    case Undefined => "undefined"
  }

  /** A line of a generated fragment shader: fixed text, a texture read
      through `texcoord`, a declaration, or an omitted block. */
  datatype FragmentLine =
    | Fixed(line: FixedLine)
    | Read(read: TextureRead, texcoord: Texcoord)
    | Declared(text: string)
    | Omitted(block: OmittedBlock)

  function FixedText(l: FixedLine): string {
    match l
    case Precision => "precision highp float;"
    case IfdefDerivatives => "#ifdef GL_OES_standard_derivatives"
    case EnableDerivatives => "#extension GL_OES_standard_derivatives : enable"
    case ElseDirective => "#else"
    case EndifDirective => "#endif"
    case MainSignature => "void main(void) "
    case OpenBrace => "{"
    case CloseBrace => "}"
    case CloseBlock => "    }"
    case GeometricNormalIn => "    vec3 ng = normalize(v_normal);"
    case TangentFromVarying => "    vec3 t = normalize(v_tangent.xyz);"
    case BitangentFromVarying => "    vec3 b = normalize(cross(ng, t) * v_tangent.w);"
    case TangentFrame => "    mat3 tbn = mat3(t, b, ng);"
    case NormalFromMap => "    n = normalize(tbn * (2.0 * n - 1.0));"
    case PositionDx => "    vec3 pos_dx = dFdx(v_positionEC);"
    case PositionDy => "    vec3 pos_dy = dFdy(v_positionEC);"
    case TangentFromDerivatives => "    vec3 t = (tex_dy.t * pos_dx - tex_dx.t * pos_dy) / (tex_dx.s * tex_dy.t - tex_dy.s * tex_dx.t);"
    case Orthogonalize => "    t = normalize(t - ng * dot(ng, t));"
    case BitangentFromCross => "    vec3 b = normalize(cross(ng, t));"
    case UseGeometricNormal => "    vec3 n = ng;"
    case BackFaceTest => "    if (!gl_FrontFacing)"
    case OpenBlock => "    {"
    case FlipNormal => "        n = -n;"
    case BaseColorTimesFactor => "    baseColorWithAlpha *= u_baseColorFactor;"
    case BaseColorFromFactor => "    vec4 baseColorWithAlpha = u_baseColorFactor;"
    case BaseColorWhite => "    vec4 baseColorWithAlpha = vec4(1.0);"
    case BaseColorTimesVertexColor => "    baseColorWithAlpha *= v_vertexColor;"
    case BaseColorRgb => "    vec3 baseColor = baseColorWithAlpha.rgb;"
    case SpecularFromTexture => "    vec3 specular = specularGlossiness.rgb;"
    case GlossinessFromTexture => "    float glossiness = specularGlossiness.a;"
    case SpecularTimesFactor => "    specular *= u_specularFactor;"
    case GlossinessTimesFactor => "    glossiness *= u_glossinessFactor;"
    case SpecularFromFactor => "    vec3 specular = clamp(u_specularFactor, vec3(0.0), vec3(1.0));"
    case SpecularWhite => "    vec3 specular = vec3(1.0);"
    case GlossinessFromFactor => "    float glossiness = clamp(u_glossinessFactor, 0.0, 1.0);"
    case GlossinessOne => "    float glossiness = 1.0;"
    case DiffuseTimesFactor => "    diffuse *= u_diffuseFactor;"
    case DiffuseFromFactor => "    vec4 diffuse = clamp(u_diffuseFactor, vec4(0.0), vec4(1.0));"
    case DiffuseWhite => "    vec4 diffuse = vec4(1.0);"
    case MetalnessFromTexture => "    float metalness = clamp(metallicRoughness.b, 0.0, 1.0);"
    case RoughnessFromTexture => "    float roughness = clamp(metallicRoughness.g, 0.04, 1.0);"
    case MetalnessTimesFactor => "    metalness *= u_metallicFactor;"
    case RoughnessTimesFactor => "    roughness *= u_roughnessFactor;"
    case MetalnessFromFactor => "    float metalness = clamp(u_metallicFactor, 0.0, 1.0);"
    case MetalnessOne => "    float metalness = 1.0;"
    case RoughnessFromFactor => "    float roughness = clamp(u_roughnessFactor, 0.04, 1.0);"
    case RoughnessOne => "    float roughness = 1.0;"
    case ColorFromBase => "    vec3 color = baseColor;"
    case EmissiveTimesFactor => "    emissive *= u_emissiveFactor;"
    case AddEmissive => "    color += emissive;"
    case AddEmissiveFactor => "    color += u_emissiveFactor;"
    case ToSrgb => "    color = LINEARtoSRGB(color);"
    case CutoffTest => "    if (baseColorWithAlpha.a < u_alphaCutoff) {"
    case Discard => "        discard;"
    case OpaqueWrite => "    gl_FragColor = vec4(color, 1.0);"
    case BlendWrite => "    gl_FragColor = vec4(color, baseColorWithAlpha.a);"
  }

  /** The text of a texture read through `texcoord`. */
  function ReadText(r: TextureRead, texcoord: Texcoord): string {
    var tc := TexcoordText(texcoord);
    match r
    case NormalSample => "    vec3 n = texture2D(u_normalTexture, " + tc + ").rgb;"
    case TexcoordDx => "    vec3 tex_dx = dFdx(vec3(" + tc + ",0.0));"
    case TexcoordDy => "    vec3 tex_dy = dFdy(vec3(" + tc + ",0.0));"
    case BaseColorSample => "    vec4 baseColorWithAlpha = SRGBtoLINEAR4(texture2D(u_baseColorTexture, " + tc + "));"
    case SpecularGlossinessSample => "    vec4 specularGlossiness = SRGBtoLINEAR4(texture2D(u_specularGlossinessTexture, " + tc + "));"
    case DiffuseSample => "    vec4 diffuse = SRGBtoLINEAR4(texture2D(u_diffuseTexture, " + tc + "));"
    case MetallicRoughnessSample => "    vec3 metallicRoughness = texture2D(u_metallicRoughnessTexture, " + tc + ").rgb;"
    case OcclusionSample => "    color *= texture2D(u_occlusionTexture, " + tc + ").r;"
    case EmissiveSample => "    vec3 emissive = SRGBtoLINEAR3(texture2D(u_emissiveTexture, " + tc + ").rgb);"
  }

  /** The text of a line; an omitted block has none. */
  function LineText(l: FragmentLine): string {
    match l
    case Fixed(x) => FixedText(x)
    case Read(r, tc) => ReadText(r, tc)
    case Declared(text) => text
    case Omitted(_) => ""
  }
}

=== FILE: fragment_source.dfy ===
/** The generated fragment shader (processPbrMaterials.js, `generateTechnique`):
    the varyings, normal mapping, the base colour, the material-model inputs,
    occlusion and emission, and the alpha output, as a sequence of the lines
    `FragmentLines` defines.
 */
module FragmentSource {
  import opened Wrappers
  import opened OrderedMaps
  import opened Gltf
  import opened FragmentLines
  import opened TechniqueTables
  import opened ShaderDeclarations
  import opened VertexSource
  import MaterialValues

  /** Which of the material values that shape the fragment shader are
      defined: `defined(generatedMaterialValues.u_<name>)` for each. */
  datatype Present = Present(
    normalTexture: bool,
    baseColorTexture: bool, baseColorFactor: bool,
    specularGlossinessTexture: bool, specularFactor: bool, glossinessFactor: bool,
    diffuseTexture: bool, diffuseFactor: bool,
    metallicRoughnessTexture: bool, metallicFactor: bool, roughnessFactor: bool,
    occlusionTexture: bool, emissiveTexture: bool, emissiveFactor: bool)

  /** `defined(generatedMaterialValues.u_<p>)`. */
  predicate ValueDefined(values: OMap<ParamValue>, p: string) {
    IsDefined(Get(values, MaterialValues.UniformName(p)))
  }

  function Presence(values: OMap<ParamValue>): Present {
    Present(
      ValueDefined(values, "normalTexture"),
      ValueDefined(values, "baseColorTexture"), ValueDefined(values, "baseColorFactor"),
      ValueDefined(values, "specularGlossinessTexture"), ValueDefined(values, "specularFactor"),
      ValueDefined(values, "glossinessFactor"),
      ValueDefined(values, "diffuseTexture"), ValueDefined(values, "diffuseFactor"),
      ValueDefined(values, "metallicRoughnessTexture"), ValueDefined(values, "metallicFactor"),
      ValueDefined(values, "roughnessFactor"),
      ValueDefined(values, "occlusionTexture"), ValueDefined(values, "emissiveTexture"),
      ValueDefined(values, "emissiveFactor"))
  }

  /** A parameter the material defines: given, and not `null`. */
  predicate MaterialDefines(m: Material, p: string) {
    IsDefined(MaterialValues.SourceValue(m, p))
  }

  /** A generated value is defined exactly when the material defines its parameter. */
  lemma ValueDefinedFollowsMaterial(m: Material, p: string)
    requires WellFormedMaterial(m)
    ensures ValueDefined(MaterialValues.GenerateMaterialValues(m), p) <==> MaterialDefines(m, p)
  {
    MaterialValues.GeneratedValue(m, p);
  }

  /** The shaping values of a material's generated values are the parameters
      the material itself defines: a parameter set to `null` counts as
      absent, as it does for the source's `defined` tests. */
  lemma PresenceFollowsMaterial(m: Material)
    requires WellFormedMaterial(m)
    ensures Presence(MaterialValues.GenerateMaterialValues(m)).normalTexture <==> MaterialDefines(m, "normalTexture")
    ensures Presence(MaterialValues.GenerateMaterialValues(m)).baseColorTexture <==> MaterialDefines(m, "baseColorTexture")
    ensures Presence(MaterialValues.GenerateMaterialValues(m)).baseColorFactor <==> MaterialDefines(m, "baseColorFactor")
    ensures Presence(MaterialValues.GenerateMaterialValues(m)).specularGlossinessTexture <==> MaterialDefines(m, "specularGlossinessTexture")
    ensures Presence(MaterialValues.GenerateMaterialValues(m)).specularFactor <==> MaterialDefines(m, "specularFactor")
    ensures Presence(MaterialValues.GenerateMaterialValues(m)).glossinessFactor <==> MaterialDefines(m, "glossinessFactor")
    ensures Presence(MaterialValues.GenerateMaterialValues(m)).diffuseTexture <==> MaterialDefines(m, "diffuseTexture")
    ensures Presence(MaterialValues.GenerateMaterialValues(m)).diffuseFactor <==> MaterialDefines(m, "diffuseFactor")
    ensures Presence(MaterialValues.GenerateMaterialValues(m)).metallicRoughnessTexture <==> MaterialDefines(m, "metallicRoughnessTexture")
    ensures Presence(MaterialValues.GenerateMaterialValues(m)).metallicFactor <==> MaterialDefines(m, "metallicFactor")
    ensures Presence(MaterialValues.GenerateMaterialValues(m)).roughnessFactor <==> MaterialDefines(m, "roughnessFactor")
    ensures Presence(MaterialValues.GenerateMaterialValues(m)).occlusionTexture <==> MaterialDefines(m, "occlusionTexture")
    ensures Presence(MaterialValues.GenerateMaterialValues(m)).emissiveTexture <==> MaterialDefines(m, "emissiveTexture")
    ensures Presence(MaterialValues.GenerateMaterialValues(m)).emissiveFactor <==> MaterialDefines(m, "emissiveFactor")
  {
    ValueDefinedFollowsMaterial(m, "normalTexture");
    ValueDefinedFollowsMaterial(m, "baseColorTexture");
    ValueDefinedFollowsMaterial(m, "baseColorFactor");
    ValueDefinedFollowsMaterial(m, "specularGlossinessTexture");
    ValueDefinedFollowsMaterial(m, "specularFactor");
    ValueDefinedFollowsMaterial(m, "glossinessFactor");
    ValueDefinedFollowsMaterial(m, "diffuseTexture");
    ValueDefinedFollowsMaterial(m, "diffuseFactor");
    ValueDefinedFollowsMaterial(m, "metallicRoughnessTexture");
    ValueDefinedFollowsMaterial(m, "metallicFactor");
    ValueDefinedFollowsMaterial(m, "roughnessFactor");
    ValueDefinedFollowsMaterial(m, "occlusionTexture");
    ValueDefinedFollowsMaterial(m, "emissiveTexture");
    ValueDefinedFollowsMaterial(m, "emissiveFactor");
  }

  /** The texture coordinates that texture reads use. The source only names
      the varying when the primitive has texture coordinates. */
  function TexcoordOf(f: Flags): Texcoord {
    if f.hasTexCoords then TexcoordVarying else Undefined
  }

  function Declare(ss: seq<string>): (r: seq<FragmentLine>)
    ensures |r| == |ss|
    ensures forall i :: 0 <= i < |ss| ==> r[i] == Declared(ss[i])
  {
    seq(|ss|, i requires 0 <= i < |ss| => Declared(ss[i]))
  }

  // ----- Declarations -----

  /** The varyings the fragment shader reads, in source order. */
  function FragmentDeclarations(f: Flags): seq<Declaration> {
    (if f.hasNormals then [Varying("vec3", "v_normal"), Varying("vec3", "v_positionEC"), Varying("vec3", "v_positionWC")] else [])
      + (if f.hasTangents then [Varying("vec4", "v_tangent")] else [])
      + (if f.hasTexCoords then [Varying("vec2", "v_texcoord_0")] else [])
      + (if f.hasVertexColors then [Varying("vec4", "v_vertexColor")] else [])
  }

  /** Precision, the fragment-stage uniforms and the varyings. */
  function FragmentHeader(f: Flags, uniforms: OMap<Uniform>): seq<FragmentLine> {
    [Fixed(Precision)]
      + Declare(StageUniformLines(uniforms, FragmentStage))
      + Declare(DeclarationLines(FragmentDeclarations(f)))
  }

  /** The helper functions: the BRDF ones only for lit shading. */
  function HelperBlocks(f: Flags): seq<FragmentLine> {
    (if f.hasNormals then [Omitted(BrdfFunctions)] else []) + [Omitted(ColorSpaceFunctions)]
  }

  // ----- Normals -----

  /** Normal mapping without tangents estimates the tangent frame from
      screen-space derivatives, which need an extension. */
  predicate NeedsDerivatives(f: Flags, p: Present) {
    f.hasNormals && p.normalTexture && !f.hasTangents
  }

  /** The lines put in front of the whole shader to enable the derivatives. */
  const DerivativesPrelude: seq<FragmentLine> := [Fixed(IfdefDerivatives), Fixed(EnableDerivatives), Fixed(EndifDirective)]

  /** The normal-map sample, transformed into the tangent frame. */
  function NormalSampleLines(tc: Texcoord): seq<FragmentLine> {
    [Fixed(TangentFrame), Read(NormalSample, tc), Fixed(NormalFromMap)]
  }

  /** The tangent frame from the tangent varying. */
  function TangentFrameLines(tc: Texcoord): seq<FragmentLine> {
    [Fixed(TangentFromVarying), Fixed(BitangentFromVarying)] + NormalSampleLines(tc)
  }

  /** The tangent frame from derivatives, falling back to the geometric
      normal when the extension is missing. */
  function DerivativeFrameLines(tc: Texcoord): seq<FragmentLine> {
    [Fixed(IfdefDerivatives), Fixed(PositionDx), Fixed(PositionDy)]
      + [Read(TexcoordDx, tc), Read(TexcoordDy, tc)]
      + [Fixed(TangentFromDerivatives), Fixed(Orthogonalize), Fixed(BitangentFromCross)]
      + NormalSampleLines(tc)
      + [Fixed(ElseDirective), Fixed(UseGeometricNormal), Fixed(EndifDirective)]
  }

  /** The shading normal: geometric, or normal-mapped with tangents from the
      varying or from derivatives. */
  function NormalMapLines(f: Flags, p: Present): seq<FragmentLine> {
    if !p.normalTexture then [Fixed(UseGeometricNormal)]
    else if f.hasTangents then TangentFrameLines(TexcoordOf(f))
    else DerivativeFrameLines(TexcoordOf(f))
  }

  /** The normal lines of `main`; double-sided materials flip the normal of back faces. */
  function NormalLines(f: Flags, p: Present, doubleSided: bool): seq<FragmentLine> {
    if !f.hasNormals then []
    else
      [Fixed(GeometricNormalIn)] + NormalMapLines(f, p)
        + (if doubleSided then [Fixed(BackFaceTest), Fixed(OpenBlock), Fixed(FlipNormal), Fixed(CloseBlock)] else [])
  }

  // ----- Base colour and material inputs -----

  /** `baseColorWithAlpha`: texture times factor, factor alone, or white;
      times the vertex colour when there is one. */
  function BaseColorLines(f: Flags, p: Present): seq<FragmentLine> {
    (if p.baseColorTexture then
       [Read(BaseColorSample, TexcoordOf(f))]
         + (if p.baseColorFactor then [Fixed(BaseColorTimesFactor)] else [])
     else if p.baseColorFactor then [Fixed(BaseColorFromFactor)]
     else [Fixed(BaseColorWhite)])
      + (if f.hasVertexColors then [Fixed(BaseColorTimesVertexColor)] else [])
      + [Fixed(BaseColorRgb)]
  }

  /** `specular`, `glossiness` and `diffuse` of the specular-glossiness model. */
  function SpecularGlossinessLines(f: Flags, p: Present): seq<FragmentLine> {
    var tc := TexcoordOf(f);
    (if p.specularGlossinessTexture then
       [Read(SpecularGlossinessSample, tc), Fixed(SpecularFromTexture), Fixed(GlossinessFromTexture)]
         + (if p.specularFactor then [Fixed(SpecularTimesFactor)] else [])
         + (if p.glossinessFactor then [Fixed(GlossinessTimesFactor)] else [])
     else
       [Fixed(if p.specularFactor then SpecularFromFactor else SpecularWhite),
        Fixed(if p.glossinessFactor then GlossinessFromFactor else GlossinessOne)])
      + (if p.diffuseTexture then
           [Read(DiffuseSample, tc)] + (if p.diffuseFactor then [Fixed(DiffuseTimesFactor)] else [])
         else if p.diffuseFactor then [Fixed(DiffuseFromFactor)]
         else [Fixed(DiffuseWhite)])
  }

  /** `metalness` and `roughness` of the metallic-roughness model. */
  function MetallicRoughnessLines(f: Flags, p: Present): seq<FragmentLine> {
    if p.metallicRoughnessTexture then
      [Read(MetallicRoughnessSample, TexcoordOf(f)), Fixed(MetalnessFromTexture), Fixed(RoughnessFromTexture)]
        + (if p.metallicFactor then [Fixed(MetalnessTimesFactor)] else [])
        + (if p.roughnessFactor then [Fixed(RoughnessTimesFactor)] else [])
    else
      [Fixed(if p.metallicFactor then MetalnessFromFactor else MetalnessOne),
       Fixed(if p.roughnessFactor then RoughnessFromFactor else RoughnessOne)]
  }

  /** Lit shading with normals; otherwise the colour is the base colour. */
  function ShadingLines(f: Flags, p: Present, useSpecGloss: bool): seq<FragmentLine> {
    if f.hasNormals then
      (if useSpecGloss then SpecularGlossinessLines(f, p) else MetallicRoughnessLines(f, p))
        + [Omitted(Lighting(useSpecGloss))]
    else [Fixed(ColorFromBase)]
  }

  /** Occlusion and emission, both ignored by unlit materials. */
  function OcclusionEmissiveLines(f: Flags, p: Present): seq<FragmentLine> {
    var tc := TexcoordOf(f);
    if f.isUnlit then []
    else
      (if p.occlusionTexture then [Read(OcclusionSample, tc)] else [])
        + (if p.emissiveTexture then
             [Read(EmissiveSample, tc)]
               + (if p.emissiveFactor then [Fixed(EmissiveTimesFactor)] else [])
               + [Fixed(AddEmissive)]
           else if p.emissiveFactor then [Fixed(AddEmissiveFactor)]
           else [])
  }

  // ----- Alpha output -----

  /** The colour output for the material's `alphaMode`. */
  function AlphaLines(alphaMode: Option<string>): seq<FragmentLine> {
    if alphaMode == Some("MASK") then [Fixed(CutoffTest), Fixed(Discard), Fixed(CloseBlock), Fixed(OpaqueWrite)]
    else if alphaMode == Some("BLEND") then [Fixed(BlendWrite)]
    else [Fixed(OpaqueWrite)]
  }

  /** What becomes of a fragment: thrown away, or written with some alpha. */
  datatype Coverage = Discarded | Written(alpha: real) | Unwritten

  /** The alpha modes of glTF 2.0 (section 3.9.4, "Alpha Coverage"): `MASK`
      discards fragments whose alpha is below the cutoff and makes the rest
      opaque, `BLEND` keeps the base colour's alpha, and `OPAQUE` — the
      default, and what any other value falls back to here — ignores it. */
  function IntendedCoverage(alphaMode: Option<string>, baseAlpha: real, cutoff: real): Coverage {
    if alphaMode == Some("MASK") then (if baseAlpha < cutoff then Discarded else Written(1.0))
    else if alphaMode == Some("BLEND") then Written(baseAlpha)
    else Written(1.0)
  }

  /** Runs the colour-output statements of `main`: the cutoff test with its
      block discards the fragment, each write to `gl_FragColor` replaces the
      previous one, and every other statement leaves the output alone. */
  function RunOutput(lines: seq<FragmentLine>, baseAlpha: real, cutoff: real): Coverage
    decreases |lines|
  {
    if |lines| == 0 then Unwritten
    else if |lines| >= 3 && lines[0] == Fixed(CutoffTest) && lines[1] == Fixed(Discard) && lines[2] == Fixed(CloseBlock) then
      if baseAlpha < cutoff then Discarded else RunOutput(lines[3..], baseAlpha, cutoff)
    else
      var later := RunOutput(lines[1..], baseAlpha, cutoff);
      if later != Unwritten then later
      else if lines[0] == Fixed(OpaqueWrite) then Written(1.0)
      else if lines[0] == Fixed(BlendWrite) then Written(baseAlpha)
      else Unwritten
  }

  /** A write followed by statements that write nothing is what counts. */
  lemma RunWrite(w: FixedLine, baseAlpha: real, cutoff: real)
    requires w == OpaqueWrite || w == BlendWrite
    ensures RunOutput([Fixed(w), Fixed(CloseBrace)], baseAlpha, cutoff)
            == (if w == OpaqueWrite then Written(1.0) else Written(baseAlpha))
  {
    var close := [Fixed(CloseBrace)];
    assert close[1..] == [];
    assert RunOutput(close, baseAlpha, cutoff) == Unwritten;
    assert [Fixed(w), Fixed(CloseBrace)][1..] == close;
  }

  /** The generated output realises the alpha mode: running the statements
      from the conversion to sRGB to the closing brace gives the coverage
      glTF prescribes, for every base alpha and cutoff. */
  lemma AlphaOutputMatchesMode(alphaMode: Option<string>, baseAlpha: real, cutoff: real)
    ensures RunOutput([Fixed(ToSrgb)] + AlphaLines(alphaMode) + [Fixed(CloseBrace)], baseAlpha, cutoff)
            == IntendedCoverage(alphaMode, baseAlpha, cutoff)
  {
    var write := if alphaMode == Some("BLEND") then BlendWrite else OpaqueWrite;
    RunWrite(write, baseAlpha, cutoff);
    var tail := [Fixed(write), Fixed(CloseBrace)];
    var all := [Fixed(ToSrgb)] + AlphaLines(alphaMode) + [Fixed(CloseBrace)];
    if alphaMode == Some("MASK") {
      var body := [Fixed(CutoffTest), Fixed(Discard), Fixed(CloseBlock)] + tail;
      assert all == [Fixed(ToSrgb)] + body;
      assert all[1..] == body;
      assert body[3..] == tail;
    } else {
      assert all == [Fixed(ToSrgb)] + tail;
      assert all[1..] == tail;
    }
  }

  // ----- The whole shader -----

  /** `main`: normals, base colour, shading, occlusion and emission, the
      conversion back to sRGB and the alpha output. */
  function FragmentMain(f: Flags, p: Present, doubleSided: bool, useSpecGloss: bool,
                        alphaMode: Option<string>): seq<FragmentLine> {
    [Fixed(MainSignature), Fixed(OpenBrace)]
      + NormalLines(f, p, doubleSided)
      + BaseColorLines(f, p)
      + ShadingLines(f, p, useSpecGloss)
      + OcclusionEmissiveLines(f, p)
      + [Fixed(ToSrgb)] + AlphaLines(alphaMode) + [Fixed(CloseBrace)]
  }

  /** The whole fragment shader, with the derivatives prelude in front when
      the normal lines take derivatives. */
  function FragmentShaderLines(f: Flags, uniforms: OMap<Uniform>, p: Present, doubleSided: bool,
                               useSpecGloss: bool, alphaMode: Option<string>): seq<FragmentLine> {
    (if NeedsDerivatives(f, p) then DerivativesPrelude else [])
      + FragmentHeader(f, uniforms)
      + HelperBlocks(f)
      + FragmentMain(f, p, doubleSided, useSpecGloss, alphaMode)
  }

  // ----- Properties -----

  /** The normal lines take derivatives exactly when normal mapping has no tangents. */
  lemma DerivativesUsedExactlyWhenNeeded(f: Flags, p: Present, doubleSided: bool)
    ensures Fixed(PositionDx) in NormalLines(f, p, doubleSided) <==> NeedsDerivatives(f, p)
  {
    if NeedsDerivatives(f, p) {
      assert NormalLines(f, p, doubleSided)[2] == Fixed(PositionDx);
    }
  }

  /** The derivatives prelude comes first exactly when the shader takes
      derivatives; otherwise the shader starts with its precision line. */
  lemma PreludeExactlyWhenNeeded(f: Flags, uniforms: OMap<Uniform>, p: Present, doubleSided: bool,
                                 useSpecGloss: bool, alphaMode: Option<string>)
    ensures var s := FragmentShaderLines(f, uniforms, p, doubleSided, useSpecGloss, alphaMode);
            && (NeedsDerivatives(f, p) ==> |s| > 3 && s[..3] == DerivativesPrelude && s[3] == Fixed(Precision))
            && (!NeedsDerivatives(f, p) ==> |s| > 0 && s[0] == Fixed(Precision))
  {
  }

  /** The varyings agree between the stages: the fragment shader declares
      only varyings, each declared identically by the vertex shader, and
      every varying of the vertex shader is read by the fragment shader. */
  lemma VaryingsAgree(f: Flags, targets: seq<MorphTarget>, batchId: bool, d: Declaration)
    ensures d in FragmentDeclarations(f) ==> d.Varying? && d in VertexDeclarations(f, targets, batchId)
    ensures d.Varying? && d in VertexDeclarations(f, targets, batchId) ==> d in FragmentDeclarations(f)
  {
    var pos := PositionDeclarations(f);
    var morph := MorphDeclarations(f, targets);
    var flags := FlagDeclarations(f, batchId);
    assert VertexDeclarations(f, targets, batchId) == pos + morph + flags;
    MorphDeclarationsAreAttributes(f, targets, d);
    FragmentVaryingsInVertex(f, batchId, d);
    VertexVaryingsInFragment(f, batchId, d);
  }

  /** The morph declarations declare attributes only. */
  lemma MorphDeclarationsAreAttributes(f: Flags, targets: seq<MorphTarget>, d: Declaration)
    ensures d in MorphDeclarations(f, targets) ==> d.Attribute?
  {
  }

  /** Each fragment varying is a position or flag varying of the vertex shader. */
  lemma FragmentVaryingsInVertex(f: Flags, batchId: bool, d: Declaration)
    ensures d in FragmentDeclarations(f) ==> d.Varying? && (d in PositionDeclarations(f) || d in FlagDeclarations(f, batchId))
  {
  }

  /** Each position or flag varying of the vertex shader is a fragment varying. */
  lemma VertexVaryingsInFragment(f: Flags, batchId: bool, d: Declaration)
    ensures d.Varying? && (d in PositionDeclarations(f) || d in FlagDeclarations(f, batchId)) ==> d in FragmentDeclarations(f)
  {
  }

  /** Every fragment-stage uniform of the table, and every varying, is
      declared in the header. */
  lemma HeaderDeclares(f: Flags, uniforms: OMap<Uniform>, e: Entry<Uniform>, d: Declaration)
    ensures e in uniforms && StageOf(e.key, e.value) == FragmentStage
            ==> Declared(UniformDeclaration(e.key, e.value)) in FragmentHeader(f, uniforms)
    ensures d in FragmentDeclarations(f) ==> Declared(DeclarationLine(d)) in FragmentHeader(f, uniforms)
  {
    var us := StageUniformLines(uniforms, FragmentStage);
    var ds := DeclarationLines(FragmentDeclarations(f));
    assert FragmentHeader(f, uniforms) == [Fixed(Precision)] + Declare(us) + Declare(ds);
    if e in uniforms && StageOf(e.key, e.value) == FragmentStage {
      UniformDeclaredInStage(uniforms, e);
      DeclareKeeps(us, UniformDeclaration(e.key, e.value));
    }
    if d in FragmentDeclarations(f) {
      DeclarationLinesDeclare(FragmentDeclarations(f), d);
      DeclareKeeps(ds, DeclarationLine(d));
    }
  }

  /** A declared line is among the lines `Declare` makes. */
  lemma DeclareKeeps(ss: seq<string>, x: string)
    requires x in ss
    ensures Declared(x) in Declare(ss)
  {
    var i :| 0 <= i < |ss| && ss[i] == x;
    assert Declare(ss)[i] == Declared(x);
  }

  /** The header is part of the shader. */
  lemma HeaderInShader(f: Flags, uniforms: OMap<Uniform>, p: Present, doubleSided: bool,
                       useSpecGloss: bool, alphaMode: Option<string>, l: FragmentLine)
    requires l in FragmentHeader(f, uniforms)
    ensures l in FragmentShaderLines(f, uniforms, p, doubleSided, useSpecGloss, alphaMode)
  {
    var pre := if NeedsDerivatives(f, p) then DerivativesPrelude else [];
    var rest := HelperBlocks(f) + FragmentMain(f, p, doubleSided, useSpecGloss, alphaMode);
    var h := FragmentHeader(f, uniforms);
    assert FragmentShaderLines(f, uniforms, p, doubleSided, useSpecGloss, alphaMode) == pre + h + rest;
    assert l in pre + h;
  }

  /** Every fragment-stage uniform of the table, and every varying, is
      declared in the fragment shader. */
  lemma FragmentShaderDeclares(f: Flags, uniforms: OMap<Uniform>, p: Present, doubleSided: bool,
                               useSpecGloss: bool, alphaMode: Option<string>, e: Entry<Uniform>, d: Declaration)
    ensures e in uniforms && StageOf(e.key, e.value) == FragmentStage
            ==> Declared(UniformDeclaration(e.key, e.value)) in FragmentShaderLines(f, uniforms, p, doubleSided, useSpecGloss, alphaMode)
    ensures d in FragmentDeclarations(f)
            ==> Declared(DeclarationLine(d)) in FragmentShaderLines(f, uniforms, p, doubleSided, useSpecGloss, alphaMode)
  {
    HeaderDeclares(f, uniforms, e, d);
    var u := Declared(UniformDeclaration(e.key, e.value));
    var v := Declared(DeclarationLine(d));
    if u in FragmentHeader(f, uniforms) {
      HeaderInShader(f, uniforms, p, doubleSided, useSpecGloss, alphaMode, u);
    }
    if v in FragmentHeader(f, uniforms) {
      HeaderInShader(f, uniforms, p, doubleSided, useSpecGloss, alphaMode, v);
    }
  }

  /** When each texture read belongs in `main`: the normal map and the
      material-model textures only with lit shading, the derivative reads only
      for normal mapping without tangents, occlusion and emission only for
      materials that are not unlit, each only when its value is defined. */
  predicate ReadWanted(r: TextureRead, f: Flags, p: Present, useSpecGloss: bool) {
    match r
    case NormalSample => f.hasNormals && p.normalTexture
    case TexcoordDx => NeedsDerivatives(f, p)
    case TexcoordDy => NeedsDerivatives(f, p)
    case BaseColorSample => p.baseColorTexture
    case SpecularGlossinessSample => f.hasNormals && useSpecGloss && p.specularGlossinessTexture
    case DiffuseSample => f.hasNormals && useSpecGloss && p.diffuseTexture
    case MetallicRoughnessSample => f.hasNormals && !useSpecGloss && p.metallicRoughnessTexture
    case OcclusionSample => !f.isUnlit && p.occlusionTexture
    case EmissiveSample => !f.isUnlit && p.emissiveTexture
  }

  lemma NormalReads(f: Flags, p: Present, doubleSided: bool, useSpecGloss: bool, r: TextureRead, tc: Texcoord)
    ensures Read(r, tc) in NormalLines(f, p, doubleSided)
            <==> (r.NormalSample? || r.TexcoordDx? || r.TexcoordDy?) && ReadWanted(r, f, p, useSpecGloss) && tc == TexcoordOf(f)
  {
    if f.hasNormals && p.normalTexture {
      if f.hasTangents {
        TangentFrameReads(TexcoordOf(f), r, tc);
      } else {
        DerivativeFrameReads(TexcoordOf(f), r, tc);
      }
    }
  }

  /** The tangent frame from the varying samples only the normal map. */
  lemma TangentFrameReads(t: Texcoord, r: TextureRead, tc: Texcoord)
    ensures Read(r, tc) in TangentFrameLines(t) <==> r.NormalSample? && tc == t
  {
    assert TangentFrameLines(t)[3] == Read(NormalSample, t);
  }

  /** The tangent frame from derivatives differentiates the texture
      coordinates and samples the normal map. */
  lemma DerivativeFrameReads(t: Texcoord, r: TextureRead, tc: Texcoord)
    ensures Read(r, tc) in DerivativeFrameLines(t) <==> (r.NormalSample? || r.TexcoordDx? || r.TexcoordDy?) && tc == t
  {
    var d := DerivativeFrameLines(t);
    assert d[3] == Read(TexcoordDx, t) && d[4] == Read(TexcoordDy, t) && d[9] == Read(NormalSample, t);
  }

  lemma BaseColorReads(f: Flags, p: Present, useSpecGloss: bool, r: TextureRead, tc: Texcoord)
    ensures Read(r, tc) in BaseColorLines(f, p)
            <==> r.BaseColorSample? && ReadWanted(r, f, p, useSpecGloss) && tc == TexcoordOf(f)
  {
  }

  lemma ShadingReads(f: Flags, p: Present, useSpecGloss: bool, r: TextureRead, tc: Texcoord)
    ensures Read(r, tc) in ShadingLines(f, p, useSpecGloss)
            <==> (r.SpecularGlossinessSample? || r.DiffuseSample? || r.MetallicRoughnessSample?)
                 && ReadWanted(r, f, p, useSpecGloss) && tc == TexcoordOf(f)
  {
    if f.hasNormals && useSpecGloss {
      var s := SpecularGlossinessLines(f, p);
      if p.diffuseTexture {
        assert Read(DiffuseSample, TexcoordOf(f)) in s;
      }
    }
  }

  lemma OcclusionEmissiveReads(f: Flags, p: Present, useSpecGloss: bool, r: TextureRead, tc: Texcoord)
    ensures Read(r, tc) in OcclusionEmissiveLines(f, p)
            <==> (r.OcclusionSample? || r.EmissiveSample?) && ReadWanted(r, f, p, useSpecGloss) && tc == TexcoordOf(f)
  {
  }

  /** `main` samples each texture exactly when it is wanted, always through
      the primitive's texture coordinates. */
  lemma MainReadsWantedTextures(f: Flags, p: Present, doubleSided: bool, useSpecGloss: bool,
                                alphaMode: Option<string>, r: TextureRead, tc: Texcoord)
    ensures Read(r, tc) in FragmentMain(f, p, doubleSided, useSpecGloss, alphaMode)
            <==> ReadWanted(r, f, p, useSpecGloss) && tc == TexcoordOf(f)
  {
    NormalReads(f, p, doubleSided, useSpecGloss, r, tc);
    BaseColorReads(f, p, useSpecGloss, r, tc);
    ShadingReads(f, p, useSpecGloss, r, tc);
    OcclusionEmissiveReads(f, p, useSpecGloss, r, tc);
    OutputReadsNothing(alphaMode, r, tc);
  }

  /** The lines from the conversion to sRGB to the closing brace read no texture. */
  lemma OutputReadsNothing(alphaMode: Option<string>, r: TextureRead, tc: Texcoord)
    ensures Read(r, tc) !in [Fixed(ToSrgb)] + AlphaLines(alphaMode) + [Fixed(CloseBrace)]
  {
  }
}

=== FILE: gltf.dfy ===
/** The parts of a glTF 2.0 document that the PBR technique generator reads:
    materials, mesh primitives, skins, and the uniform records it writes.
 */
module Gltf {
  import opened Wrappers
  import opened OrderedMaps
  import opened Text

  /** Accessor element types (glTF 2.0 `accessor.type`). */
  datatype AccessorType = Scalar | Vec2 | Vec3 | Vec4 | Mat2 | Mat3 | Mat4

  /** The type's name as it appears in the document. */
  function TypeName(t: AccessorType): string {
    match t
    case Scalar => "SCALAR"
    case Vec2 => "VEC2"
    case Vec3 => "VEC3"
    case Vec4 => "VEC4"
    case Mat2 => "MAT2"
    case Mat3 => "MAT3"
    case Mat4 => "MAT4"
  }

  /** Number of components of one element (`numberOfComponentsForType`). */
  function NumberOfComponents(t: AccessorType): nat {
    match t
    case Scalar => 1
    case Vec2 => 2
    case Vec3 => 3
    case Vec4 => 4
    case Mat2 => 4
    case Mat3 => 9
    case Mat4 => 16
  }

  /** The GLSL type of an attribute holding one element (`getShaderVariable`). */
  function ShaderVariable(t: AccessorType): string {
    match t
    case Scalar => "float"
    case Vec2 => "vec2"
    case Vec3 => "vec3"
    case Vec4 => "vec4"
    case Mat2 => "mat2"
    case Mat3 => "mat3"
    case Mat4 => "mat4"
  }

  /** The type name starts with "MAT" exactly for the matrix types. */
  lemma MatrixTypeNames(t: AccessorType)
    ensures StartsWith(TypeName(t), "MAT") <==> t in {Mat2, Mat3, Mat4}
  {
    StartsWithIsPrefix(TypeName(t), "MAT");
    if t in {Mat2, Mat3, Mat4} {
      assert TypeName(t)[..3] == "MAT";
    } else if |TypeName(t)| >= 3 {
      assert TypeName(t)[..3] != "MAT" by {
        assert TypeName(t)[..3][0] == TypeName(t)[0];
      }
    }
  }

  /** WebGL uniform types used by the generated techniques. */
  datatype GlType = Float | FloatVec3 | FloatVec4 | FloatMat3 | FloatMat4 | Sampler2D

  /** The WebGL constant standing for the type. */
  function GlCode(t: GlType): nat {
    match t
    case Float => 5126
    case FloatVec3 => 35665
    case FloatVec4 => 35666
    case FloatMat3 => 35675
    case FloatMat4 => 35676
    case Sampler2D => 35678
  }

  /** `webGLConstantToGlslType`; an undefined type is rendered as JavaScript renders `undefined`. */
  function GlslTypeName(t: Option<GlType>): string {
    match t
    case None => "undefined"
    case Some(Float) => "float"
    case Some(FloatVec3) => "vec3"
    case Some(FloatVec4) => "vec4"
    case Some(FloatMat3) => "mat3"
    case Some(FloatMat4) => "mat4"
    case Some(Sampler2D) => "sampler2D"
  }

  /** A material parameter value. The generator copies values without
      inspecting them; only the fragment shader's `defined` tests look at
      them, and those reject JSON `null`. */
  datatype ParamValue =
    | Number(x: real)
    | Numbers(xs: seq<real>)
    | TextureInfo(index: nat, texCoord: nat)
    | Null
    | Other(json: string)

  /** JavaScript's `defined`: the value is neither `undefined` (absent) nor `null`. */
  predicate IsDefined(v: Option<ParamValue>) {
    v.Some? && v.value != Null
  }

  /** `material.extensions.KHR_techniques_webgl` as written by the generator. */
  datatype MaterialTechnique = MaterialTechnique(values: OMap<ParamValue>, technique: nat)

  /** `material.extensions`: the specular-glossiness parameters, whether the
      unlit extension is present, and the technique binding. */
  datatype MaterialExtensions = MaterialExtensions(
    pbrSpecularGlossiness: Option<OMap<ParamValue>>,
    unlit: bool,
    techniquesWebgl: Option<MaterialTechnique>)

  /** A glTF material. `additional` holds the material's other own properties
      (`normalTexture`, `emissiveFactor`, `name`, …) in declaration order. */
  datatype Material = Material(
    pbrMetallicRoughness: Option<OMap<ParamValue>>,
    additional: OMap<ParamValue>,
    alphaMode: Option<string>,
    doubleSided: bool,
    extensions: Option<MaterialExtensions>)

  predicate IsSpecularGlossiness(m: Material) {
    m.extensions.Some? && m.extensions.value.pbrSpecularGlossiness.Some?
  }

  predicate IsUnlit(m: Material) {
    m.extensions.Some? && m.extensions.value.unlit
  }

  /** Every parameter block of the material is a JavaScript object, so its keys are distinct. */
  predicate WellFormedMaterial(m: Material) {
    && UniqueKeys(m.additional)
    && (m.pbrMetallicRoughness.Some? ==> UniqueKeys(m.pbrMetallicRoughness.value))
    && (IsSpecularGlossiness(m) ==> UniqueKeys(m.extensions.value.pbrSpecularGlossiness.value))
  }

  /** Skinning facts about the primitives that use a material. */
  datatype SkinningInfo = SkinningInfo(skinned: bool, weightType: AccessorType)

  /** Vertex-layout facts about the primitives that use a material. */
  datatype PrimitiveInfo = PrimitiveInfo(
    skinning: SkinningInfo,
    hasVertexColors: bool,
    hasMorphTargets: bool,
    hasNormals: bool,
    hasTangents: bool,
    hasTexCoords: bool)

  /** A morph target: the own keys of the target object (`POSITION`, `NORMAL`, …), in order. */
  datatype MorphTarget = MorphTarget(attributeNames: seq<string>)

  datatype MeshPrimitive = MeshPrimitive(material: Option<nat>, targets: Option<seq<MorphTarget>>)

  datatype Mesh = Mesh(primitives: seq<MeshPrimitive>)

  datatype Skin = Skin(joints: seq<nat>)

  /** A technique uniform: `{type, semantic, count}`; an absent type is JavaScript `undefined`. */
  datatype Uniform = Uniform(glType: Option<GlType>, semantic: Option<string>, count: Option<nat>)
}

=== FILE: material_values.dfy ===
/** The material value extractor: the flat `u_<parameter>` → value map that
    `generateTechnique` builds from a material (processPbrMaterials.js), and
    the uniform type of each generated name (`getPBRValueType`).
 */
module MaterialValues {
  import opened Wrappers
  import opened OrderedMaps
  import opened Text
  import opened Gltf

  const UniformPrefix: string := "u_"

  /** The uniform name generated for a parameter name. */
  function UniformName(parameter: string): string {
    UniformPrefix + parameter
  }

  lemma UniformNameInjective(p: string, q: string)
    requires UniformName(p) == UniformName(q)
    ensures p == q
  {
    assert p == UniformName(p)[2..];
    assert q == UniformName(q)[2..];
  }

  /** Renames every parameter `p` to `u_p`, keeping order and values. */
  function Prefixed(es: OMap<ParamValue>): (r: OMap<ParamValue>)
    ensures |r| == |es|
    ensures forall i :: 0 <= i < |r| ==> r[i] == Entry(UniformName(es[i].key), es[i].value)
    ensures forall k :: k in Keys(r) ==> |k| >= 2 && k[..2] == UniformPrefix
  {
    if |es| == 0 then []
    else
      var rest := Prefixed(es[1..]);
      var r := [Entry(UniformName(es[0].key), es[0].value)] + rest;
      assert forall i :: 1 <= i < |r| ==> r[i] == rest[i - 1] && es[i] == es[1..][i - 1];
      r
  }

  lemma {:induction false} PrefixedGet(es: OMap<ParamValue>, p: string)
    ensures Get(Prefixed(es), UniformName(p)) == Get(es, p)
  {
    if |es| > 0 {
      if es[0].key != p {
        if UniformName(es[0].key) == UniformName(p) {
          UniformNameInjective(es[0].key, p);
        }
      }
      PrefixedGet(es[1..], p);
    }
  }

  lemma {:induction false} PrefixedKeys(es: OMap<ParamValue>, p: string)
    ensures UniformName(p) in Keys(Prefixed(es)) <==> p in Keys(es)
  {
    PrefixedGet(es, p);
  }

  lemma {:induction false} PrefixedUnique(es: OMap<ParamValue>)
    requires UniqueKeys(es)
    ensures UniqueKeys(Prefixed(es))
  {
    if |es| > 0 {
      PrefixedUnique(es[1..]);
      PrefixedKeys(es[1..], es[0].key);
    }
  }

  /** The additional-property filter: the name contains "Texture" or "Factor". */
  predicate IsTextureOrFactorName(name: string) {
    Contains(name, "Texture") || Contains(name, "Factor")
  }

  /** The material's own properties that pass the additional-property filter, in order. */
  function TextureAndFactorProperties(es: OMap<ParamValue>): (r: OMap<ParamValue>)
    ensures forall e :: e in r <==> e in es && IsTextureOrFactorName(e.key)
    ensures forall k :: k in Keys(r) ==> IsTextureOrFactorName(k)
    ensures forall k :: IsTextureOrFactorName(k) ==> Get(r, k) == Get(es, k)
    ensures UniqueKeys(es) ==> UniqueKeys(r)
  {
    if |es| == 0 then []
    else if IsTextureOrFactorName(es[0].key) then
      var rest := TextureAndFactorProperties(es[1..]);
      var r := [es[0]] + rest;
      assert r[1..] == rest;
      r
    else TextureAndFactorProperties(es[1..])
  }

  /** The filter keeps the order of the properties: filtering a run of
      properties followed by another is filtering each and concatenating, so
      a kept property comes before every kept property that follows it. */
  lemma {:induction false} TextureAndFactorOrder(a: OMap<ParamValue>, b: OMap<ParamValue>)
    ensures TextureAndFactorProperties(a + b) == TextureAndFactorProperties(a) + TextureAndFactorProperties(b)
  {
    if |a| > 0 {
      assert (a + b)[1..] == a[1..] + b;
      TextureAndFactorOrder(a[1..], b);
    } else {
      assert a + b == b;
    }
  }

  /** The parameters of the active material model: the specular-glossiness
      block when that extension is present, else the metallic-roughness block. */
  function ModelParameters(m: Material): OMap<ParamValue> {
    if IsSpecularGlossiness(m) then m.extensions.value.pbrSpecularGlossiness.value
    else if m.pbrMetallicRoughness.Some? then m.pbrMetallicRoughness.value
    else []
  }

  /** `generatedMaterialValues` after the three extraction loops. */
  function GenerateMaterialValues(m: Material): (values: OMap<ParamValue>)
    ensures UniqueKeys(values)
    ensures forall k :: k in Keys(values) ==> |k| >= 2 && k[..2] == UniformPrefix
  {
    var fromModel := PutAll([], Prefixed(ModelParameters(m)));
    PutAllKeys([], Prefixed(ModelParameters(m)));
    PutAllKeys(fromModel, Prefixed(TextureAndFactorProperties(m.additional)));
    PutAll(fromModel, Prefixed(TextureAndFactorProperties(m.additional)))
  }

  /** What the source material says about parameter `p`: a top-level texture
      or factor property wins over the active model's parameter of the same name. */
  function SourceValue(m: Material, p: string): Option<ParamValue> {
    if IsTextureOrFactorName(p) && p in Keys(m.additional) then Get(m.additional, p)
    else Get(ModelParameters(m), p)
  }

  /** Every generated value is the value of the parameter it is named after,
      the later (top-level) write winning, and nothing else is generated. */
  lemma {:induction false} GeneratedValue(m: Material, p: string)
    requires WellFormedMaterial(m)
    ensures Get(GenerateMaterialValues(m), UniformName(p)) == SourceValue(m, p)
  {
    var model := Prefixed(ModelParameters(m));
    var extra := Prefixed(TextureAndFactorProperties(m.additional));
    PrefixedUnique(ModelParameters(m));
    PrefixedUnique(TextureAndFactorProperties(m.additional));
    PutAllGet([], model, UniformName(p));
    PutAllGet(PutAll([], model), extra, UniformName(p));
    PrefixedGet(ModelParameters(m), p);
    PrefixedGet(TextureAndFactorProperties(m.additional), p);
  }

  /** With the specular-glossiness extension present, no metallic-roughness
      parameter is extracted unless a top-level property of the same name exists. */
  lemma SpecularGlossinessExcludesMetallicRoughness(m: Material, p: string)
    requires WellFormedMaterial(m) && IsSpecularGlossiness(m)
    requires p !in Keys(m.extensions.value.pbrSpecularGlossiness.value)
    requires !(IsTextureOrFactorName(p) && p in Keys(m.additional))
    ensures UniformName(p) !in Keys(GenerateMaterialValues(m))
  {
    GeneratedValue(m, p);
  }

  /** The uniform names `getPBRValueType` knows. */
  const PbrUniformNames: set<string> := {
    "u_baseColorFactor", "u_metallicFactor", "u_roughnessFactor",
    "u_baseColorTexture", "u_metallicRoughnessTexture", "u_normalTexture",
    "u_occlusionTexture", "u_emissiveTexture", "u_emissiveFactor",
    "u_diffuseFactor", "u_specularFactor", "u_glossinessFactor",
    "u_diffuseTexture", "u_specularGlossinessTexture"
  }

  /** `getPBRValueType`: the uniform type of a generated material value, or
      `undefined` for a name outside the known set. No material value is a matrix. */
  function PbrValueType(name: string): (t: Option<GlType>)
    ensures t.Some? <==> name in PbrUniformNames
    ensures t.Some? ==> t.value != FloatMat3 && t.value != FloatMat4
  {
    match name
    case "u_baseColorFactor" => Some(FloatVec4)
    case "u_metallicFactor" => Some(Float)
    case "u_roughnessFactor" => Some(Float)
    case "u_baseColorTexture" => Some(Sampler2D)
    case "u_metallicRoughnessTexture" => Some(Sampler2D)
    case "u_normalTexture" => Some(Sampler2D)
    case "u_occlusionTexture" => Some(Sampler2D)
    case "u_emissiveTexture" => Some(Sampler2D)
    case "u_emissiveFactor" => Some(FloatVec3)
    case "u_diffuseFactor" => Some(FloatVec4)
    case "u_specularFactor" => Some(FloatVec3)
    case "u_glossinessFactor" => Some(Float)
    case "u_diffuseTexture" => Some(Sampler2D)
    case "u_specularGlossinessTexture" => Some(Sampler2D)
    case _ => None
  }

  /** Among the known names, exactly the texture names get a sampler type. */
  lemma TexturesAreSamplers(name: string)
    requires name in PbrUniformNames
    ensures PbrValueType(name) == Some(Sampler2D) <==> EndsWith(name, "Texture")
  {
    if PbrValueType(name) == Some(Sampler2D) {
      SamplersAreTextures(name);
    } else {
      FactorsAreNotTextures(name);
    }
  }

  lemma SamplersAreTextures(name: string)
    requires PbrValueType(name) == Some(Sampler2D)
    ensures EndsWith(name, "Texture")
  {
    if name in {"u_baseColorTexture", "u_metallicRoughnessTexture", "u_normalTexture", "u_occlusionTexture"} {
      CoreTexturesEndWithTexture(name);
    } else {
      OtherTexturesEndWithTexture(name);
    }
  }

  lemma CoreTexturesEndWithTexture(name: string)
    requires name in {"u_baseColorTexture", "u_metallicRoughnessTexture", "u_normalTexture", "u_occlusionTexture"}
    ensures EndsWith(name, "Texture")
  {
  }

  lemma OtherTexturesEndWithTexture(name: string)
    requires name in {"u_emissiveTexture", "u_diffuseTexture", "u_specularGlossinessTexture"}
    ensures EndsWith(name, "Texture")
  {
  }

  lemma FactorsAreNotTextures(name: string)
    requires name in PbrUniformNames && PbrValueType(name) != Some(Sampler2D)
    ensures !EndsWith(name, "Texture")
  {
    var n := |name|;
    assert name[n - 7..] != "Texture" by {
      assert name[n - 7..][1] == name[n - 6];
    }
  }
}

=== FILE: ordered_maps.dfy ===
/** JavaScript objects used as dictionaries: string keys in insertion order.

    Assigning to a key that is already present replaces its value and keeps
    its position; assigning to a new key appends it. Enumeration (`for … in`
    with `hasOwnProperty`) visits the keys in that order.
 */
module OrderedMaps {
  import opened Wrappers

  datatype Entry<V> = Entry(key: string, value: V)

  type OMap<V> = seq<Entry<V>>

  function Keys<V>(m: OMap<V>): (ks: seq<string>)
    ensures |ks| == |m|
  {
    if |m| == 0 then [] else [m[0].key] + Keys(m[1..])
  }

  /** The keys of all but the last entry, followed by the last key. */
  lemma {:induction false} KeysSnoc<V>(m: OMap<V>)
    requires |m| > 0
    ensures Keys(m) == Keys(m[..|m| - 1]) + [m[|m| - 1].key]
  {
    if |m| > 1 {
      assert m[1..][..|m[1..]| - 1] == m[..|m| - 1][1..];
      KeysSnoc(m[1..]);
    }
  }

  /** No key occurs twice, as in any JavaScript object. */
  predicate UniqueKeys<V>(m: OMap<V>) {
    |m| == 0 || (m[0].key !in Keys(m[1..]) && UniqueKeys(m[1..]))
  }

  /** `m[k]`, with `None` for a missing key. */
  function Get<V>(m: OMap<V>, k: string): (r: Option<V>)
    ensures r.Some? <==> k in Keys(m)
  {
    if |m| == 0 then None
    else if m[0].key == k then Some(m[0].value)
    else Get(m[1..], k)
  }

  /** The key of every entry is among the keys. */
  lemma {:induction false} KeysIndex<V>(m: OMap<V>, i: nat)
    requires i < |m|
    ensures m[i].key in Keys(m)
  {
    if i > 0 {
      KeysIndex(m[1..], i - 1);
    }
  }

  lemma {:induction false} GetUnique<V>(m: OMap<V>, i: nat)
    requires UniqueKeys(m) && i < |m|
    ensures Get(m, m[i].key) == Some(m[i].value)
  {
    if i > 0 {
      assert m[1..][i - 1] == m[i];
      KeysIndex(m[1..], i - 1);
      GetUnique(m[1..], i - 1);
    }
  }

  /** A key that is found comes from an entry of the map. */
  lemma {:induction false} GetEntry<V>(m: OMap<V>, k: string)
    requires Get(m, k).Some?
    ensures Entry(k, Get(m, k).value) in m
  {
    if m[0].key != k {
      GetEntry(m[1..], k);
    }
  }

  /** `m[k] = v`. */
  function Put<V>(m: OMap<V>, k: string, v: V): (r: OMap<V>)
    ensures Get(r, k) == Some(v)
    ensures forall k' :: k' != k ==> Get(r, k') == Get(m, k')
    ensures k in Keys(m) ==> Keys(r) == Keys(m)
    ensures k !in Keys(m) ==> Keys(r) == Keys(m) + [k]
    ensures UniqueKeys(m) ==> UniqueKeys(r)
  {
    if |m| == 0 then [Entry(k, v)]
    else if m[0].key == k then [Entry(k, v)] + m[1..]
    else
      var rest := Put(m[1..], k, v);
      var r := [m[0]] + rest;
      assert r[1..] == rest;
      assert Keys(m) == [m[0].key] + Keys(m[1..]);
      r
  }

  /** Assigns every entry of `es` in turn, so that a later entry overwrites an
      earlier one with the same key. */
  function PutAll<V>(m: OMap<V>, es: OMap<V>): (r: OMap<V>)
    ensures UniqueKeys(m) ==> UniqueKeys(r)
    decreases |es|
  {
    if |es| == 0 then m
    else
      var last := es[|es| - 1];
      Put(PutAll(m, es[..|es| - 1]), last.key, last.value)
  }

  /** The keys after the assignments are the old keys and the assigned ones;
      the old keys keep their positions at the front, and a key that is not
      assigned keeps its value. */
  lemma {:induction false} PutAllKeys<V>(m: OMap<V>, es: OMap<V>)
    ensures forall k :: k in Keys(PutAll(m, es)) <==> k in Keys(m) || k in Keys(es)
    ensures forall k :: k !in Keys(es) ==> Get(PutAll(m, es), k) == Get(m, k)
    ensures |Keys(m)| <= |Keys(PutAll(m, es))| && Keys(PutAll(m, es))[..|Keys(m)|] == Keys(m)
    decreases |es|
  {
    if |es| > 0 {
      KeysSnoc(es);
      PutAllKeys(m, es[..|es| - 1]);
    }
  }

  /** When the assigned entries have distinct keys, each of them ends up in the result. */
  lemma {:induction false} PutAllGet<V>(m: OMap<V>, es: OMap<V>, k: string)
    requires UniqueKeys(es)
    ensures Get(PutAll(m, es), k) == if k in Keys(es) then Get(es, k) else Get(m, k)
    decreases |es|
  {
    if |es| > 0 {
      var init := es[..|es| - 1];
      var last := es[|es| - 1];
      KeysSnoc(es);
      UniqueKeysInit(es);
      PutAllGet(m, init, k);
      if k == last.key {
        GetUnique(es, |es| - 1);
      } else {
        GetPrefix(es, k);
      }
    }
  }

  /** Looking up a key that is not the last one's ignores the last entry. */
  lemma GetPrefix<V>(es: OMap<V>, k: string)
    requires |es| > 0 && es[|es| - 1].key != k
    ensures Get(es, k) == Get(es[..|es| - 1], k)
  {
    if |es| > 1 && es[0].key != k {
      assert es[1..][..|es[1..]| - 1] == es[..|es| - 1][1..];
      GetPrefix(es[1..], k);
    }
  }

  /** Dropping the last entry keeps the keys distinct, and the last key occurs nowhere before. */
  lemma {:induction false} UniqueKeysInit<V>(es: OMap<V>)
    requires UniqueKeys(es) && |es| > 0
    ensures UniqueKeys(es[..|es| - 1])
    ensures es[|es| - 1].key !in Keys(es[..|es| - 1])
  {
    if |es| > 1 {
      assert es[1..][..|es[1..]| - 1] == es[..|es| - 1][1..];
      UniqueKeysInit(es[1..]);
      KeysSnoc(es[1..]);
    }
  }

  /** When every entry of `es` with key `k` carries the same value `v`, that
      value ends up in the result, whatever the order and repetitions. */
  lemma {:induction false} PutAllGetDetermined<V>(m: OMap<V>, es: OMap<V>, k: string, v: V)
    requires forall i :: 0 <= i < |es| && es[i].key == k ==> es[i].value == v
    requires k in Keys(es)
    ensures Get(PutAll(m, es), k) == Some(v)
    decreases |es|
  {
    var init := es[..|es| - 1];
    var last := es[|es| - 1];
    KeysSnoc(es);
    if last.key != k {
      assert forall i :: 0 <= i < |init| ==> init[i] == es[i];
      PutAllGetDetermined(m, init, k, v);
    }
  }

  /** No name occurs twice. */
  predicate Distinct(names: seq<string>) {
    forall i, j :: 0 <= i < j < |names| ==> names[i] != names[j]
  }

  /** Assigns, in the order of `names`, each name that `spec` gives a value:
      the object a run of `if (…) { o[name] = value; }` statements builds. */
  function Table<V>(names: seq<string>, spec: string -> Option<V>): (r: OMap<V>)
    ensures forall k :: Get(r, k) == if k in names then spec(k) else None
  {
    if |names| == 0 then []
    else
      var rest := Table(names[1..], spec);
      match spec(names[0])
      case None => rest
      case Some(v) =>
        var r := [Entry(names[0], v)] + rest;
        assert r[1..] == rest;
        r
  }

  /** Distinct names give distinct keys. */
  lemma {:induction false} TableUnique<V>(names: seq<string>, spec: string -> Option<V>)
    requires Distinct(names)
    ensures UniqueKeys(Table(names, spec))
  {
    if |names| > 0 {
      assert names[0] !in names[1..];
      TableUnique(names[1..], spec);
      var r := Table(names, spec);
      if spec(names[0]).Some? {
        assert r[1..] == Table(names[1..], spec);
      }
    }
  }
}

=== FILE: pbr_materials.dfy ===
/** The PBR technique generator (processPbrMaterials.js): for a glTF document
    without `KHR_techniques_webgl`, one technique, one program and a vertex
    and a fragment shader per material, and each material bound to its
    technique with its generated values.
 */
module PbrMaterials {
  import opened Wrappers
  import opened OrderedMaps
  import opened FragmentLines
  import opened Gltf
  import opened MaterialValues
  import opened TechniqueTables
  import opened ShaderDeclarations
  import opened VertexSource
  import opened FragmentSource

  // ----- The document -----

  /** What `generateTechnique` settles for a material before it writes the
      tables and the shaders: the material, the generation flags, the joint
      count, the morph targets, and the two options. */
  datatype TechniqueInputs = TechniqueInputs(
    material: Material,
    flags: Flags,
    jointCount: nat,
    targets: seq<MorphTarget>,
    rtc: bool,
    batchId: bool)

  /** `generatedMaterialValues`. */
  function ValuesOf(t: TechniqueInputs): OMap<ParamValue> {
    GenerateMaterialValues(t.material)
  }

  /** `techniqueUniforms`. */
  function UniformsOf(t: TechniqueInputs): OMap<Uniform> {
    UniformTable(t.flags, t.jointCount, |t.targets|, t.material.alphaMode, t.rtc, ValuesOf(t))
  }

  /** `techniqueAttributes`. */
  function AttributesOf(t: TechniqueInputs): OMap<string> {
    AttributeTable(t.flags, t.targets, t.batchId)
  }

  function VertexSourceOf(t: TechniqueInputs): seq<string> {
    VertexShaderLines(t.flags, UniformsOf(t), t.targets, t.batchId)
  }

  function FragmentSourceOf(t: TechniqueInputs): seq<FragmentLine> {
    FragmentShaderLines(t.flags, UniformsOf(t), Presence(ValuesOf(t)), t.material.doubleSided,
                        IsSpecularGlossiness(t.material), t.material.alphaMode)
  }

  /** A technique: its program and the inputs its attribute table
      (`AttributesOf`) and uniform table (`UniformsOf`) are generated from. */
  datatype Technique = Technique(program: nat, inputs: TechniqueInputs)

  /** A generated shader, with the inputs its source (`VertexSourceOf` /
      `FragmentSourceOf`) is generated from. */
  datatype Shader = VertexShader(inputs: TechniqueInputs) | FragmentShader(inputs: TechniqueInputs)

  /** The WebGL shader-stage constant recorded in each shader's `type`. */
  function ShaderTypeCode(s: Shader): nat {
    match s
    case VertexShader(_) => 35633
    case FragmentShader(_) => 35632
  }

  datatype Program = Program(fragmentShader: nat, vertexShader: nat)

  /** `gltf.extensions.KHR_techniques_webgl`. */
  datatype TechniquesWebgl = TechniquesWebgl(programs: seq<Program>, shaders: seq<Shader>, techniques: seq<Technique>)

  /** `gltf.extensions`: the technique container and the names of the other extension objects. */
  datatype DocumentExtensions = DocumentExtensions(techniquesWebgl: Option<TechniquesWebgl>, otherExtensions: seq<string>)

  datatype Document = Document(
    extensionsUsed: Option<seq<string>>,
    extensionsRequired: Option<seq<string>>,
    extensions: Option<DocumentExtensions>,
    materials: Option<seq<Material>>,
    meshes: Option<seq<Mesh>>,
    skins: Option<seq<Skin>>)

  const TechniquesExtension: string := "KHR_techniques_webgl"
  const RtcExtension: string := "CESIUM_RTC"

  /** `hasExtension(gltf, name)`: the extension is listed in `extensionsUsed`. */
  predicate HasExtension(doc: Document, name: string) {
    doc.extensionsUsed.Some? && name in doc.extensionsUsed.value
  }

  /** The joints of the document's first skin, if any (`gltf.skins[0].joints`). */
  function FirstSkinJoints(doc: Document): seq<nat> {
    if doc.skins.Some? && |doc.skins.value| > 0 then doc.skins.value[0].joints else []
  }

  // ----- Morph targets -----

  /** The primitives of the meshes, mesh by mesh, in order. */
  function Primitives(ms: seq<Mesh>): seq<MeshPrimitive> {
    if |ms| == 0 then [] else Primitives(ms[..|ms| - 1]) + ms[|ms| - 1].primitives
  }

  /** The primitive uses the material and has morph targets. */
  predicate Supplies(p: MeshPrimitive, materialIndex: nat) {
    p.material == Some(materialIndex) && p.targets.Some?
  }

  /** The targets of the last primitive that supplies them. */
  function LastTargets(ps: seq<MeshPrimitive>, materialIndex: nat): Option<seq<MorphTarget>> {
    if |ps| == 0 then None
    else if Supplies(ps[|ps| - 1], materialIndex) then ps[|ps| - 1].targets
    else LastTargets(ps[..|ps| - 1], materialIndex)
  }

  /** The morph targets `generateTechnique` finds for a material. */
  function MorphTargetsOf(meshes: Option<seq<Mesh>>, materialIndex: nat): Option<seq<MorphTarget>> {
    if meshes.None? then None else LastTargets(Primitives(meshes.value), materialIndex)
  }

  /** Last match wins: the targets found are those of a supplying primitive
      that no later primitive overrides, and none are found exactly when no
      primitive supplies any. */
  lemma {:induction false} LastTargetsSpec(ps: seq<MeshPrimitive>, materialIndex: nat)
    ensures LastTargets(ps, materialIndex).None? <==> forall j :: 0 <= j < |ps| ==> !Supplies(ps[j], materialIndex)
    ensures LastTargets(ps, materialIndex).Some? ==>
              exists j :: 0 <= j < |ps| && Supplies(ps[j], materialIndex)
                          && ps[j].targets == LastTargets(ps, materialIndex)
                          && forall j' :: j < j' < |ps| ==> !Supplies(ps[j'], materialIndex)
  {
    if |ps| > 0 {
      var init := ps[..|ps| - 1];
      LastTargetsSpec(init, materialIndex);
      assert forall j :: 0 <= j < |init| ==> init[j] == ps[j];
      if !Supplies(ps[|ps| - 1], materialIndex) && LastTargets(init, materialIndex).Some? {
        var j :| 0 <= j < |init| && Supplies(init[j], materialIndex)
                 && init[j].targets == LastTargets(init, materialIndex)
                 && forall j' :: j < j' < |init| ==> !Supplies(init[j'], materialIndex);
        assert ps[j] == init[j];
      }
    }
  }

  lemma LastTargetsSnoc(ps: seq<MeshPrimitive>, p: MeshPrimitive, materialIndex: nat)
    ensures LastTargets(ps + [p], materialIndex)
            == if Supplies(p, materialIndex) then p.targets else LastTargets(ps, materialIndex)
  {
    assert (ps + [p])[..|ps|] == ps;
  }

  /** The search as the source runs it: every primitive of every mesh, in
      order, each one with the material and targets overwriting the result. */
  method FindMorphTargets(meshes: Option<seq<Mesh>>, materialIndex: nat) returns (r: Option<seq<MorphTarget>>)
    ensures r == MorphTargetsOf(meshes, materialIndex)
  {
    r := None;
    if meshes.Some? {
      var ms := meshes.value;
      var j := 0;
      while j < |ms|
        invariant 0 <= j <= |ms|
        invariant r == LastTargets(Primitives(ms[..j]), materialIndex)
      {
        PrimitivesSnoc(ms, j);
        r := ScanPrimitives(Primitives(ms[..j]), ms[j].primitives, materialIndex, r);
        j := j + 1;
      }
      assert ms[..j] == ms;
    }
  }

  /** The inner loop over the primitives of one mesh, continuing the search
      from the result `r0` over the primitives already `seen`. */
  method ScanPrimitives(seen: seq<MeshPrimitive>, ps: seq<MeshPrimitive>, materialIndex: nat,
                        r0: Option<seq<MorphTarget>>) returns (r: Option<seq<MorphTarget>>)
    requires r0 == LastTargets(seen, materialIndex)
    ensures r == LastTargets(seen + ps, materialIndex)
  {
    r := r0;
    var k := 0;
    assert seen + ps[..0] == seen;
    while k < |ps|
      invariant 0 <= k <= |ps|
      invariant r == LastTargets(seen + ps[..k], materialIndex)
    {
      LastTargetsSnoc(seen + ps[..k], ps[k], materialIndex);
      assert seen + ps[..k + 1] == (seen + ps[..k]) + [ps[k]];
      if ps[k].material == Some(materialIndex) && ps[k].targets.Some? {
        r := ps[k].targets;
      }
      k := k + 1;
    }
    assert ps[..k] == ps;
  }

  /** The primitives of the first `j + 1` meshes are those of the first `j`
      followed by those of mesh `j`. */
  lemma PrimitivesSnoc(ms: seq<Mesh>, j: nat)
    requires j < |ms|
    ensures Primitives(ms[..j + 1]) == Primitives(ms[..j]) + ms[j].primitives
  {
    assert ms[..j + 1][..j] == ms[..j];
  }

  /** Some primitive with the material has morph targets. */
  predicate SuppliesTargets(doc: Document, materialIndex: nat) {
    doc.meshes.Some? && exists p :: p in Primitives(doc.meshes.value) && Supplies(p, materialIndex)
  }

  /** The primitive info says the material's primitives are morphed, yet no
      primitive supplies targets: `morphTargets.length` then throws. */
  predicate MissingTargets(doc: Document, materialIndex: nat, primitiveByMaterial: map<nat, PrimitiveInfo>) {
    materialIndex in primitiveByMaterial && primitiveByMaterial[materialIndex].hasMorphTargets
      && !SuppliesTargets(doc, materialIndex)
  }

  lemma MorphTargetsFound(doc: Document, materialIndex: nat)
    ensures MorphTargetsOf(doc.meshes, materialIndex).Some? <==> SuppliesTargets(doc, materialIndex)
  {
    if doc.meshes.Some? {
      var ps := Primitives(doc.meshes.value);
      LastTargetsSpec(ps, materialIndex);
      if SuppliesTargets(doc, materialIndex) {
        var p :| p in ps && Supplies(p, materialIndex);
        var j :| 0 <= j < |ps| && ps[j] == p;
      }
    }
  }

  // ----- One technique -----

  /** `generateTechnique` for material `materialIndex`, up to writing the
      tables and the shaders. */
  function GenerateTechnique(doc: Document, m: Material, materialIndex: nat,
                             primitiveByMaterial: map<nat, PrimitiveInfo>, batchId: bool): (r: Result<TechniqueInputs, string>)
    ensures r.Failure? <==> MissingTargets(doc, materialIndex, primitiveByMaterial)
    ensures r.Success? ==>
              && r.value.material == m
              && r.value.jointCount == |FirstSkinJoints(doc)|
              && r.value.flags == DeriveFlags(if materialIndex in primitiveByMaterial then Some(primitiveByMaterial[materialIndex]) else None,
                                              |FirstSkinJoints(doc)|, m)
              && (r.value.flags.hasMorphTargets ==> Some(r.value.targets) == MorphTargetsOf(doc.meshes, materialIndex))
              && r.value.rtc == HasExtension(doc, RtcExtension)
              && r.value.batchId == batchId
  {
    var joints := FirstSkinJoints(doc);
    var info := if materialIndex in primitiveByMaterial then Some(primitiveByMaterial[materialIndex]) else None;
    var f := DeriveFlags(info, |joints|, m);
    var found := MorphTargetsOf(doc.meshes, materialIndex);
    MorphTargetsFound(doc, materialIndex);
    if f.hasMorphTargets && found.None? then Failure("TypeError: morphTargets is undefined")
    else
      var targets := if f.hasMorphTargets then found.value else [];
      Success(TechniqueInputs(m, f, |joints|, targets, HasExtension(doc, RtcExtension), batchId))
  }

  // ----- The whole document -----

  /** The techniques of materials `k..` in order; the first failure aborts. */
  function GenerateAll(doc: Document, ms: seq<Material>, k: nat, primitiveByMaterial: map<nat, PrimitiveInfo>,
                       batchId: bool): (r: Result<seq<TechniqueInputs>, string>)
    requires k <= |ms|
    decreases |ms| - k
    ensures r.Failure? <==> exists j :: k <= j < |ms| && MissingTargets(doc, j, primitiveByMaterial)
    ensures r.Success? ==> |r.value| == |ms| - k
    ensures r.Success? ==> forall j :: k <= j < |ms| ==>
              GenerateTechnique(doc, ms[j], j, primitiveByMaterial, batchId) == Success(r.value[j - k])
  {
    if k == |ms| then Success([])
    else
      match GenerateTechnique(doc, ms[k], k, primitiveByMaterial, batchId)
      case Failure(e) => Failure(e)
      case Success(g) =>
        match GenerateAll(doc, ms, k + 1, primitiveByMaterial, batchId)
        case Failure(e) => Failure(e)
        case Success(gs) => Success([g] + gs)
  }

  /** The vertex and fragment shader of each technique, in order. */
  function Shaders(gs: seq<TechniqueInputs>): (r: seq<Shader>)
    ensures |r| == 2 * |gs|
  {
    if |gs| == 0 then [] else [VertexShader(gs[0]), FragmentShader(gs[0])] + Shaders(gs[1..])
  }

  /** Technique `i` owns shaders `2i` (vertex) and `2i + 1` (fragment). */
  lemma {:induction false} ShadersAt(gs: seq<TechniqueInputs>, i: nat)
    requires i < |gs|
    ensures Shaders(gs)[2 * i] == VertexShader(gs[i])
    ensures Shaders(gs)[2 * i + 1] == FragmentShader(gs[i])
  {
    if i > 0 {
      ShadersAt(gs[1..], i - 1);
    }
  }

  /** `material.extensions.KHR_techniques_webgl = {values, technique}`. */
  function WithTechnique(m: Material, binding: MaterialTechnique): (r: Material)
    ensures r.extensions.Some? && r.extensions.value.techniquesWebgl == Some(binding)
    ensures m.extensions.Some? ==> r.extensions.value == m.extensions.value.(techniquesWebgl := Some(binding))
    ensures m.extensions.None? ==> !IsSpecularGlossiness(r) && !IsUnlit(r)
    ensures r.(extensions := m.extensions) == m
  {
    var ext := match m.extensions
      case None => MaterialExtensions(None, false, Some(binding))
      case Some(e) => e.(techniquesWebgl := Some(binding));
    m.(extensions := Some(ext))
  }

  /** No materials to process. */
  predicate NoMaterials(doc: Document) {
    doc.materials.None? || |doc.materials.value| == 0
  }

  /** The document after every material has its technique. */
  function Processed(doc: Document, gs: seq<TechniqueInputs>): Document
    requires doc.materials.Some? && |gs| == |doc.materials.value|
  {
    var ms := doc.materials.value;
    var n := |ms|;
    var container := TechniquesWebgl(
      seq(n, i requires 0 <= i < n => Program(2 * i + 1, 2 * i)),
      Shaders(gs),
      seq(n, i requires 0 <= i < n => Technique(i, gs[i])));
    var others := if doc.extensions.Some? then doc.extensions.value.otherExtensions else [];
    doc.(
      extensionsUsed := Some(doc.extensionsUsed.GetOr([]) + [TechniquesExtension]),
      extensionsRequired := Some(doc.extensionsRequired.GetOr([]) + [TechniquesExtension]),
      extensions := Some(DocumentExtensions(Some(container), others)),
      materials := Some(seq(n, i requires 0 <= i < n => WithTechnique(ms[i], MaterialTechnique(ValuesOf(gs[i]), i)))))
  }

  /** `processPbrMaterials`: a document that already uses the techniques
      extension, or has no materials, is returned as it is; otherwise every
      material gets a technique, and the call fails exactly when some
      material's primitives are morphed but no primitive supplies targets. */
  function ProcessPbrMaterials(doc: Document, primitiveByMaterial: map<nat, PrimitiveInfo>, batchId: bool): (r: Result<Document, string>)
    ensures HasExtension(doc, TechniquesExtension) || NoMaterials(doc) ==> r == Success(doc)
    ensures r.Failure? <==> !HasExtension(doc, TechniquesExtension) && !NoMaterials(doc)
                            && exists j :: 0 <= j < |doc.materials.value| && MissingTargets(doc, j, primitiveByMaterial)
  {
    if HasExtension(doc, TechniquesExtension) || NoMaterials(doc) then Success(doc)
    else
      match GenerateAll(doc, doc.materials.value, 0, primitiveByMaterial, batchId)
      case Failure(e) => Failure(e)
      case Success(gs) => Success(Processed(doc, gs))
  }

  // ----- Properties of the processed document -----

  /** A processed document lists the extension as used and required, keeps
      its meshes, skins and other extensions, and holds one technique and one
      program, and two shaders, per material. */
  lemma ProcessedDocument(doc: Document, primitiveByMaterial: map<nat, PrimitiveInfo>, batchId: bool)
    requires !HasExtension(doc, TechniquesExtension) && !NoMaterials(doc)
    requires ProcessPbrMaterials(doc, primitiveByMaterial, batchId).Success?
    ensures var d := ProcessPbrMaterials(doc, primitiveByMaterial, batchId).value;
            && d.extensionsUsed == Some(doc.extensionsUsed.GetOr([]) + [TechniquesExtension])
            && d.extensionsRequired == Some(doc.extensionsRequired.GetOr([]) + [TechniquesExtension])
            && d.meshes == doc.meshes && d.skins == doc.skins
            && d.extensions.Some? && d.extensions.value.techniquesWebgl.Some?
            && d.extensions.value.otherExtensions == (if doc.extensions.Some? then doc.extensions.value.otherExtensions else [])
            && d.materials.Some? && |d.materials.value| == |doc.materials.value|
            && var w := d.extensions.value.techniquesWebgl.value;
            && |w.programs| == |w.techniques| == |doc.materials.value| && |w.shaders| == 2 * |doc.materials.value|
  {
  }

  /** Material `i` of a processed document is bound to technique `i` with its
      generated values and changes in nothing else; technique `i` uses
      program `i`, whose vertex and fragment shaders are `2i` and `2i + 1`,
      all generated from that material. */
  lemma ProcessedMaterial(doc: Document, primitiveByMaterial: map<nat, PrimitiveInfo>, batchId: bool, i: nat)
    requires !HasExtension(doc, TechniquesExtension) && !NoMaterials(doc)
    requires ProcessPbrMaterials(doc, primitiveByMaterial, batchId).Success?
    requires i < |doc.materials.value|
    ensures var d := ProcessPbrMaterials(doc, primitiveByMaterial, batchId).value;
            var m := doc.materials.value[i];
            var g := GenerateTechnique(doc, m, i, primitiveByMaterial, batchId);
            var w := d.extensions.value.techniquesWebgl.value;
            && g.Success?
            && d.materials.value[i] == WithTechnique(m, MaterialTechnique(GenerateMaterialValues(m), i))
            && w.techniques[i] == Technique(i, g.value)
            && w.programs[i] == Program(2 * i + 1, 2 * i)
            && w.shaders[2 * i] == VertexShader(g.value)
            && w.shaders[2 * i + 1] == FragmentShader(g.value)
  {
    var ms := doc.materials.value;
    var gs := GenerateAll(doc, ms, 0, primitiveByMaterial, batchId).value;
    assert ProcessPbrMaterials(doc, primitiveByMaterial, batchId) == Success(Processed(doc, gs));
    assert GenerateTechnique(doc, ms[i], i, primitiveByMaterial, batchId) == Success(gs[i]);
    ProcessedAt(doc, gs, i);
  }

  /** Entry `i` of each list of the processed document. */
  lemma ProcessedAt(doc: Document, gs: seq<TechniqueInputs>, i: nat)
    requires doc.materials.Some? && |gs| == |doc.materials.value| && i < |gs|
    ensures var d := Processed(doc, gs);
            var w := d.extensions.value.techniquesWebgl.value;
            && d.materials.value[i] == WithTechnique(doc.materials.value[i], MaterialTechnique(ValuesOf(gs[i]), i))
            && w.techniques[i] == Technique(i, gs[i])
            && w.programs[i] == Program(2 * i + 1, 2 * i)
            && w.shaders[2 * i] == VertexShader(gs[i])
            && w.shaders[2 * i + 1] == FragmentShader(gs[i])
  {
    ShadersAt(gs, i);
  }

  /** Processing is idempotent: a processed document lists the extension, so
      a second run returns it unchanged. */
  lemma ProcessIdempotent(doc: Document, primitiveByMaterial: map<nat, PrimitiveInfo>, batchId: bool)
    requires ProcessPbrMaterials(doc, primitiveByMaterial, batchId).Success?
    ensures var d := ProcessPbrMaterials(doc, primitiveByMaterial, batchId).value;
            ProcessPbrMaterials(d, primitiveByMaterial, batchId) == Success(d)
  {
    if !HasExtension(doc, TechniquesExtension) && !NoMaterials(doc) {
      ProcessedDocument(doc, primitiveByMaterial, batchId);
    }
  }

  // ----- Properties of one technique -----

  /** Every vertex-stage uniform of the technique is declared in its vertex shader. */
  lemma VertexUniformsDeclared(t: TechniqueInputs, e: Entry<Uniform>)
    requires e in UniformsOf(t) && StageOf(e.key, e.value) == VertexStage
    ensures UniformDeclaration(e.key, e.value) in VertexSourceOf(t)
  {
    VertexShaderDeclares(t.flags, UniformsOf(t), t.targets, t.batchId, e, Attribute("vec3", "a_position"));
  }

  /** Every fragment-stage uniform of the technique is declared in its fragment shader. */
  lemma FragmentUniformsDeclared(t: TechniqueInputs, e: Entry<Uniform>)
    requires e in UniformsOf(t) && StageOf(e.key, e.value) == FragmentStage
    ensures Declared(UniformDeclaration(e.key, e.value)) in FragmentSourceOf(t)
  {
    FragmentShaderDeclares(t.flags, UniformsOf(t), Presence(ValuesOf(t)), t.material.doubleSided,
                           IsSpecularGlossiness(t.material), t.material.alphaMode, e, Varying("vec3", "v_normal"));
  }

  /** Every generated material value becomes a fragment-stage uniform typed
      by `getPBRValueType`, declared in the fragment shader; the exception is
      a value named `u_morphWeights`, which the source routes to the vertex
      stage by name. */
  lemma MaterialValuesInFragmentShader(t: TechniqueInputs, k: string)
    requires k in Keys(ValuesOf(t)) && k != "u_morphWeights"
    ensures Get(UniformsOf(t), k).Some?
    ensures var u := Get(UniformsOf(t), k).value;
            && u.glType == PbrValueType(k)
            && StageOf(k, u) == FragmentStage
            && Declared(UniformDeclaration(k, u)) in FragmentSourceOf(t)
  {
    UniformTableMaterialTypes(t.flags, t.jointCount, |t.targets|, t.material.alphaMode, t.rtc, ValuesOf(t), k);
    var u := Get(UniformsOf(t), k).value;
    RoutingOfKnownUniforms(t.rtc, t.jointCount, |t.targets|, k);
    assert StageOf(k, u) == StageOf(k, Uniform(PbrValueType(k), None, None));
    GetEntry(UniformsOf(t), k);
    FragmentUniformsDeclared(t, Entry(k, u));
  }

  /** The alpha cutoff uniform exists exactly for `MASK` materials (unless a
      material value of that name replaces it). */
  lemma AlphaCutoffExactlyForMask(t: TechniqueInputs)
    requires "u_alphaCutoff" !in Keys(ValuesOf(t))
    ensures Get(UniformsOf(t), "u_alphaCutoff") == if IsMask(t.material.alphaMode) then Some(AlphaCutoffUniform) else None
  {
    UniformTableFixedEntries(t.flags, t.jointCount, |t.targets|, t.material.alphaMode, t.rtc, ValuesOf(t), "u_alphaCutoff");
    AlphaCutoffSpec(t.flags, t.jointCount, |t.targets|, t.material.alphaMode, t.rtc);
  }

  /** The joint-matrix array has one element per joint of the first skin and
      exists only with skinning (unless a material value of that name replaces it). */
  lemma JointMatrixCount(doc: Document, m: Material, materialIndex: nat,
                         primitiveByMaterial: map<nat, PrimitiveInfo>, batchId: bool)
    requires GenerateTechnique(doc, m, materialIndex, primitiveByMaterial, batchId).Success?
    ensures var t := GenerateTechnique(doc, m, materialIndex, primitiveByMaterial, batchId).value;
            "u_jointMatrix" !in Keys(ValuesOf(t)) ==>
              Get(UniformsOf(t), "u_jointMatrix")
              == if t.flags.HasSkinning() then Some(JointMatrixUniform(|FirstSkinJoints(doc)|)) else None
  {
    var t := GenerateTechnique(doc, m, materialIndex, primitiveByMaterial, batchId).value;
    if "u_jointMatrix" !in Keys(ValuesOf(t)) {
      UniformTableFixedEntries(t.flags, t.jointCount, |t.targets|, t.material.alphaMode, t.rtc, ValuesOf(t), "u_jointMatrix");
      JointMatrixSpec(t.flags, t.jointCount, |t.targets|, t.material.alphaMode, t.rtc);
    }
  }

  /** The morph-weight array has one element per morph target found for the
      material and exists only with morph targets (unless a material value of
      that name replaces it). */
  lemma MorphWeightsCount(doc: Document, m: Material, materialIndex: nat,
                          primitiveByMaterial: map<nat, PrimitiveInfo>, batchId: bool)
    requires GenerateTechnique(doc, m, materialIndex, primitiveByMaterial, batchId).Success?
    ensures var t := GenerateTechnique(doc, m, materialIndex, primitiveByMaterial, batchId).value;
            "u_morphWeights" !in Keys(ValuesOf(t)) ==>
              Get(UniformsOf(t), "u_morphWeights")
              == if t.flags.hasMorphTargets then Some(MorphWeightsUniform(|MorphTargetsOf(doc.meshes, materialIndex).value|)) else None
  {
    var t := GenerateTechnique(doc, m, materialIndex, primitiveByMaterial, batchId).value;
    if "u_morphWeights" !in Keys(ValuesOf(t)) {
      UniformTableFixedEntries(t.flags, t.jointCount, |t.targets|, t.material.alphaMode, t.rtc, ValuesOf(t), "u_morphWeights");
      MorphWeightsSpec(t.flags, t.jointCount, |t.targets|, t.material.alphaMode, t.rtc);
    }
  }

  /** The vertex shader's attribute declarations name exactly the
      technique's attributes. */
  lemma TechniqueAttributesMatch(t: TechniqueInputs, name: string)
    ensures name in Keys(AttributesOf(t)) <==> DeclaresAttribute(VertexDeclarations(t.flags, t.targets, t.batchId), name)
  {
    VertexAttributesMatchTable(t.flags, t.targets, t.batchId, name);
  }

  /** Every attribute of the technique has an `attribute` line in the vertex shader. */
  lemma TechniqueAttributesDeclared(t: TechniqueInputs, name: string)
    requires name in Keys(AttributesOf(t))
    ensures exists ty :: DeclarationLine(Attribute(ty, name)) in VertexSourceOf(t)
  {
    TechniqueAttributesMatch(t, name);
    var ds := VertexDeclarations(t.flags, t.targets, t.batchId);
    var d :| d in ds && d.Attribute? && d.name == name;
    VertexShaderDeclares(t.flags, UniformsOf(t), t.targets, t.batchId, Entry("", Uniform(None, None, None)), d);
    assert DeclarationLine(Attribute(d.glslType, name)) in VertexSourceOf(t);
  }
}

=== FILE: shader_declarations.dfy ===
/** The declaration lines of the generated shaders (processPbrMaterials.js,
    `generateTechnique`): one `uniform` line per technique uniform, in the
    stage the uniform is routed to, and the `attribute` / `varying` lines.
    A shader source is modelled as its sequence of lines, each without its
    trailing newline.
 */
module ShaderDeclarations {
  import opened Wrappers
  import opened OrderedMaps
  import opened Text
  import opened Gltf
  import opened TechniqueTables

  /** `'[' + count + ']'` for an array uniform, nothing otherwise. */
  function ArraySuffix(count: Option<nat>): string {
    match count
    case None => ""
    case Some(n) => "[" + NatToString(n) + "]"
  }

  /** `'uniform ' + glslType + ' ' + name + arraySize + ';'` */
  function UniformDeclaration(name: string, u: Uniform): string {
    "uniform " + GlslTypeName(u.glType) + " " + name + ArraySuffix(u.count) + ";"
  }

  /** The declaration lines of some uniforms, in table order. */
  function UniformLines(entries: OMap<Uniform>): (lines: seq<string>)
    ensures |lines| == |entries|
  {
    seq(|entries|, i requires 0 <= i < |entries| => UniformDeclaration(entries[i].key, entries[i].value))
  }

  /** Every uniform of the entries is declared. */
  lemma UniformLinesDeclare(entries: OMap<Uniform>, e: Entry<Uniform>)
    requires e in entries
    ensures UniformDeclaration(e.key, e.value) in UniformLines(entries)
  {
    var i :| 0 <= i < |entries| && entries[i] == e;
    assert UniformLines(entries)[i] == UniformDeclaration(e.key, e.value);
  }

  /** The uniform lines of one stage. */
  function StageUniformLines(t: OMap<Uniform>, s: Stage): seq<string> {
    UniformLines(StageEntries(t, s))
  }

  /** Every uniform of the table is declared in the stage it is routed to. */
  lemma UniformDeclaredInStage(t: OMap<Uniform>, e: Entry<Uniform>)
    requires e in t
    ensures UniformDeclaration(e.key, e.value) in StageUniformLines(t, StageOf(e.key, e.value))
  {
    StageMembership(t, e);
    UniformLinesDeclare(StageEntries(t, StageOf(e.key, e.value)), e);
  }

  /** An `attribute` or `varying` declaration. */
  datatype Declaration = Attribute(glslType: string, name: string) | Varying(glslType: string, name: string)

  function DeclarationLine(d: Declaration): string {
    match d
    case Attribute(ty, name) => "attribute " + ty + " " + name + ";"
    case Varying(ty, name) => "varying " + ty + " " + name + ";"
  }

  function DeclarationLines(ds: seq<Declaration>): (lines: seq<string>)
    ensures |lines| == |ds|
  {
    seq(|ds|, i requires 0 <= i < |ds| => DeclarationLine(ds[i]))
  }

  lemma DeclarationLinesDeclare(ds: seq<Declaration>, d: Declaration)
    requires d in ds
    ensures DeclarationLine(d) in DeclarationLines(ds)
  {
    var i :| 0 <= i < |ds| && ds[i] == d;
    assert DeclarationLines(ds)[i] == DeclarationLine(d);
  }

  /** Some declaration of `ds` declares the attribute `name`. */
  predicate DeclaresAttribute(ds: seq<Declaration>, name: string) {
    exists d :: d in ds && d.Attribute? && d.name == name
  }

  lemma DeclaresAttributeAppend(a: seq<Declaration>, b: seq<Declaration>, name: string)
    ensures DeclaresAttribute(a + b, name) <==> DeclaresAttribute(a, name) || DeclaresAttribute(b, name)
  {
    if DeclaresAttribute(a + b, name) {
      var d :| d in a + b && d.Attribute? && d.name == name;
      assert d in a || d in b;
    }
    if DeclaresAttribute(a, name) {
      var d :| d in a && d.Attribute? && d.name == name;
      assert d in a + b;
    }
    if DeclaresAttribute(b, name) {
      var d :| d in b && d.Attribute? && d.name == name;
      assert d in a + b;
    }
  }
}

=== FILE: skinning_sum.dfy ===
/** The skinning sum of the generated vertex shader (processPbrMaterials.js,
    `generateTechnique`): `skinMatrix` is the sum, over every component of
    the joint weights, of that weight times the joint matrix it selects.
 */
module SkinningSum {
  import opened Text
  import opened OrderedMaps
  import opened Gltf

  /** The integer square root: what `Math.sqrt` gives for the perfect squares
      the matrix weight types have. */
  function Sqrt(n: nat): (r: nat)
    ensures r * r <= n < (r + 1) * (r + 1)
  {
    SqrtFrom(n, 0)
  }

  function SqrtFrom(n: nat, d: nat): (r: nat)
    requires d * d <= n
    ensures d <= r && r * r <= n < (r + 1) * (r + 1)
    decreases n - d
  {
    if (d + 1) * (d + 1) > n then d else SqrtFrom(n, d + 1)
  }

  lemma SqrtOfSquare(d: nat)
    ensures Sqrt(d * d) == d
  {
    var r := Sqrt(d * d);
    SquareOrder(r + 1, d);
    SquareOrder(d, r);
  }

  lemma SquareOrder(a: nat, b: nat)
    ensures a <= b ==> a * a <= b * b
  {
    if a <= b {
      assert a * a <= a * b <= b * b;
    }
  }

  /** A matrix weight type. The source tests whether the type name starts
      with `MAT`, which `MatrixTypeNames` shows is the same. */
  predicate IsMatrixType(t: AccessorType) {
    t in {Mat2, Mat3, Mat4}
  }

  /** The row length of a matrix type. */
  function RowLength(t: AccessorType): (d: nat)
    requires IsMatrixType(t)
  {
    match t
    case Mat2 => 2
    case Mat3 => 3
    case Mat4 => 4
  }

  /** The source's loop bound `Math.sqrt(numberOfComponents)` is the row
      length, and the components of a matrix type fill its rows exactly. */
  lemma SqrtIsRowLength(t: AccessorType)
    requires IsMatrixType(t)
    ensures RowLength(t) * RowLength(t) == NumberOfComponents(t)
    ensures Sqrt(NumberOfComponents(t)) == RowLength(t)
  {
    SqrtOfSquare(RowLength(t));
  }

  // ----- The terms -----

  /** `'[' + i + ']'` */
  function Subscript(i: nat): string {
    "[" + NatToString(i) + "]"
  }

  /** The first term opens the sum; the others add to it. */
  function SkinPrefix(first: bool): string {
    if first then "    mat4 skinMatrix = " else "    skinMatrix += "
  }

  /** One term of the sum, for the weight component at subscript `index`. */
  function WeightTerm(index: string): string {
    "a_weight" + index + " * u_jointMatrix[int(a_joint" + index + ")];"
  }

  /** A component of the joint weights: element `i` of a vector, or row `i`,
      column `j` of a matrix. */
  datatype WeightIndex = Element(i: nat) | Cell(i: nat, j: nat)

  /** The subscript that reads the component: `[i]` or `[i][j]`. */
  function IndexSubscript(w: WeightIndex): string {
    match w
    case Element(i) => Subscript(i)
    case Cell(i, j) => Subscript(i) + Subscript(j)
  }

  /** The source opens the sum at index 0 (`i === 0`, or `i === 0 && j === 0`). */
  predicate IsFirstIndex(w: WeightIndex) {
    w.i == 0 && (w.Cell? ==> w.j == 0)
  }

  /** A line of the sum: the prefix, then the term at subscript `index`. */
  function SkinLine(first: bool, index: string): string {
    SkinPrefix(first) + WeightTerm(index)
  }

  /** The line that adds the component's term to the sum. */
  function SkinTerm(w: WeightIndex): string {
    SkinLine(IsFirstIndex(w), IndexSubscript(w))
  }

  /** Elements `i`, `i+1`, … of an `n`-component vector weight. */
  function Elements(n: nat, i: nat): seq<WeightIndex>
    decreases n - i
  {
    if i >= n then [] else [Element(i)] + Elements(n, i + 1)
  }

  /** The cells from row `i`, column `j` onwards, in row-major order, of a
      `d`-by-`d` matrix weight. */
  function Cells(d: nat, i: nat, j: nat): seq<WeightIndex>
    decreases d - i, d - j
  {
    if i >= d then []
    else if j >= d then Cells(d, i + 1, 0)
    else [Cell(i, j)] + Cells(d, i, j + 1)
  }

  /** The components of a weight of type `t`, in the order the loops visit them. */
  function Components(t: AccessorType): seq<WeightIndex> {
    if IsMatrixType(t) then Cells(RowLength(t), 0, 0) else Elements(NumberOfComponents(t), 0)
  }

  function Render(ws: seq<WeightIndex>): (lines: seq<string>)
    ensures |lines| == |ws|
  {
    if |ws| == 0 then []
    else
      var rest := Render(ws[1..]);
      var lines := [SkinTerm(ws[0])] + rest;
      assert lines[1..] == rest;
      lines
  }

  /** The lines of the skinning sum. */
  function SkinningLines(t: AccessorType): seq<string> {
    Render(Components(t))
  }

  /** Every rendered line is the term of one of the components. */
  lemma {:induction false} RenderedTerm(ws: seq<WeightIndex>, l: string) returns (w: WeightIndex)
    requires l in Render(ws)
    ensures w in ws && l == SkinTerm(w)
  {
    if l == SkinTerm(ws[0]) {
      w := ws[0];
    } else {
      assert Render(ws)[1..] == Render(ws[1..]);
      w := RenderedTerm(ws[1..], l);
    }
  }

  /** Every line of the sum starts `    m` (`mat4 skinMatrix = `) or `    s`
      (`skinMatrix += `). */
  lemma SkinTermOpening(w: WeightIndex)
    ensures |SkinTerm(w)| > 4 && (SkinTerm(w)[4] == 'm' || SkinTerm(w)[4] == 's')
  {
    var first := IsFirstIndex(w);
    assert SkinPrefix(true)[4] == 'm' && SkinPrefix(false)[4] == 's';
    assert SkinTerm(w) == SkinPrefix(first) + WeightTerm(IndexSubscript(w));
  }

  /** Every line of the skinning sum of a type starts `    m` or `    s`. */
  lemma SkinningLineOpening(t: AccessorType, l: string)
    requires l in SkinningLines(t)
    ensures |l| > 4 && (l[4] == 'm' || l[4] == 's')
  {
    var w := RenderedTerm(Components(t), l);
    SkinTermOpening(w);
  }

  /** Emitting the term of the next component moves it from the pending
      components to the lines. */
  lemma RenderStep(lines: seq<string>, w: WeightIndex, rest: seq<WeightIndex>)
    ensures lines + Render([w] + rest) == (lines + [SkinTerm(w)]) + Render(rest)
  {
    assert ([w] + rest)[1..] == rest;
  }

  /** The skinning loops as the source writes them: one loop over the
      components of a vector type, two nested loops over the rows and columns
      of a matrix type, bounded by the square root of the component count. */
  method BuildSkinningLines(t: AccessorType) returns (lines: seq<string>)
    ensures lines == SkinningLines(t)
  {
    var n := NumberOfComponents(t);
    if !IsMatrixType(t) {
      lines := VectorLoop(n);
    } else {
      var d := Sqrt(n);
      SqrtIsRowLength(t);
      lines := MatrixLoops(d);
    }
  }

  /** `for (i = 0; i < numberOfComponents; i++)` */
  method VectorLoop(n: nat) returns (lines: seq<string>)
    ensures lines == Render(Elements(n, 0))
  {
    lines := [];
    var i := 0;
    while i < n
      invariant 0 <= i <= n
      invariant lines + Render(Elements(n, i)) == Render(Elements(n, 0))
    {
      RenderStep(lines, Element(i), Elements(n, i + 1));
      assert SkinTerm(Element(i)) == SkinLine(i == 0, Subscript(i));
      lines := lines + [SkinLine(i == 0, Subscript(i))];
      i := i + 1;
    }
  }

  /** `for (i = 0; i < d; i++) for (j = 0; j < d; j++)` */
  method MatrixLoops(d: nat) returns (lines: seq<string>)
    ensures lines == Render(Cells(d, 0, 0))
  {
    lines := [];
    var i := 0;
    while i < d
      invariant 0 <= i <= d
      invariant lines + Render(Cells(d, i, 0)) == Render(Cells(d, 0, 0))
    {
      var row := RowLoop(d, i);
      assert lines + Render(Cells(d, i, 0)) == (lines + row) + Render(Cells(d, i + 1, 0));
      lines := lines + row;
      i := i + 1;
    }
  }

  /** The inner loop: the terms of row `i`. */
  method RowLoop(d: nat, i: nat) returns (row: seq<string>)
    requires i < d
    ensures row + Render(Cells(d, i + 1, 0)) == Render(Cells(d, i, 0))
  {
    row := [];
    var j := 0;
    while j < d
      invariant 0 <= j <= d
      invariant row + Render(Cells(d, i, j)) == Render(Cells(d, i, 0))
    {
      RenderStep(row, Cell(i, j), Cells(d, i, j + 1));
      assert SkinTerm(Cell(i, j)) == SkinLine(i == 0 && j == 0, Subscript(i) + Subscript(j));
      row := row + [SkinLine(i == 0 && j == 0, Subscript(i) + Subscript(j))];
      j := j + 1;
    }
    assert Cells(d, i, j) == Cells(d, i + 1, 0);
  }

  // ----- Reading the subscripts back -----

  /** In `[digits]` followed by anything, the first `]` closes the digits. */
  lemma SubscriptShape(a: nat, rest: string)
    ensures var s := Subscript(a) + rest;
            && s[1..1 + |NatToString(a)|] == NatToString(a)
            && s[1 + |NatToString(a)|] == ']'
            && forall i :: 1 <= i < 1 + |NatToString(a)| ==> IsDigit(s[i])
  {
    var x := NatToString(a);
    var s := Subscript(a) + rest;
    assert forall i :: 1 <= i < 1 + |x| ==> s[i] == x[i - 1];
  }

  lemma SubscriptInjective(a: nat, b: nat)
    requires Subscript(a) == Subscript(b)
    ensures a == b
  {
    assert NatToString(a) == Subscript(a)[1..|Subscript(a)| - 1];
    assert NatToString(b) == Subscript(b)[1..|Subscript(b)| - 1];
    NatToStringInjective(a, b);
  }

  /** A subscript pair is longer than a single subscript of the same first
      number, and two pairs agree only if both numbers do. */
  lemma SubscriptPairInjective(a: nat, b: nat, c: nat, e: nat)
    requires Subscript(a) + Subscript(b) == Subscript(c) + Subscript(e)
    ensures a == c && b == e
  {
    var x, y := NatToString(a), NatToString(c);
    var s := Subscript(a) + Subscript(b);
    assert s == Subscript(c) + Subscript(e);
    SubscriptShape(a, Subscript(b));
    SubscriptShape(c, Subscript(e));
    assert |x| == |y|;
    assert x == s[1..1 + |x|] == y;
    NatToStringInjective(a, c);
    assert Subscript(b) == s[|Subscript(a)|..] == Subscript(e);
    SubscriptInjective(b, e);
  }

  /** A single subscript never reads like a pair: it ends right after its digits. */
  lemma SubscriptNotPair(a: nat, c: nat, e: nat)
    ensures Subscript(a) != Subscript(c) + Subscript(e)
  {
    var s := Subscript(c) + Subscript(e);
    SubscriptShape(c, Subscript(e));
    SubscriptShape(a, []);
    assert Subscript(a) + [] == Subscript(a);
    assert |s| > |Subscript(c)| == |NatToString(c)| + 2;
  }

  /** Equal terms have equal prefixes and equal subscripts. */
  lemma TermParts(first: bool, first': bool, index: string, index': string)
    requires SkinLine(first, index) == SkinLine(first', index')
    ensures first == first' && index == index'
  {
    var s := SkinPrefix(first) + WeightTerm(index);
    assert SkinPrefix(true)[4] == 'm' && SkinPrefix(false)[4] == 's';
    assert s[4] == SkinPrefix(first)[4] == SkinPrefix(first')[4];
    assert WeightTerm(index) == s[|SkinPrefix(first)|..] == WeightTerm(index');
    WeightTermInjective(index, index');
  }

  lemma WeightTermInjective(index: string, index': string)
    requires WeightTerm(index) == WeightTerm(index')
    ensures index == index'
  {
    var w := WeightTerm(index);
    assert |w| == 2 * |index| + 39;
    assert |WeightTerm(index')| == 2 * |index'| + 39;
    assert index == w[8..8 + |index|];
    assert index' == w[8..8 + |index'|];
  }

  /** Distinct components give distinct lines. */
  lemma SkinTermInjective(w: WeightIndex, w': WeightIndex)
    requires SkinTerm(w) == SkinTerm(w')
    ensures w == w'
  {
    TermParts(IsFirstIndex(w), IsFirstIndex(w'), IndexSubscript(w), IndexSubscript(w'));
    match (w, w')
    case (Element(i), Element(i')) => SubscriptInjective(i, i');
    case (Element(i), Cell(i', j')) => SubscriptNotPair(i, i', j');
    case (Cell(i, j), Element(i')) => SubscriptNotPair(i', i, j);
    case (Cell(i, j), Cell(i', j')) => SubscriptPairInjective(i, j, i', j');
  }

  // ----- Every component exactly once -----

  /** No component occurs twice. */
  predicate DistinctIndices(ws: seq<WeightIndex>) {
    |ws| == 0 || (ws[0] !in ws[1..] && DistinctIndices(ws[1..]))
  }


  /** Elements `i` to `n - 1`, each once. */
  lemma {:induction false} ElementsRead(n: nat, i: nat)
    ensures |Elements(n, i)| == if i <= n then n - i else 0
    ensures DistinctIndices(Elements(n, i))
    ensures forall w :: w in Elements(n, i) <==> w.Element? && i <= w.i < n
    decreases n - i
  {
    if i < n {
      ElementsRead(n, i + 1);
      DistinctIndicesCons(Element(i), Elements(n, i + 1));
    }
  }

  /** `(i', j')` comes at or after `(i, j)` in row-major order. */
  predicate NotBefore(i': nat, j': nat, i: nat, j: nat) {
    i' > i || (i' == i && j' >= j)
  }

  /** The cells from `(i, j)` on: `(d - i) * d - j` of them. */
  lemma {:induction false} CellsCount(d: nat, i: nat, j: nat)
    requires j <= d && (i < d || (i == d && j == 0))
    ensures |Cells(d, i, j)| == (d - i) * d - j
    decreases d - i, d - j
  {
    if i < d {
      if j >= d {
        CellsCount(d, i + 1, 0);
        assert (d - i) * d == (d - (i + 1)) * d + d;
      } else {
        CellsCount(d, i, j + 1);
      }
    }
  }

  /** Exactly the cells of the matrix at or after `(i, j)`. */
  lemma {:induction false} CellsMembers(d: nat, i: nat, j: nat, w: WeightIndex)
    ensures w in Cells(d, i, j) <==> w.Cell? && w.i < d && w.j < d && NotBefore(w.i, w.j, i, j)
    decreases d - i, d - j
  {
    if i < d {
      if j >= d {
        CellsMembers(d, i + 1, 0, w);
      } else {
        CellsMembers(d, i, j + 1, w);
      }
    }
  }

  /** Each cell at most once. */
  lemma {:induction false} CellsDistinct(d: nat, i: nat, j: nat)
    ensures DistinctIndices(Cells(d, i, j))
    decreases d - i, d - j
  {
    if i < d {
      if j >= d {
        CellsDistinct(d, i + 1, 0);
      } else {
        CellsDistinct(d, i, j + 1);
        CellNotLater(d, i, j);
        DistinctIndicesCons(Cell(i, j), Cells(d, i, j + 1));
        assert Cells(d, i, j) == [Cell(i, j)] + Cells(d, i, j + 1);
      }
    }
  }

  /** A cell does not recur among the cells after it. */
  lemma CellNotLater(d: nat, i: nat, j: nat)
    ensures Cell(i, j) !in Cells(d, i, j + 1)
  {
    CellsMembers(d, i, j + 1, Cell(i, j));
  }

  lemma DistinctIndicesCons(w: WeightIndex, ws: seq<WeightIndex>)
    requires w !in ws && DistinctIndices(ws)
    ensures DistinctIndices([w] + ws)
  {
    assert ([w] + ws)[1..] == ws;
  }


  /** Rendering distinct components gives distinct lines, and line `p` is
      the term of component `p`. */
  lemma {:induction false} RenderRead(ws: seq<WeightIndex>)
    requires DistinctIndices(ws)
    ensures Distinct(Render(ws))
    ensures forall p :: 0 <= p < |ws| ==> Render(ws)[p] == SkinTerm(ws[p])
  {
    if |ws| > 0 {
      assert DistinctIndices(ws[1..]);
      RenderRead(ws[1..]);
      var r := Render(ws);
      assert r[1..] == Render(ws[1..]);
      forall a, b | 0 <= a < b < |r|
        ensures r[a] != r[b]
      {
        if a == 0 {
          assert ws[b] == ws[1..][b - 1];
          if r[a] == r[b] {
            SkinTermInjective(ws[a], ws[b]);
          }
        } else {
          assert r[a] == Render(ws[1..])[a - 1] && r[b] == Render(ws[1..])[b - 1];
        }
      }
    }
  }

  /** A component of a weight of type `t`: an element below the component
      count, or a cell inside the matrix. */
  predicate ValidIndex(t: AccessorType, w: WeightIndex) {
    if IsMatrixType(t) then w.Cell? && w.i < RowLength(t) && w.j < RowLength(t)
    else w.Element? && w.i < NumberOfComponents(t)
  }

  /** The components of a weight of type `t`: one per component of the
      type, each once, and exactly the valid ones. */
  lemma ComponentsRead(t: AccessorType, w: WeightIndex)
    ensures |Components(t)| == NumberOfComponents(t)
    ensures DistinctIndices(Components(t))
    ensures w in Components(t) <==> ValidIndex(t, w)
  {
    if IsMatrixType(t) {
      var d := RowLength(t);
      SqrtIsRowLength(t);
      CellsCount(d, 0, 0);
      CellsMembers(d, 0, 0, w);
      CellsDistinct(d, 0, 0);
    } else {
      ElementsRead(NumberOfComponents(t), 0);
    }
  }

  /** The loops visit the first component (`[0]` or `[0][0]`) first. */
  lemma ComponentsStartAtFirst(t: AccessorType)
    ensures |Components(t)| > 0 && IsFirstIndex(Components(t)[0])
  {
    if IsMatrixType(t) {
      assert Components(t) == [Cell(0, 0)] + Cells(RowLength(t), 0, 1);
    } else {
      assert Components(t) == [Element(0)] + Elements(NumberOfComponents(t), 1);
    }
  }

  /** Only the first component opens the sum: all the components are of one
      kind, and the first index of that kind occurs once, at the start. */
  lemma {:induction false} OnlyFirstOpens(t: AccessorType, p: nat)
    requires p < |Components(t)|
    ensures IsFirstIndex(Components(t)[p]) <==> p == 0
  {
    var cs := Components(t);
    ComponentsStartAtFirst(t);
    if p > 0 && IsFirstIndex(cs[p]) {
      ComponentsRead(t, cs[p]);
      ComponentsRead(t, cs[0]);
    }
  }

  /** The skinning sum reads every weight component exactly once: it has one
      line per component, no two lines alike, line `p` adds the term of the
      `p`-th component, and the components are exactly those of the type.
      The term of a component opens with `mat4 skinMatrix = ` when it is
      the first index and `skinMatrix += ` otherwise (`SkinTerm`), and only
      line 0 has the first index: the first line declares `skinMatrix` and
      every later line adds to it. */
  lemma SkinningReadsEachComponentOnce(t: AccessorType, w: WeightIndex)
    ensures |SkinningLines(t)| == |Components(t)| == NumberOfComponents(t)
    ensures Distinct(SkinningLines(t))
    ensures forall p :: 0 <= p < |Components(t)| ==> SkinningLines(t)[p] == SkinTerm(Components(t)[p])
    ensures |Components(t)| > 0 && IsFirstIndex(Components(t)[0])
    ensures forall p :: 0 < p < |Components(t)| ==> !IsFirstIndex(Components(t)[p])
    ensures w in Components(t) <==> ValidIndex(t, w)
  {
    SkinningLinesRead(t, w);
    SkinningSumOpensOnce(t);
  }

  /** One line per component, no two alike, line `p` the term of component `p`. */
  lemma SkinningLinesRead(t: AccessorType, w: WeightIndex)
    ensures |SkinningLines(t)| == |Components(t)| == NumberOfComponents(t)
    ensures Distinct(SkinningLines(t))
    ensures forall p :: 0 <= p < |Components(t)| ==> SkinningLines(t)[p] == SkinTerm(Components(t)[p])
    ensures w in Components(t) <==> ValidIndex(t, w)
  {
    ComponentsRead(t, w);
    RenderRead(Components(t));
  }

  /** Only the first component, so only line 0, opens the sum. */
  lemma SkinningSumOpensOnce(t: AccessorType)
    ensures |Components(t)| > 0
    ensures IsFirstIndex(Components(t)[0]) && forall p :: 0 < p < |Components(t)| ==> !IsFirstIndex(Components(t)[p])
  {
    ComponentsStartAtFirst(t);
    forall p | 0 < p < |Components(t)|
      ensures !IsFirstIndex(Components(t)[p])
    {
      OnlyFirstOpens(t, p);
    }
  }
}

=== FILE: technique_tables.dfy ===
/** The binding tables of a generated technique (processPbrMaterials.js,
    `generateTechnique`): the flags that drive generation, the uniform table,
    the shader stage each uniform is declared in, and the attribute table.
 */
module TechniqueTables {
  import opened Wrappers
  import opened OrderedMaps
  import opened Text
  import opened Gltf
  import opened MaterialValues

  /** The generation flags after the primitive info, the skin and the unlit
      extension have been taken into account. `skinWeights` is the weight
      accessor type when skinning is on, and absent otherwise. */
  datatype Flags = Flags(
    skinWeights: Option<AccessorType>,
    hasVertexColors: bool,
    hasMorphTargets: bool,
    hasNormals: bool,
    hasTangents: bool,
    hasTexCoords: bool,
    isUnlit: bool)
  {
    predicate HasSkinning() {
      skinWeights.Some?
    }
  }

  /** The flags `generateTechnique` computes. Without primitive info every flag
      but `isUnlit` is off, since that one comes from the material; skinning
      needs at least one joint; the unlit extension switches normals and
      tangents off. */
  function DeriveFlags(info: Option<PrimitiveInfo>, jointCount: nat, m: Material): (f: Flags)
    ensures f.isUnlit <==> IsUnlit(m)
    ensures f.HasSkinning() <==> info.Some? && info.value.skinning.skinned && jointCount > 0
    ensures f.HasSkinning() ==> f.skinWeights.value == info.value.skinning.weightType
    ensures f.hasNormals <==> info.Some? && info.value.hasNormals && !IsUnlit(m)
    ensures f.hasTangents <==> info.Some? && info.value.hasTangents && !IsUnlit(m)
    ensures f.hasVertexColors <==> info.Some? && info.value.hasVertexColors
    ensures f.hasMorphTargets <==> info.Some? && info.value.hasMorphTargets
    ensures f.hasTexCoords <==> info.Some? && info.value.hasTexCoords
  {
    match info
    case None => Flags(None, false, false, false, false, false, IsUnlit(m))
    case Some(p) =>
      var skinned := p.skinning.skinned && jointCount > 0;
      Flags(
        if skinned then Some(p.skinning.weightType) else None,
        p.hasVertexColors,
        p.hasMorphTargets,
        p.hasNormals && !IsUnlit(m),
        p.hasTangents && !IsUnlit(m),
        p.hasTexCoords,
        IsUnlit(m))
  }

  // ----- Uniform table -----

  const DiffuseSemantic: string := "_3DTILESDIFFUSE"

  function ModelViewUniform(rtc: bool): Uniform {
    Uniform(Some(FloatMat4), Some(if rtc then "CESIUM_RTC_MODELVIEW" else "MODELVIEW"), None)
  }

  const ProjectionUniform: Uniform := Uniform(Some(FloatMat4), Some("PROJECTION"), None)
  const NormalMatrixUniform: Uniform := Uniform(Some(FloatMat3), Some("MODELVIEWINVERSETRANSPOSE"), None)
  const AlphaCutoffUniform: Uniform := Uniform(Some(Float), Some("ALPHACUTOFF"), None)

  function JointMatrixUniform(jointCount: nat): Uniform {
    Uniform(Some(FloatMat4), Some("JOINTMATRIX"), Some(jointCount))
  }

  function MorphWeightsUniform(targetCount: nat): Uniform {
    Uniform(Some(Float), Some("MORPHWEIGHTS"), Some(targetCount))
  }

  predicate IsMask(alphaMode: Option<string>) {
    alphaMode == Some("MASK")
  }

  /** Which fixed uniform, if any, the table holds under name `k`: the two
      transform matrices always, the normal matrix, joint matrices, morph
      weights and alpha cutoff exactly when their condition holds. */
  function FixedUniformSpec(f: Flags, jointCount: nat, targetCount: nat, alphaMode: Option<string>, rtc: bool, k: string): Option<Uniform> {
    if k == "u_modelViewMatrix" then Some(ModelViewUniform(rtc))
    else if k == "u_projectionMatrix" then Some(ProjectionUniform)
    else if k == "u_normalMatrix" && f.hasNormals then Some(NormalMatrixUniform)
    else if k == "u_jointMatrix" && f.HasSkinning() then Some(JointMatrixUniform(jointCount))
    else if k == "u_morphWeights" && f.hasMorphTargets then Some(MorphWeightsUniform(targetCount))
    else if k == "u_alphaCutoff" && IsMask(alphaMode) then Some(AlphaCutoffUniform)
    else None
  }

  lemma AlphaCutoffSpec(f: Flags, jointCount: nat, targetCount: nat, alphaMode: Option<string>, rtc: bool)
    ensures FixedUniformSpec(f, jointCount, targetCount, alphaMode, rtc, "u_alphaCutoff")
            == if IsMask(alphaMode) then Some(AlphaCutoffUniform) else None
  {
  }

  lemma JointMatrixSpec(f: Flags, jointCount: nat, targetCount: nat, alphaMode: Option<string>, rtc: bool)
    ensures FixedUniformSpec(f, jointCount, targetCount, alphaMode, rtc, "u_jointMatrix")
            == if f.HasSkinning() then Some(JointMatrixUniform(jointCount)) else None
  {
  }

  lemma MorphWeightsSpec(f: Flags, jointCount: nat, targetCount: nat, alphaMode: Option<string>, rtc: bool)
    ensures FixedUniformSpec(f, jointCount, targetCount, alphaMode, rtc, "u_morphWeights")
            == if f.hasMorphTargets then Some(MorphWeightsUniform(targetCount)) else None
  {
  }

  /** The names of the fixed uniforms, in the order the source assigns them:
      the two matrices of the object literal, then each conditional assignment. */
  const FixedUniformOrder: seq<string> := [
    "u_modelViewMatrix", "u_projectionMatrix", "u_normalMatrix",
    "u_jointMatrix", "u_morphWeights", "u_alphaCutoff"
  ]

  /** The fixed part of `techniqueUniforms`. */
  function FixedUniforms(f: Flags, jointCount: nat, targetCount: nat, alphaMode: Option<string>, rtc: bool): OMap<Uniform> {
    Table(FixedUniformOrder, k => FixedUniformSpec(f, jointCount, targetCount, alphaMode, rtc, k))
  }

  /** The fixed table holds exactly the uniforms `FixedUniformSpec` lists, each once. */
  lemma FixedUniformsGet(f: Flags, jointCount: nat, targetCount: nat, alphaMode: Option<string>, rtc: bool, k: string)
    ensures Get(FixedUniforms(f, jointCount, targetCount, alphaMode, rtc), k) == FixedUniformSpec(f, jointCount, targetCount, alphaMode, rtc, k)
  {
  }

  lemma FixedUniformsUnique(f: Flags, jointCount: nat, targetCount: nat, alphaMode: Option<string>, rtc: bool)
    ensures UniqueKeys(FixedUniforms(f, jointCount, targetCount, alphaMode, rtc))
  {
    assert Distinct(FixedUniformOrder);
    TableUnique(FixedUniformOrder, k => FixedUniformSpec(f, jointCount, targetCount, alphaMode, rtc, k));
  }

  /** One `{type: getPBRValueType(name)}` entry per generated material value. */
  function MaterialUniforms(values: OMap<ParamValue>): (r: OMap<Uniform>)
    ensures Keys(r) == Keys(values)
  {
    if |values| == 0 then []
    else
      var rest := MaterialUniforms(values[1..]);
      var r := [Entry(values[0].key, Uniform(PbrValueType(values[0].key), None, None))] + rest;
      assert r[1..] == rest;
      r
  }

  /** The uniform that receives the diffuse semantic: the base-colour texture if
      there is one, else the base-colour factor. */
  function DiffuseUniformName(t: OMap<Uniform>): Option<string> {
    if "u_baseColorTexture" in Keys(t) then Some("u_baseColorTexture")
    else if "u_baseColorFactor" in Keys(t) then Some("u_baseColorFactor")
    else None
  }

  function MarkDiffuse(t: OMap<Uniform>): OMap<Uniform> {
    match DiffuseUniformName(t)
    case None => t
    case Some(name) =>
      var u := Get(t, name).value;
      Put(t, name, u.(semantic := Some(DiffuseSemantic)))
  }

  /** `techniqueUniforms` as handed to the technique. */
  function UniformTable(f: Flags, jointCount: nat, targetCount: nat, alphaMode: Option<string>, rtc: bool,
                        values: OMap<ParamValue>): OMap<Uniform> {
    MarkDiffuse(PutAll(FixedUniforms(f, jointCount, targetCount, alphaMode, rtc), MaterialUniforms(values)))
  }

  lemma {:induction false} MaterialUniformsGet(values: OMap<ParamValue>, k: string)
    ensures Get(MaterialUniforms(values), k) == if k in Keys(values) then Some(Uniform(PbrValueType(k), None, None)) else None
  {
    if |values| > 0 {
      MaterialUniformsGet(values[1..], k);
      var r := MaterialUniforms(values);
      assert r[1..] == MaterialUniforms(values[1..]);
    }
  }

  lemma MaterialUniformsUnique(values: OMap<ParamValue>)
    requires UniqueKeys(values)
    ensures UniqueKeys(MaterialUniforms(values))
  {
    if |values| > 0 {
      MaterialUniformsUnique(values[1..]);
    }
  }

  /** What a generated-values key does to the table before the diffuse marking:
      material entries replace fixed ones of the same name. */
  lemma {:induction false} UnmarkedTableGet(f: Flags, jointCount: nat, targetCount: nat, alphaMode: Option<string>,
                                            rtc: bool, values: OMap<ParamValue>, k: string)
    requires UniqueKeys(values)
    ensures var base := FixedUniforms(f, jointCount, targetCount, alphaMode, rtc);
            Get(PutAll(base, MaterialUniforms(values)), k)
              == if k in Keys(values) then Some(Uniform(PbrValueType(k), None, None)) else Get(base, k)
  {
    MaterialUniformsUnique(values);
    MaterialUniformsGet(values, k);
    PutAllGet(FixedUniforms(f, jointCount, targetCount, alphaMode, rtc), MaterialUniforms(values), k);
  }

  /** Every semantic a fixed uniform carries differs from the diffuse semantic. */
  lemma FixedSemanticsAreNotDiffuse(f: Flags, jointCount: nat, targetCount: nat, alphaMode: Option<string>, rtc: bool, k: string)
    ensures var u := FixedUniformSpec(f, jointCount, targetCount, alphaMode, rtc, k);
            u.Some? ==> u.value.semantic != Some(DiffuseSemantic)
  {
  }

  /** Marking the diffuse uniform changes one entry's semantic and nothing else. */
  lemma MarkDiffuseGet(t: OMap<Uniform>, k: string)
    ensures Keys(MarkDiffuse(t)) == Keys(t)
    ensures UniqueKeys(t) ==> UniqueKeys(MarkDiffuse(t))
    ensures Get(MarkDiffuse(t), k) ==
              if Some(k) == DiffuseUniformName(t) then Some(Get(t, k).value.(semantic := Some(DiffuseSemantic)))
              else Get(t, k)
  {
  }

  /** The uniform table has exactly the fixed uniforms the flags call for and
      one uniform per generated material value, and its keys are distinct. */
  lemma {:induction false} UniformTableKeys(f: Flags, jointCount: nat, targetCount: nat, alphaMode: Option<string>,
                                            rtc: bool, values: OMap<ParamValue>, k: string)
    requires UniqueKeys(values)
    ensures var t := UniformTable(f, jointCount, targetCount, alphaMode, rtc, values);
            && UniqueKeys(t)
            && (k in Keys(t) <==> k in Keys(values) || FixedUniformSpec(f, jointCount, targetCount, alphaMode, rtc, k).Some?)
  {
    var base := FixedUniforms(f, jointCount, targetCount, alphaMode, rtc);
    var unmarked := PutAll(base, MaterialUniforms(values));
    FixedUniformsUnique(f, jointCount, targetCount, alphaMode, rtc);
    UnmarkedTableGet(f, jointCount, targetCount, alphaMode, rtc, values, k);
    FixedUniformsGet(f, jointCount, targetCount, alphaMode, rtc, k);
    MarkDiffuseGet(unmarked, k);
  }

  /** A fixed uniform that no material value overrides has the type, semantic
      and count the source assigns, and a name that is neither fixed nor a
      material value is absent. */
  lemma {:induction false} UniformTableFixedEntries(f: Flags, jointCount: nat, targetCount: nat, alphaMode: Option<string>,
                                                    rtc: bool, values: OMap<ParamValue>, k: string)
    requires UniqueKeys(values)
    requires k !in Keys(values)
    ensures Get(UniformTable(f, jointCount, targetCount, alphaMode, rtc, values), k)
            == FixedUniformSpec(f, jointCount, targetCount, alphaMode, rtc, k)
  {
    var base := FixedUniforms(f, jointCount, targetCount, alphaMode, rtc);
    var unmarked := PutAll(base, MaterialUniforms(values));
    UnmarkedTableGet(f, jointCount, targetCount, alphaMode, rtc, values, k);
    FixedUniformsGet(f, jointCount, targetCount, alphaMode, rtc, k);
    DiffuseChoice(f, jointCount, targetCount, alphaMode, rtc, values);
    assert Some(k) != DiffuseNameOfValues(values);
    MarkDiffuseGet(unmarked, k);
  }

  /** Every generated material value gets a uniform typed by `getPBRValueType`. */
  lemma {:induction false} UniformTableMaterialTypes(f: Flags, jointCount: nat, targetCount: nat, alphaMode: Option<string>, rtc: bool, values: OMap<ParamValue>, k: string)
    requires UniqueKeys(values)
    requires k in Keys(values)
    ensures var t := UniformTable(f, jointCount, targetCount, alphaMode, rtc, values);
            Get(t, k).Some? && Get(t, k).value.glType == PbrValueType(k)
  {
    var unmarked := PutAll(FixedUniforms(f, jointCount, targetCount, alphaMode, rtc), MaterialUniforms(values));
    UnmarkedTableGet(f, jointCount, targetCount, alphaMode, rtc, values, k);
    MarkDiffuseGet(unmarked, k);
  }

  /** The diffuse uniform is chosen among the material values only: no fixed
      uniform is named after the base colour. */
  lemma {:induction false} DiffuseChoice(f: Flags, jointCount: nat, targetCount: nat, alphaMode: Option<string>, rtc: bool, values: OMap<ParamValue>)
    requires UniqueKeys(values)
    ensures DiffuseUniformName(PutAll(FixedUniforms(f, jointCount, targetCount, alphaMode, rtc), MaterialUniforms(values))) == DiffuseNameOfValues(values)
  {
    var base := FixedUniforms(f, jointCount, targetCount, alphaMode, rtc);
    PutAllKeys(base, MaterialUniforms(values));
    FixedUniformsGet(f, jointCount, targetCount, alphaMode, rtc, "u_baseColorTexture");
    FixedUniformsGet(f, jointCount, targetCount, alphaMode, rtc, "u_baseColorFactor");
    BaseColorIsNotFixed(f, jointCount, targetCount, alphaMode, rtc);
  }

  lemma BaseColorIsNotFixed(f: Flags, jointCount: nat, targetCount: nat, alphaMode: Option<string>, rtc: bool)
    ensures FixedUniformSpec(f, jointCount, targetCount, alphaMode, rtc, "u_baseColorTexture") == None
    ensures FixedUniformSpec(f, jointCount, targetCount, alphaMode, rtc, "u_baseColorFactor") == None
  {
  }

  /** Exactly one uniform — the base-colour texture if present, else the
      base-colour factor, else none — carries the diffuse semantic. */
  lemma {:induction false} UniformTableDiffuse(f: Flags, jointCount: nat, targetCount: nat, alphaMode: Option<string>, rtc: bool, values: OMap<ParamValue>, k: string)
    requires UniqueKeys(values)
    ensures var t := UniformTable(f, jointCount, targetCount, alphaMode, rtc, values);
            k in Keys(t) ==> (Get(t, k).value.semantic == Some(DiffuseSemantic) <==> Some(k) == DiffuseNameOfValues(values))
  {
    var unmarked := PutAll(FixedUniforms(f, jointCount, targetCount, alphaMode, rtc), MaterialUniforms(values));
    UnmarkedTableGet(f, jointCount, targetCount, alphaMode, rtc, values, k);
    FixedSemanticsAreNotDiffuse(f, jointCount, targetCount, alphaMode, rtc, k);
    FixedUniformsGet(f, jointCount, targetCount, alphaMode, rtc, k);
    DiffuseChoice(f, jointCount, targetCount, alphaMode, rtc, values);
    MarkDiffuseGet(unmarked, k);
  }

  /** The diffuse choice, read off the generated values. */
  function DiffuseNameOfValues(values: OMap<ParamValue>): Option<string> {
    if "u_baseColorTexture" in Keys(values) then Some("u_baseColorTexture")
    else if "u_baseColorFactor" in Keys(values) then Some("u_baseColorFactor")
    else None
  }

  // ----- Stage routing -----

  datatype Stage = VertexStage | FragmentStage

  /** The stage a uniform is declared in: matrices and the morph weights go to
      the vertex shader, everything else to the fragment shader. */
  function StageOf(name: string, u: Uniform): Stage {
    if u.glType != Some(FloatMat3) && u.glType != Some(FloatMat4) && name != "u_morphWeights" then FragmentStage
    else VertexStage
  }

  /** The uniforms declared in stage `s`, in table order. */
  function StageEntries(t: OMap<Uniform>, s: Stage): (r: OMap<Uniform>)
    ensures forall i :: 0 <= i < |r| ==> StageOf(r[i].key, r[i].value) == s
    ensures |r| <= |t|
  {
    if |t| == 0 then []
    else if StageOf(t[0].key, t[0].value) == s then [t[0]] + StageEntries(t[1..], s)
    else StageEntries(t[1..], s)
  }

  /** The two stages split the table: every uniform is declared in exactly one
      stage, once for each time it occurs in the table. */
  lemma {:induction false} StagesPartitionTable(t: OMap<Uniform>)
    ensures multiset(StageEntries(t, VertexStage)) + multiset(StageEntries(t, FragmentStage)) == multiset(t)
  {
    if |t| > 0 {
      StagesPartitionTable(t[1..]);
      assert t == [t[0]] + t[1..];
    }
  }

  /** A uniform occurs in the stage its type and name call for, and not in the other. */
  lemma StageMembership(t: OMap<Uniform>, e: Entry<Uniform>)
    requires e in t
    ensures e in StageEntries(t, StageOf(e.key, e.value))
    ensures e !in StageEntries(t, if StageOf(e.key, e.value) == VertexStage then FragmentStage else VertexStage)
  {
    StagesPartitionTable(t);
    assert e in multiset(t);
    var other := if StageOf(e.key, e.value) == VertexStage then FragmentStage else VertexStage;
  }

  /** Routing of the technique's uniforms: the transform matrices and the morph
      weights are vertex-stage uniforms; the alpha cutoff and every material
      value are fragment-stage uniforms. */
  lemma RoutingOfKnownUniforms(rtc: bool, jointCount: nat, targetCount: nat, name: string)
    ensures StageOf("u_modelViewMatrix", ModelViewUniform(rtc)) == VertexStage
    ensures StageOf("u_projectionMatrix", ProjectionUniform) == VertexStage
    ensures StageOf("u_normalMatrix", NormalMatrixUniform) == VertexStage
    ensures StageOf("u_jointMatrix", JointMatrixUniform(jointCount)) == VertexStage
    ensures StageOf("u_morphWeights", MorphWeightsUniform(targetCount)) == VertexStage
    ensures StageOf("u_alphaCutoff", AlphaCutoffUniform) == FragmentStage
    ensures name != "u_morphWeights" ==> StageOf(name, Uniform(PbrValueType(name), None, None)) == FragmentStage
  {
  }

  // ----- Attribute table -----

  /** `'a_' + attribute + '_' + k`: the technique attribute of morph target `k`. */
  function MorphAttributeName(attribute: string, k: nat): string {
    "a_" + MorphSemantic(attribute, k)
  }

  /** `attribute + '_' + k`: the semantic of that attribute. */
  function MorphSemantic(attribute: string, k: nat): string {
    attribute + "_" + NatToString(k)
  }

  /** The morph attributes of targets `k`, `k+1`, …, in the order they are assigned. */
  function MorphEntries(targets: seq<MorphTarget>, k: nat): (r: OMap<string>)
    ensures forall i :: 0 <= i < |r| ==> r[i].key == "a_" + r[i].value
    decreases |targets|
  {
    if |targets| == 0 then []
    else
      var here := TargetEntries(targets[0].attributeNames, k);
      var rest := MorphEntries(targets[1..], k + 1);
      assert forall i :: |here| <= i < |here| + |rest| ==> (here + rest)[i] == rest[i - |here|];
      here + rest
  }

  /** The attributes of one target, skipping `extras`. */
  function TargetEntries(names: seq<string>, k: nat): (r: OMap<string>)
    ensures forall i :: 0 <= i < |r| ==> r[i].key == "a_" + r[i].value
  {
    if |names| == 0 then []
    else if names[0] == "extras" then TargetEntries(names[1..], k)
    else [Entry(MorphAttributeName(names[0], k), MorphSemantic(names[0], k))] + TargetEntries(names[1..], k)
  }

  /** `name` is the technique attribute of one of the attributes `names` of target `k`. */
  predicate TargetHas(names: seq<string>, k: nat, name: string) {
    exists a :: a in names && a != "extras" && name == MorphAttributeName(a, k)
  }

  /** `name` is the technique attribute of an attribute of target `k + j`, for some `j`. */
  predicate MorphAttributeFrom(targets: seq<MorphTarget>, k: nat, name: string) {
    exists j :: 0 <= j < |targets| && TargetHas(targets[j].attributeNames, k + j, name)
  }

  /** `name` is the technique attribute of some attribute of some morph target. */
  predicate IsMorphAttribute(targets: seq<MorphTarget>, name: string) {
    MorphAttributeFrom(targets, 0, name)
  }

  /** The vertex attributes assigned after the morph loop, in source order. */
  const VertexAttributeOrder: seq<string> := [
    "a_normal", "a_tangent", "a_texcoord_0", "a_joint", "a_weight", "a_vertexColor", "a_batchId"
  ]

  /** The semantic each of those attributes gets, when its flag is on. */
  function VertexAttributeSpec(f: Flags, batchId: bool, name: string): Option<string> {
    if name == "a_normal" && f.hasNormals then Some("NORMAL")
    else if name == "a_tangent" && f.hasTangents then Some("TANGENT")
    else if name == "a_texcoord_0" && f.hasTexCoords then Some("TEXCOORD_0")
    else if name == "a_joint" && f.HasSkinning() then Some("JOINTS_0")
    else if name == "a_weight" && f.HasSkinning() then Some("WEIGHTS_0")
    else if name == "a_vertexColor" && f.hasVertexColors then Some("COLOR_0")
    else if name == "a_batchId" && batchId then Some("_BATCHID")
    else None
  }

  /** The table after the position and the morph loop. */
  function MorphStage(f: Flags, targets: seq<MorphTarget>): OMap<string> {
    var position := [Entry("a_position", "POSITION")];
    if f.hasMorphTargets then PutAll(position, MorphEntries(targets, 0)) else position
  }

  /** The vertex attributes the flags call for, in source order. */
  function VertexAttributes(f: Flags, batchId: bool): OMap<string> {
    Table(VertexAttributeOrder, name => VertexAttributeSpec(f, batchId, name))
  }

  lemma VertexAttributesGet(f: Flags, batchId: bool, name: string)
    ensures Get(VertexAttributes(f, batchId), name) == VertexAttributeSpec(f, batchId, name)
  {
  }

  lemma VertexAttributesUnique(f: Flags, batchId: bool)
    ensures UniqueKeys(VertexAttributes(f, batchId))
  {
    assert Distinct(VertexAttributeOrder);
    TableUnique(VertexAttributeOrder, name => VertexAttributeSpec(f, batchId, name));
  }

  /** `techniqueAttributes`: the position, the morph attributes, then the
      vertex attributes the flags call for, assigned in that order. */
  function AttributeTable(f: Flags, targets: seq<MorphTarget>, batchId: bool): OMap<string> {
    PutAll(MorphStage(f, targets), VertexAttributes(f, batchId))
  }

  /** What the attribute table says about `name`: a vertex attribute whose
      flag is on wins, since it is assigned last; then a morph attribute maps
      to its own semantic; then the position. */
  function AttributeSpec(f: Flags, targets: seq<MorphTarget>, batchId: bool, name: string): Option<string> {
    if name == "a_batchId" && batchId then Some("_BATCHID")
    else if name == "a_vertexColor" && f.hasVertexColors then Some("COLOR_0")
    else if name == "a_weight" && f.HasSkinning() then Some("WEIGHTS_0")
    else if name == "a_joint" && f.HasSkinning() then Some("JOINTS_0")
    else if name == "a_texcoord_0" && f.hasTexCoords then Some("TEXCOORD_0")
    else if name == "a_tangent" && f.hasTangents then Some("TANGENT")
    else if name == "a_normal" && f.hasNormals then Some("NORMAL")
    else if f.hasMorphTargets && IsMorphAttribute(targets, name) then Some(name[2..])
    else if name == "a_position" then Some("POSITION")
    else None
  }

  lemma {:induction false} TargetEntriesKeys(names: seq<string>, k: nat, name: string)
    ensures name in Keys(TargetEntries(names, k)) <==> TargetHas(names, k, name)
  {
    if |names| > 0 {
      TargetEntriesKeys(names[1..], k, name);
      var r := TargetEntries(names, k);
      if names[0] != "extras" {
        assert r[1..] == TargetEntries(names[1..], k);
      }
      if TargetHas(names, k, name) {
        var a :| a in names && a != "extras" && name == MorphAttributeName(a, k);
        if a != names[0] {
          assert a in names[1..];
        }
      }
      if TargetHas(names[1..], k, name) {
        var a :| a in names[1..] && a != "extras" && name == MorphAttributeName(a, k);
        assert a in names;
      }
    }
  }

  lemma KeysAppend<V>(a: OMap<V>, b: OMap<V>)
    ensures Keys(a + b) == Keys(a) + Keys(b)
  {
    if |a| > 0 {
      assert (a + b)[1..] == a[1..] + b;
      KeysAppend(a[1..], b);
      assert (a + b)[0] == a[0];
      assert Keys(a + b) == [a[0].key] + Keys(a[1..] + b);
      assert Keys(a) == [a[0].key] + Keys(a[1..]);
      assert [a[0].key] + (Keys(a[1..]) + Keys(b)) == ([a[0].key] + Keys(a[1..])) + Keys(b);
    } else {
      assert a + b == b;
    }
  }

  /** Peels the first target off `MorphAttributeFrom`. */
  lemma MorphAttributeFromUnfold(targets: seq<MorphTarget>, k: nat, name: string)
    requires |targets| > 0
    ensures MorphAttributeFrom(targets, k, name)
            <==> TargetHas(targets[0].attributeNames, k, name) || MorphAttributeFrom(targets[1..], k + 1, name)
  {
    if MorphAttributeFrom(targets, k, name) {
      var j :| 0 <= j < |targets| && TargetHas(targets[j].attributeNames, k + j, name);
      if j > 0 {
        assert targets[1..][j - 1] == targets[j];
        assert TargetHas(targets[1..][j - 1].attributeNames, (k + 1) + (j - 1), name);
      }
    }
    if MorphAttributeFrom(targets[1..], k + 1, name) {
      var j :| 0 <= j < |targets[1..]| && TargetHas(targets[1..][j].attributeNames, k + 1 + j, name);
      assert targets[j + 1] == targets[1..][j];
      assert TargetHas(targets[j + 1].attributeNames, k + (j + 1), name);
    }
    if TargetHas(targets[0].attributeNames, k, name) {
      assert TargetHas(targets[0].attributeNames, k + 0, name);
    }
  }

  lemma {:induction false} MorphEntriesKeys(targets: seq<MorphTarget>, k: nat, name: string)
    ensures name in Keys(MorphEntries(targets, k)) <==> MorphAttributeFrom(targets, k, name)
    decreases |targets|
  {
    if |targets| > 0 {
      MorphEntriesKeys(targets[1..], k + 1, name);
      TargetEntriesKeys(targets[0].attributeNames, k, name);
      KeysAppend(TargetEntries(targets[0].attributeNames, k), MorphEntries(targets[1..], k + 1));
      MorphAttributeFromUnfold(targets, k, name);
    }
  }

  /** No underscore after the `a_` prefix: the shape of every fixed attribute name but `a_texcoord_0`. */
  predicate PlainAttributeName(name: string) {
    forall i :: 2 <= i < |name| ==> name[i] != '_'
  }

  /** A morph attribute name always has an underscore after its prefix, so no
      plain name is a morph attribute. */
  lemma PlainNamesAreNotMorphAttributes(targets: seq<MorphTarget>, name: string)
    requires PlainAttributeName(name)
    ensures !IsMorphAttribute(targets, name)
  {
    forall j, a | 0 <= j < |targets| && a in targets[j].attributeNames
      ensures name != MorphAttributeName(a, j)
    {
      MorphAttributeNameHasUnderscore(a, j);
    }
  }

  lemma MorphAttributeNameHasUnderscore(attribute: string, k: nat)
    ensures !PlainAttributeName(MorphAttributeName(attribute, k))
  {
    assert MorphAttributeName(attribute, k)[2 + |attribute|] == '_';
  }

  /** After the morph loop, a morph attribute maps to its semantic and any
      other name is as in the position-only table. */
  lemma {:induction false} MorphTableGet(targets: seq<MorphTarget>, name: string)
    ensures Get(PutAll([Entry("a_position", "POSITION")], MorphEntries(targets, 0)), name)
            == if IsMorphAttribute(targets, name) then Some(name[2..])
               else if name == "a_position" then Some("POSITION") else None
  {
    var es := MorphEntries(targets, 0);
    MorphEntriesKeys(targets, 0, name);
    PutAllKeys([Entry("a_position", "POSITION")], es);
    if IsMorphAttribute(targets, name) {
      var j :| 0 <= j < |targets| && TargetHas(targets[j].attributeNames, 0 + j, name);
      var a :| a in targets[j].attributeNames && a != "extras" && name == MorphAttributeName(a, j);
      assert name[..2] == "a_";
      PutAllGetDetermined([Entry("a_position", "POSITION")], es, name, name[2..]);
    }
  }

  /** The attribute table holds exactly what `AttributeSpec` says. */
  lemma {:induction false} AttributeTableGet(f: Flags, targets: seq<MorphTarget>, batchId: bool, name: string)
    ensures Get(AttributeTable(f, targets, batchId), name) == AttributeSpec(f, targets, batchId, name)
  {
    var vertex := VertexAttributes(f, batchId);
    VertexAttributesUnique(f, batchId);
    VertexAttributesGet(f, batchId, name);
    PutAllGet(MorphStage(f, targets), vertex, name);
    MorphStageGet(f, targets, name);
    SpecSplit(f, targets, batchId, name);
  }

  lemma SpecSplit(f: Flags, targets: seq<MorphTarget>, batchId: bool, name: string)
    ensures AttributeSpec(f, targets, batchId, name)
            == if VertexAttributeSpec(f, batchId, name).Some? then VertexAttributeSpec(f, batchId, name)
               else if f.hasMorphTargets && IsMorphAttribute(targets, name) then Some(name[2..])
               else if name == "a_position" then Some("POSITION") else None
  {
  }

  lemma MorphStageGet(f: Flags, targets: seq<MorphTarget>, name: string)
    ensures Get(MorphStage(f, targets), name)
            == if f.hasMorphTargets && IsMorphAttribute(targets, name) then Some(name[2..])
               else if name == "a_position" then Some("POSITION") else None
  {
    MorphTableGet(targets, name);
  }

  /** The position attribute is always present with semantic `POSITION`. */
  lemma AttributeTablePosition(f: Flags, targets: seq<MorphTarget>, batchId: bool)
    ensures Get(AttributeTable(f, targets, batchId), "a_position") == Some("POSITION")
  {
    AttributeTableGet(f, targets, batchId, "a_position");
    PositionSpec(f, targets, batchId);
  }

  lemma PositionSpec(f: Flags, targets: seq<MorphTarget>, batchId: bool)
    ensures AttributeSpec(f, targets, batchId, "a_position") == Some("POSITION")
  {
    PlainAttributeNames();
    PlainNamesAreNotMorphAttributes(targets, "a_position");
  }

  /** Each vertex attribute other than `a_texcoord_0` is present exactly when
      its flag is on, with the semantic the source assigns. Morph attributes
      cannot displace them, because a morph attribute name has an underscore
      after its `a_` prefix. Only `a_texcoord_0` can collide, with target 0's
      `texcoord` attribute: with its flag on it is overwritten with
      `TEXCOORD_0`, and with its flag off that morph entry stays. */
  lemma AttributeTableVertexEntries(f: Flags, targets: seq<MorphTarget>, batchId: bool, name: string)
    requires name in VertexAttributeOrder
    ensures name != "a_texcoord_0" ==> Get(AttributeTable(f, targets, batchId), name) == VertexAttributeSpec(f, batchId, name)
    ensures name == "a_texcoord_0" && f.hasTexCoords ==> Get(AttributeTable(f, targets, batchId), name) == Some("TEXCOORD_0")
  {
    AttributeTableGet(f, targets, batchId, name);
    VertexAttributeSpecAgrees(f, targets, batchId, name);
  }

  lemma VertexAttributeSpecAgrees(f: Flags, targets: seq<MorphTarget>, batchId: bool, name: string)
    requires name in VertexAttributeOrder
    ensures name != "a_texcoord_0" ==> AttributeSpec(f, targets, batchId, name) == VertexAttributeSpec(f, batchId, name)
    ensures name == "a_texcoord_0" && f.hasTexCoords ==> AttributeSpec(f, targets, batchId, name) == Some("TEXCOORD_0")
  {
    if name != "a_texcoord_0" {
      PlainVertexAttributeNames(name);
      PlainNamesAreNotMorphAttributes(targets, name);
    }
  }

  lemma PlainVertexAttributeNames(name: string)
    requires name in VertexAttributeOrder && name != "a_texcoord_0"
    ensures PlainAttributeName(name)
  {
    PlainAttributeNames();
  }

  /** With morph targets on, every attribute of every target (but `extras`)
      gets the technique attribute `a_<attribute>_<k>` with semantic
      `<attribute>_<k>`, unless it is the texture-coordinate name the
      texture-coordinate flag later overwrites. */
  lemma AttributeTableMorphEntries(f: Flags, targets: seq<MorphTarget>, batchId: bool, k: nat, attribute: string)
    requires f.hasMorphTargets
    requires k < |targets| && attribute in targets[k].attributeNames && attribute != "extras"
    requires !(f.hasTexCoords && MorphAttributeName(attribute, k) == "a_texcoord_0")
    ensures Get(AttributeTable(f, targets, batchId), MorphAttributeName(attribute, k)) == Some(MorphSemantic(attribute, k))
  {
    AttributeTableGet(f, targets, batchId, MorphAttributeName(attribute, k));
    MorphAttributeSpec(f, targets, batchId, k, attribute);
  }

  lemma MorphAttributeSpec(f: Flags, targets: seq<MorphTarget>, batchId: bool, k: nat, attribute: string)
    requires f.hasMorphTargets
    requires k < |targets| && attribute in targets[k].attributeNames && attribute != "extras"
    requires !(f.hasTexCoords && MorphAttributeName(attribute, k) == "a_texcoord_0")
    ensures AttributeSpec(f, targets, batchId, MorphAttributeName(attribute, k)) == Some(MorphSemantic(attribute, k))
  {
    var name := MorphAttributeName(attribute, k);
    assert TargetHas(targets[k].attributeNames, 0 + k, name);
    MorphAttributeNameHasUnderscore(attribute, k);
    PlainAttributeNames();
    assert name[2..] == MorphSemantic(attribute, k);
  }

  /** The fixed attribute names other than the texture coordinate are plain. */
  lemma PlainAttributeNames()
    ensures PlainAttributeName("a_normal") && PlainAttributeName("a_tangent")
    ensures PlainAttributeName("a_joint") && PlainAttributeName("a_weight")
    ensures PlainAttributeName("a_vertexColor") && PlainAttributeName("a_batchId")
    ensures PlainAttributeName("a_position")
  {
  }
}

=== FILE: text.dfy ===
/** The few string operations the generator relies on: decimal rendering of
    array indices and counts, and substring search (`String.prototype.indexOf`).
 */
module Text {

  predicate IsDigit(c: char) {
    '0' <= c <= '9'
  }

  predicate AllDigits(s: string) {
    forall i :: 0 <= i < |s| ==> IsDigit(s[i])
  }

  function DigitChar(d: nat): (c: char)
    requires d < 10
    ensures IsDigit(c) && (c as int) - ('0' as int) == d
  {
    "0123456789"[d]
  }

  /** Decimal rendering of a natural number, as JavaScript's `'' + n`. */
  function NatToString(n: nat): (s: string)
    ensures 1 <= |s|
    ensures AllDigits(s)
    decreases n
  {
    if n < 10 then [DigitChar(n)] else NatToString(n / 10) + [DigitChar(n % 10)]
  }

  /** Reads a string of decimal digits back as a number. */
  function ParseNat(s: string): nat
    requires AllDigits(s)
    decreases |s|
  {
    if |s| == 0 then 0
    else ParseNat(s[..|s| - 1]) * 10 + ((s[|s| - 1] as int) - ('0' as int))
  }

  /** The decimal rendering is faithful: reading it back gives the number. */
  lemma {:induction false} ParseNatToString(n: nat)
    ensures ParseNat(NatToString(n)) == n
    decreases n
  {
    if n >= 10 {
      var s := NatToString(n);
      ParseNatToString(n / 10);
      assert s[..|s| - 1] == NatToString(n / 10);
    }
  }

  /** Decimal rendering is injective: distinct indices give distinct names. */
  lemma NatToStringInjective(m: nat, n: nat)
    requires NatToString(m) == NatToString(n)
    ensures m == n
  {
    ParseNatToString(m);
    ParseNatToString(n);
  }

  /** `sub` occurs in `s` starting at position `i`. */
  predicate OccursAt(s: string, sub: string, i: int) {
    0 <= i && i + |sub| <= |s| && s[i..i + |sub|] == sub
  }

  /** `s.indexOf(sub)`: the first position where `sub` occurs, or -1. */
  function IndexOf(s: string, sub: string): (r: int)
    ensures r == -1 || OccursAt(s, sub, r)
    ensures r == -1 <==> forall i :: 0 <= i <= |s| ==> !OccursAt(s, sub, i)
    ensures 0 <= r ==> forall i :: 0 <= i < r ==> !OccursAt(s, sub, i)
  {
    IndexFrom(s, sub, 0)
  }

  function IndexFrom(s: string, sub: string, from: nat): (r: int)
    requires from <= |s| + 1
    ensures r == -1 || (from <= r && OccursAt(s, sub, r))
    ensures r == -1 <==> forall i :: from <= i <= |s| ==> !OccursAt(s, sub, i)
    ensures 0 <= r ==> forall i :: from <= i < r ==> !OccursAt(s, sub, i)
    decreases |s| + 1 - from
  {
    if from > |s| then -1
    else if OccursAt(s, sub, from) then from
    else IndexFrom(s, sub, from + 1)
  }

  /** `s.indexOf(sub) >= 0`. */
  predicate Contains(s: string, sub: string) {
    IndexOf(s, sub) >= 0
  }

  /** `s.indexOf(prefix) === 0`. */
  predicate StartsWith(s: string, prefix: string) {
    IndexOf(s, prefix) == 0
  }

  lemma StartsWithIsPrefix(s: string, prefix: string)
    ensures StartsWith(s, prefix) <==> |prefix| <= |s| && s[..|prefix|] == prefix
  {
    if |prefix| <= |s| && s[..|prefix|] == prefix {
      assert OccursAt(s, prefix, 0);
    }
  }

  predicate EndsWith(s: string, suffix: string) {
    |suffix| <= |s| && s[|s| - |suffix|..] == suffix
  }
}

=== FILE: vertex_source.dfy ===
/** The generated vertex shader (processPbrMaterials.js, `generateTechnique`):
    the skinning sum, the morph-target weighting, the attribute and varying
    declarations, and the main body, line by line.
 */
module VertexSource {
  import opened Wrappers
  import opened OrderedMaps
  import opened Text
  import opened Gltf
  import opened TechniqueTables
  import opened ShaderDeclarations
  import opened SkinningSum

  // ----- Morph-target weighting -----

  /** The running sums the morph targets are added into. */
  datatype Accumulator = WeightedPosition | WeightedNormal | WeightedTangent

  /** The GLSL the sum is written as. */
  function AccumulatorText(acc: Accumulator): string {
    match acc
    case WeightedPosition => "weightedPosition"
    case WeightedNormal => "weightedNormal"
    case WeightedTangent => "weightedTangent.xyz"
  }

  /** The statement of `main` that declares the sum. */
  function AccumulatorDeclaration(acc: Accumulator): string {
    match acc
    case WeightedPosition => "    vec3 weightedPosition = a_position;"
    case WeightedNormal => "    vec3 weightedNormal = a_normal;"
    case WeightedTangent => "    vec4 weightedTangent = a_tangent;"
  }

  /** `weighted<X> += u_morphWeights[target] * <attribute>;` */
  datatype MorphWeight = MorphWeight(accumulator: Accumulator, target: nat, attributeName: string)

  function MorphWeightLine(w: MorphWeight): string {
    "    " + AccumulatorText(w.accumulator) + " += u_morphWeights[" + NatToString(w.target) + "] * " + w.attributeName + ";"
  }

  /** The sum a target attribute contributes to, as the source writes it:
      positions and normals always, tangents only when the primitive has them. */
  function MorphAccumulatorAsWritten(attribute: string, hasTangents: bool): Option<Accumulator> {
    if attribute == "POSITION" then Some(WeightedPosition)
    else if attribute == "NORMAL" then Some(WeightedNormal)
    else if hasTangents && attribute == "TANGENT" then Some(WeightedTangent)
    else None
  }

  /** The sum a target attribute contributes to, with normals guarded by
      `hasNormals` as tangents are by `hasTangents`: a sum is only added to
      when `main` declares it. Other attributes are only declared. */
  function MorphAccumulator(attribute: string, hasNormals: bool, hasTangents: bool): (acc: Option<Accumulator>)
    ensures acc == Some(WeightedNormal) ==> hasNormals
    ensures acc == Some(WeightedTangent) ==> hasTangents
  {
    if attribute == "POSITION" then Some(WeightedPosition)
    else if hasNormals && attribute == "NORMAL" then Some(WeightedNormal)
    else if hasTangents && attribute == "TANGENT" then Some(WeightedTangent)
    else None
  }

  /** The source's choice is the guarded one with normals taken as present:
      the two differ exactly on a `NORMAL` target without normals. */
  lemma MorphAccumulatorDifference(attribute: string, hasNormals: bool, hasTangents: bool)
    ensures MorphAccumulatorAsWritten(attribute, hasTangents) == MorphAccumulator(attribute, true, hasTangents)
    ensures MorphAccumulatorAsWritten(attribute, hasTangents) != MorphAccumulator(attribute, hasNormals, hasTangents)
            <==> attribute == "NORMAL" && !hasNormals
  {
  }

  /** The weighting terms of one target, in attribute order. */
  function TargetWeights(names: seq<string>, k: nat, hasNormals: bool, hasTangents: bool): seq<MorphWeight> {
    if |names| == 0 then []
    else
      var rest := TargetWeights(names[1..], k, hasNormals, hasTangents);
      var acc := MorphAccumulator(names[0], hasNormals, hasTangents);
      if names[0] != "extras" && acc.Some? then [MorphWeight(acc.value, k, MorphAttributeName(names[0], k))] + rest
      else rest
  }

  /** The weighting terms of targets `k`, `k+1`, … */
  function MorphWeights(targets: seq<MorphTarget>, k: nat, hasNormals: bool, hasTangents: bool): seq<MorphWeight>
    decreases |targets|
  {
    if |targets| == 0 then []
    else TargetWeights(targets[0].attributeNames, k, hasNormals, hasTangents) + MorphWeights(targets[1..], k + 1, hasNormals, hasTangents)
  }

  lemma {:induction false} TargetWeightsSound(names: seq<string>, k: nat, hasNormals: bool, hasTangents: bool, w: MorphWeight)
    requires w in TargetWeights(names, k, hasNormals, hasTangents)
    ensures w.target == k && TargetHas(names, k, w.attributeName)
  {
    var rest := TargetWeights(names[1..], k, hasNormals, hasTangents);
    if w in rest {
      TargetWeightsSound(names[1..], k, hasNormals, hasTangents, w);
      var a :| a in names[1..] && a != "extras" && w.attributeName == MorphAttributeName(a, k);
      assert a in names;
    } else {
      var a := names[0];
      assert w == MorphWeight(MorphAccumulator(a, hasNormals, hasTangents).value, k, MorphAttributeName(a, k));
    }
  }

  /** Every weighting term of targets `k`, `k+1`, … names an attribute of the
      target it weights and an index inside the range of those targets. */
  lemma {:induction false} MorphWeightsSound(targets: seq<MorphTarget>, k: nat, hasNormals: bool, hasTangents: bool, w: MorphWeight)
    requires w in MorphWeights(targets, k, hasNormals, hasTangents)
    ensures k <= w.target < k + |targets|
    ensures TargetHas(targets[w.target - k].attributeNames, w.target, w.attributeName)
    decreases |targets|
  {
    var here := TargetWeights(targets[0].attributeNames, k, hasNormals, hasTangents);
    if w in here {
      TargetWeightsSound(targets[0].attributeNames, k, hasNormals, hasTangents, w);
    } else {
      MorphWeightsSound(targets[1..], k + 1, hasNormals, hasTangents, w);
      assert targets[1..][w.target - (k + 1)] == targets[w.target - k];
    }
  }

  /** The attribute a weighting term of one target reads, with the sum
      chosen for that attribute. */
  lemma {:induction false} TargetWeightSource(names: seq<string>, k: nat, hasNormals: bool, hasTangents: bool, w: MorphWeight)
    returns (a: string)
    requires w in TargetWeights(names, k, hasNormals, hasTangents)
    ensures a in names && a != "extras" && w.target == k
    ensures w.attributeName == MorphAttributeName(a, k) && MorphAccumulator(a, hasNormals, hasTangents) == Some(w.accumulator)
  {
    if w in TargetWeights(names[1..], k, hasNormals, hasTangents) {
      a := TargetWeightSource(names[1..], k, hasNormals, hasTangents, w);
    } else {
      a := names[0];
    }
  }

  /** The attribute a weighting term of targets `k`, `k+1`, … reads, in the
      target it weights, with the sum chosen for that attribute. */
  lemma {:induction false} MorphWeightSource(targets: seq<MorphTarget>, k: nat, hasNormals: bool, hasTangents: bool, w: MorphWeight)
    returns (a: string)
    requires w in MorphWeights(targets, k, hasNormals, hasTangents)
    ensures k <= w.target < k + |targets|
    ensures a in targets[w.target - k].attributeNames && a != "extras"
    ensures w.attributeName == MorphAttributeName(a, w.target) && MorphAccumulator(a, hasNormals, hasTangents) == Some(w.accumulator)
    decreases |targets|
  {
    if w in TargetWeights(targets[0].attributeNames, k, hasNormals, hasTangents) {
      a := TargetWeightSource(targets[0].attributeNames, k, hasNormals, hasTangents, w);
    } else {
      a := MorphWeightSource(targets[1..], k + 1, hasNormals, hasTangents, w);
      assert targets[1..][w.target - (k + 1)] == targets[w.target - k];
    }
  }

  lemma {:induction false} TargetWeightsComplete(names: seq<string>, k: nat, hasNormals: bool, hasTangents: bool, a: string)
    requires a in names && a != "extras" && MorphAccumulator(a, hasNormals, hasTangents).Some?
    ensures MorphWeight(MorphAccumulator(a, hasNormals, hasTangents).value, k, MorphAttributeName(a, k)) in TargetWeights(names, k, hasNormals, hasTangents)
  {
    if names[0] != a {
      TargetWeightsComplete(names[1..], k, hasNormals, hasTangents, a);
    }
  }

  lemma {:induction false} MorphWeightsComplete(targets: seq<MorphTarget>, k: nat, hasNormals: bool, hasTangents: bool, j: nat, a: string)
    requires j < |targets| && a in targets[j].attributeNames && a != "extras" && MorphAccumulator(a, hasNormals, hasTangents).Some?
    ensures MorphWeight(MorphAccumulator(a, hasNormals, hasTangents).value, k + j, MorphAttributeName(a, k + j)) in MorphWeights(targets, k, hasNormals, hasTangents)
    decreases |targets|
  {
    if j == 0 {
      TargetWeightsComplete(targets[0].attributeNames, k, hasNormals, hasTangents, a);
    } else {
      assert targets[1..][j - 1] == targets[j];
      MorphWeightsComplete(targets[1..], k + 1, hasNormals, hasTangents, j - 1, a);
    }
  }

  /** The weighting `main` holds, as the source writes it: its `NORMAL`
      branch has no `hasNormals` test, so it is the guarded weighting with
      normals taken as present (`MorphAccumulatorDifference`). */
  function WrittenMorphWeights(targets: seq<MorphTarget>, hasTangents: bool): seq<MorphWeight> {
    MorphWeights(targets, 0, true, hasTangents)
  }

  /** The weighting with the `NORMAL` branch guarded by `hasNormals`. */
  function GuardedMorphWeights(f: Flags, targets: seq<MorphTarget>): seq<MorphWeight> {
    MorphWeights(targets, 0, f.hasNormals, f.hasTangents)
  }

  /** The weighting as written is exactly the position, normal and (with
      tangents) tangent attributes of the targets: every such attribute of
      target `j` is added with weight `u_morphWeights[j]` into the sum the
      source picks for it, and every term reads a declared morph attribute
      with an index below the number of targets. */
  lemma MorphWeighting(targets: seq<MorphTarget>, hasTangents: bool, w: MorphWeight, j: nat, a: string)
    ensures w in WrittenMorphWeights(targets, hasTangents) ==> w.target < |targets| && IsMorphAttribute(targets, w.attributeName)
    ensures w in WrittenMorphWeights(targets, hasTangents) ==>
              w.target < |targets|
              && exists b :: b in targets[w.target].attributeNames && b != "extras" && w.attributeName == MorphAttributeName(b, w.target)
                             && MorphAccumulatorAsWritten(b, hasTangents) == Some(w.accumulator)
    ensures j < |targets| && a in targets[j].attributeNames && a != "extras" && MorphAccumulatorAsWritten(a, hasTangents).Some?
            ==> MorphWeight(MorphAccumulatorAsWritten(a, hasTangents).value, j, MorphAttributeName(a, j)) in WrittenMorphWeights(targets, hasTangents)
  {
    if w in MorphWeights(targets, 0, true, hasTangents) {
      MorphWeightsSound(targets, 0, true, hasTangents, w);
      assert TargetHas(targets[w.target].attributeNames, 0 + w.target, w.attributeName);
      var b := MorphWeightSource(targets, 0, true, hasTangents, w);
      MorphAccumulatorDifference(b, true, hasTangents);
    }
    MorphAccumulatorDifference(a, true, hasTangents);
    if j < |targets| && a in targets[j].attributeNames && a != "extras" && MorphAccumulatorAsWritten(a, hasTangents).Some? {
      MorphWeightsComplete(targets, 0, true, hasTangents, j, a);
    }
  }

  /** The normal and tangent sums are only added into when the primitive has them. */
  lemma {:induction false} MorphWeightsGuarded(targets: seq<MorphTarget>, k: nat, hasNormals: bool, hasTangents: bool, w: MorphWeight)
    requires w in MorphWeights(targets, k, hasNormals, hasTangents)
    ensures w.accumulator == WeightedNormal ==> hasNormals
    ensures w.accumulator == WeightedTangent ==> hasTangents
    decreases |targets|
  {
    if w in TargetWeights(targets[0].attributeNames, k, hasNormals, hasTangents) {
      TargetWeightsGuarded(targets[0].attributeNames, k, hasNormals, hasTangents, w);
    } else {
      MorphWeightsGuarded(targets[1..], k + 1, hasNormals, hasTangents, w);
    }
  }

  lemma {:induction false} TargetWeightsGuarded(names: seq<string>, k: nat, hasNormals: bool, hasTangents: bool, w: MorphWeight)
    requires w in TargetWeights(names, k, hasNormals, hasTangents)
    ensures w.accumulator == WeightedNormal ==> hasNormals
    ensures w.accumulator == WeightedTangent ==> hasTangents
  {
    if w in TargetWeights(names[1..], k, hasNormals, hasTangents) {
      TargetWeightsGuarded(names[1..], k, hasNormals, hasTangents, w);
    }
  }

  /** With the guarded weighting, every sum the morph targets add into is
      declared in `main`, among the declarations that precede the weighting. */
  lemma MorphSumsDeclared(f: Flags, targets: seq<MorphTarget>, w: MorphWeight)
    requires w in GuardedMorphWeights(f, targets)
    ensures AccumulatorDeclaration(w.accumulator) in SumDeclarations(f)
  {
    MorphWeightsGuarded(targets, 0, f.hasNormals, f.hasTangents, w);
  }

  /** When the primitive has normals the written weighting is the guarded
      one, so every sum it adds into is declared. */
  lemma WrittenSumsDeclaredWithNormals(f: Flags, targets: seq<MorphTarget>, w: MorphWeight)
    requires f.hasNormals && w in WrittenMorphWeights(targets, f.hasTangents)
    ensures WrittenMorphWeights(targets, f.hasTangents) == GuardedMorphWeights(f, targets)
    ensures AccumulatorDeclaration(w.accumulator) in SumDeclarations(f)
  {
    MorphSumsDeclared(f, targets, w);
  }

  /** The source's weighting with the unlit extension: the extension turns
      normals off, so `main` never declares `weightedNormal`, yet the one
      `NORMAL` morph target is still added into it. The guarded weighting
      adds nothing. */
  lemma UnlitNormalTargetUsesUndeclaredSum()
    ensures var m := Material(None, [], None, false, Some(MaterialExtensions(None, true, None)));
            var info := PrimitiveInfo(SkinningInfo(false, Scalar), false, true, true, false, false);
            var f := DeriveFlags(Some(info), 0, m);
            var targets := [MorphTarget(["NORMAL"])];
            && !f.hasNormals && f.hasMorphTargets
            && WrittenMorphWeights(targets, f.hasTangents) == [MorphWeight(WeightedNormal, 0, MorphAttributeName("NORMAL", 0))]
            && AccumulatorDeclaration(WeightedNormal) !in SumDeclarations(f)
            && GuardedMorphWeights(f, targets) == []
  {
    var f := Flags(None, false, true, false, false, false, true);
    var targets := [MorphTarget(["NORMAL"])];
    assert targets[1..] == [];
    assert MorphWeights(targets, 0, false, false) == [] by {
      assert TargetWeights(["NORMAL"], 0, false, false) == [];
    }
    assert MorphWeights(targets, 0, true, false) == [MorphWeight(WeightedNormal, 0, MorphAttributeName("NORMAL", 0))] by {
      assert TargetWeights(["NORMAL"], 0, true, false) == [MorphWeight(WeightedNormal, 0, MorphAttributeName("NORMAL", 0))];
    }
  }

  // ----- Declarations -----

  /** The position attribute, and the eye- and world-space position varyings with normals. */
  function PositionDeclarations(f: Flags): seq<Declaration> {
    [Attribute("vec3", "a_position")]
      + (if f.hasNormals then [Varying("vec3", "v_positionEC"), Varying("vec3", "v_positionWC")] else [])
  }

  /** One `vec3` attribute per morph attribute, in the order they are assigned. */
  function MorphDeclarations(f: Flags, targets: seq<MorphTarget>): seq<Declaration> {
    if f.hasMorphTargets then
      var es := MorphEntries(targets, 0);
      seq(|es|, i requires 0 <= i < |es| => Attribute("vec3", es[i].key))
    else []
  }

  /** The attributes (and their varyings) the flags call for, in source order. */
  function FlagDeclarations(f: Flags, batchId: bool): seq<Declaration> {
    (if f.hasNormals then [Attribute("vec3", "a_normal"), Varying("vec3", "v_normal")] else [])
      + (if f.hasTangents then [Attribute("vec4", "a_tangent"), Varying("vec4", "v_tangent")] else [])
      + (if f.hasTexCoords then [Attribute("vec2", "a_texcoord_0"), Varying("vec2", "v_texcoord_0")] else [])
      + (match f.skinWeights
         case Some(t) => [Attribute(ShaderVariable(t), "a_joint"), Attribute(ShaderVariable(t), "a_weight")]
         case None => [])
      + (if f.hasVertexColors then [Attribute("vec4", "a_vertexColor"), Varying("vec4", "v_vertexColor")] else [])
      + (if batchId then [Attribute("float", "a_batchId")] else [])
  }

  function VertexDeclarations(f: Flags, targets: seq<MorphTarget>, batchId: bool): seq<Declaration> {
    PositionDeclarations(f) + MorphDeclarations(f, targets) + FlagDeclarations(f, batchId)
  }

  lemma PositionDeclarationsAttributes(f: Flags, name: string)
    ensures DeclaresAttribute(PositionDeclarations(f), name) <==> name == "a_position"
  {
    if name == "a_position" {
      assert PositionDeclarations(f)[0] == Attribute("vec3", "a_position");
    }
  }

  lemma MorphDeclarationsAttributes(f: Flags, targets: seq<MorphTarget>, name: string)
    ensures DeclaresAttribute(MorphDeclarations(f, targets), name) <==> f.hasMorphTargets && IsMorphAttribute(targets, name)
  {
    var ds := MorphDeclarations(f, targets);
    if f.hasMorphTargets {
      var es := MorphEntries(targets, 0);
      MorphEntriesKeys(targets, 0, name);
      if DeclaresAttribute(ds, name) {
        var d :| d in ds && d.Attribute? && d.name == name;
        var i :| 0 <= i < |ds| && ds[i] == d;
        KeysIndex(es, i);
      }
      if name in Keys(es) {
        var i := KeyPosition(es, name);
        assert ds[i] == Attribute("vec3", name);
      }
    }
  }

  lemma {:induction false} KeyPosition<V>(m: OMap<V>, k: string) returns (i: nat)
    requires k in Keys(m)
    ensures i < |m| && m[i].key == k
  {
    if m[0].key == k {
      i := 0;
    } else {
      var j := KeyPosition(m[1..], k);
      i := j + 1;
    }
  }

  lemma FlagDeclarationsAttributes(f: Flags, batchId: bool, name: string)
    ensures DeclaresAttribute(FlagDeclarations(f, batchId), name) <==> VertexAttributeSpec(f, batchId, name).Some?
  {
    var ds := FlagDeclarations(f, batchId);
    if VertexAttributeSpec(f, batchId, name).Some? {
      var d := FlagAttributeWitness(f, batchId, name);
      assert d in ds;
    }
    if DeclaresAttribute(ds, name) {
      var d :| d in ds && d.Attribute? && d.name == name;
      FlagDeclarationSound(f, batchId, d);
    }
  }

  /** Every attribute the flags declare is one the flags call for. */
  lemma FlagDeclarationSound(f: Flags, batchId: bool, d: Declaration)
    requires d in FlagDeclarations(f, batchId) && d.Attribute?
    ensures VertexAttributeSpec(f, batchId, d.name).Some?
  {
    var normals := if f.hasNormals then [Attribute("vec3", "a_normal"), Varying("vec3", "v_normal")] else [];
    var tangents := if f.hasTangents then [Attribute("vec4", "a_tangent"), Varying("vec4", "v_tangent")] else [];
    var texcoords := if f.hasTexCoords then [Attribute("vec2", "a_texcoord_0"), Varying("vec2", "v_texcoord_0")] else [];
    var skin := match f.skinWeights
                case Some(t) => [Attribute(ShaderVariable(t), "a_joint"), Attribute(ShaderVariable(t), "a_weight")]
                case None => [];
    var colors := if f.hasVertexColors then [Attribute("vec4", "a_vertexColor"), Varying("vec4", "v_vertexColor")] else [];
    var ids := if batchId then [Attribute("float", "a_batchId")] else [];
    assert FlagDeclarations(f, batchId) == normals + tangents + texcoords + skin + colors + ids;
    if d in normals {
      assert d.name == "a_normal";
    } else if d in tangents {
      assert d.name == "a_tangent";
    } else if d in texcoords {
      assert d.name == "a_texcoord_0";
    } else if d in skin {
      assert d.name == "a_joint" || d.name == "a_weight";
    } else if d in colors {
      assert d.name == "a_vertexColor";
    } else {
      assert d in ids;
    }
  }

  /** The declaration of a flagged vertex attribute. */
  function FlagAttributeWitness(f: Flags, batchId: bool, name: string): (d: Declaration)
    requires VertexAttributeSpec(f, batchId, name).Some?
    ensures d in FlagDeclarations(f, batchId) && d == Attribute(d.glslType, name)
  {
    if name == "a_normal" then Attribute("vec3", "a_normal")
    else if name == "a_tangent" then Attribute("vec4", "a_tangent")
    else if name == "a_texcoord_0" then Attribute("vec2", "a_texcoord_0")
    else if name == "a_joint" then Attribute(ShaderVariable(f.skinWeights.value), "a_joint")
    else if name == "a_weight" then Attribute(ShaderVariable(f.skinWeights.value), "a_weight")
    else if name == "a_vertexColor" then Attribute("vec4", "a_vertexColor")
    else Attribute("float", "a_batchId")
  }

  /** The vertex shader declares exactly the attributes of the technique's
      attribute table: every table attribute is declared, and every declared
      attribute is in the table. */
  lemma VertexAttributesMatchTable(f: Flags, targets: seq<MorphTarget>, batchId: bool, name: string)
    ensures DeclaresAttribute(VertexDeclarations(f, targets, batchId), name) <==> name in Keys(AttributeTable(f, targets, batchId))
  {
    DeclaresAttributeAppend(PositionDeclarations(f), MorphDeclarations(f, targets), name);
    DeclaresAttributeAppend(PositionDeclarations(f) + MorphDeclarations(f, targets), FlagDeclarations(f, batchId), name);
    PositionDeclarationsAttributes(f, name);
    MorphDeclarationsAttributes(f, targets, name);
    FlagDeclarationsAttributes(f, batchId, name);
    AttributeTableGet(f, targets, batchId, name);
    SpecSplit(f, targets, batchId, name);
  }

  // ----- Main body -----

  /** The statements of `main`, in source order: the skinning sum, the
      declarations of the running sums, the morph-target weighting as the
      source writes it, then the transform of the position and the varyings. */
  function VertexMain(f: Flags, targets: seq<MorphTarget>): seq<string> {
    SkinLines(f) + SumDeclarations(f)
      + (if f.hasMorphTargets then MorphWeightLines(WrittenMorphWeights(targets, f.hasTangents)) else [])
      + TransformLines(f)
  }

  function SkinLines(f: Flags): seq<string> {
    match f.skinWeights
    case Some(t) => SkinningLines(t)
    case None => []
  }

  /** The running sums start at the primitive's own position, normal and tangent. */
  function SumDeclarations(f: Flags): seq<string> {
    [AccumulatorDeclaration(WeightedPosition)]
      + (if f.hasNormals then [AccumulatorDeclaration(WeightedNormal)] else [])
      + (if f.hasTangents then [AccumulatorDeclaration(WeightedTangent)] else [])
  }

  /** The statements that follow the weighting: the skinned position, its
      eye- and clip-space transforms, and the varyings. */
  datatype TransformStatement =
    | SkinnedPosition | UnskinnedPosition | WorldPosition | EyeTransform | EyePosition | ClipTransform
    | SkinnedNormal | UnskinnedNormal | TangentDirection | TangentHandedness | TexcoordCopy | VertexColorCopy

  function TransformText(t: TransformStatement): string {
    match t
    case SkinnedPosition => "    vec4 position = skinMatrix * vec4(weightedPosition, 1.0);"
    case UnskinnedPosition => "    vec4 position = vec4(weightedPosition, 1.0);"
    case WorldPosition => "    v_positionWC = (czm_model * position).xyz;"
    case EyeTransform => "    position = u_modelViewMatrix * position;"
    case EyePosition => "    v_positionEC = position.xyz;"
    case ClipTransform => "    gl_Position = u_projectionMatrix * position;"
    case SkinnedNormal => "    v_normal = u_normalMatrix * mat3(skinMatrix) * weightedNormal;"
    case UnskinnedNormal => "    v_normal = u_normalMatrix * weightedNormal;"
    case TangentDirection => "    v_tangent.xyz = u_normalMatrix * weightedTangent.xyz;"
    case TangentHandedness => "    v_tangent.w = weightedTangent.w;"
    case TexcoordCopy => "    v_texcoord_0 = a_texcoord_0;"
    case VertexColorCopy => "  v_vertexColor = a_vertexColor;"
  }

  /** The transform statements the flags call for, in source order. */
  function TransformStatements(f: Flags): seq<TransformStatement> {
    var skinned := f.HasSkinning();
    [if skinned then SkinnedPosition else UnskinnedPosition]
      + (if f.hasNormals then [WorldPosition] else [])
      + [EyeTransform]
      + (if f.hasNormals then [EyePosition] else [])
      + [ClipTransform]
      + (if f.hasNormals then [if skinned then SkinnedNormal else UnskinnedNormal] else [])
      + (if f.hasTangents then [TangentDirection, TangentHandedness] else [])
      + (if f.hasTexCoords then [TexcoordCopy] else [])
      + (if f.hasVertexColors then [VertexColorCopy] else [])
  }

  function TransformLines(f: Flags): seq<string> {
    var ts := TransformStatements(f);
    seq(|ts|, i requires 0 <= i < |ts| => TransformText(ts[i]))
  }

  function MorphWeightLines(ws: seq<MorphWeight>): (lines: seq<string>)
    ensures |lines| == |ws|
  {
    seq(|ws|, i requires 0 <= i < |ws| => MorphWeightLine(ws[i]))
  }

  /** The whole vertex shader: precision, the vertex-stage uniforms, the
      declarations, then `main`. */
  function VertexShaderLines(f: Flags, uniforms: OMap<Uniform>, targets: seq<MorphTarget>, batchId: bool): seq<string> {
    ["precision highp float;"]
      + StageUniformLines(uniforms, VertexStage)
      + DeclarationLines(VertexDeclarations(f, targets, batchId))
      + ["void main(void) ", "{"]
      + VertexMain(f, targets)
      + ["}"]
  }

  // ----- The undeclared normal sum -----

  /** `vec3 weightedNormal = a_normal;`, the line the weighting of a `NORMAL`
      target needs. */
  function NormalSumDeclaration(): string {
    AccumulatorDeclaration(WeightedNormal)
  }

  /** The characters that tell the normal sum's declaration apart from every
      other line of the shader: its length, the indentation, the `v` of
      `vec3` and its `3`. */
  predicate NormalSumShaped(l: string) {
    |l| == 35 && l[0] == ' ' && l[4] == 'v' && l[7] == '3'
  }

  lemma NormalSumDeclarationShaped()
    ensures NormalSumShaped(NormalSumDeclaration())
  {
  }

  /** The lines outside `main` start with a keyword, never with the
      indentation of a statement. */
  lemma {:induction false} HeaderLinesUnindented(uniforms: OMap<Uniform>, ds: seq<Declaration>, l: string)
    requires l in UniformLines(uniforms) || l in DeclarationLines(ds)
    ensures !NormalSumShaped(l)
  {
    if l in UniformLines(uniforms) {
      var i :| 0 <= i < |uniforms| && UniformLines(uniforms)[i] == l;
      assert l == UniformDeclaration(uniforms[i].key, uniforms[i].value);
      assert l[0] == 'u';
    } else {
      var i :| 0 <= i < |ds| && DeclarationLines(ds)[i] == l;
      assert l == DeclarationLine(ds[i]);
      assert l[0] == 'a' || l[0] == 'v';
    }
  }

  /** A weighting line starts `    weighted`. */
  lemma WeightLineUnshaped(ws: seq<MorphWeight>, l: string)
    requires l in MorphWeightLines(ws)
    ensures !NormalSumShaped(l)
  {
    var i :| 0 <= i < |ws| && MorphWeightLines(ws)[i] == l;
    assert l == MorphWeightLine(ws[i]);
    WeightLineOpening(ws[i]);
  }

  lemma WeightLineOpening(w: MorphWeight)
    ensures |MorphWeightLine(w)| > 4 && MorphWeightLine(w)[4] == 'w'
  {
    assert AccumulatorText(w.accumulator)[0] == 'w';
  }

  /** No transform statement looks like the declaration of the normal sum. */
  lemma TransformTextUnshaped(t: TransformStatement)
    ensures !NormalSumShaped(TransformText(t))
  {
    match t
    case SkinnedPosition =>
    case UnskinnedPosition =>
    case WorldPosition =>
    case EyeTransform =>
    case EyePosition =>
    case ClipTransform =>
    case SkinnedNormal =>
    case UnskinnedNormal =>
    case TangentDirection =>
    case TangentHandedness =>
    case TexcoordCopy =>
    case VertexColorCopy =>
  }

  lemma TransformLineUnshaped(f: Flags, l: string)
    requires l in TransformLines(f)
    ensures !NormalSumShaped(l)
  {
    var ts := TransformStatements(f);
    var i :| 0 <= i < |ts| && TransformLines(f)[i] == l;
    assert l == TransformText(ts[i]);
    TransformTextUnshaped(ts[i]);
  }

  /** Without normals, `main` declares only the position and tangent sums. */
  lemma SumDeclarationsUnshaped(f: Flags, l: string)
    requires !f.hasNormals && l in SumDeclarations(f)
    ensures !NormalSumShaped(l)
  {
  }

  /** Every line of the shader but the normal sum's own declaration differs
      from it in one of the telling characters. */
  lemma {:induction false} ShaderLineUnshaped(f: Flags, uniforms: OMap<Uniform>, targets: seq<MorphTarget>, batchId: bool, l: string)
    requires !f.hasNormals
    requires l in VertexShaderLines(f, uniforms, targets, batchId)
    ensures !NormalSumShaped(l)
  {
    var uls := StageUniformLines(uniforms, VertexStage);
    var dls := DeclarationLines(VertexDeclarations(f, targets, batchId));
    var ws := WrittenMorphWeights(targets, f.hasTangents);
    if l in uls {
      HeaderLinesUnindented(StageEntries(uniforms, VertexStage), [], l);
    } else if l in dls {
      HeaderLinesUnindented([], VertexDeclarations(f, targets, batchId), l);
    } else if l in SkinLines(f) {
      SkinningLineOpening(f.skinWeights.value, l);
    } else if l in SumDeclarations(f) {
      SumDeclarationsUnshaped(f, l);
    } else if f.hasMorphTargets && l in MorphWeightLines(ws) {
      WeightLineUnshaped(ws, l);
    } else if l in TransformLines(f) {
      TransformLineUnshaped(f, l);
    }
  }

  /** The generated vertex shader, as the source writes it, of a primitive
      without normals (an unlit material, say) whose target `j` has a
      `NORMAL` attribute: `main` adds that attribute into `weightedNormal`,
      and no line of the shader declares `weightedNormal`. */
  lemma WrittenShaderUsesUndeclaredNormalSum(f: Flags, uniforms: OMap<Uniform>, targets: seq<MorphTarget>, batchId: bool, j: nat)
    requires !f.hasNormals && f.hasMorphTargets
    requires j < |targets| && "NORMAL" in targets[j].attributeNames
    ensures MorphWeightLine(MorphWeight(WeightedNormal, j, MorphAttributeName("NORMAL", j))) in VertexShaderLines(f, uniforms, targets, batchId)
    ensures NormalSumDeclaration() !in VertexShaderLines(f, uniforms, targets, batchId)
  {
    var ws := WrittenMorphWeights(targets, f.hasTangents);
    MorphWeighting(targets, f.hasTangents, MorphWeight(WeightedNormal, 0, ""), j, "NORMAL");
    var w := MorphWeight(WeightedNormal, j, MorphAttributeName("NORMAL", j));
    var k :| 0 <= k < |ws| && ws[k] == w;
    assert MorphWeightLines(ws)[k] == MorphWeightLine(w);
    assert MorphWeightLine(w) in VertexMain(f, targets);
    if NormalSumDeclaration() in VertexShaderLines(f, uniforms, targets, batchId) {
      NormalSumDeclarationShaped();
      ShaderLineUnshaped(f, uniforms, targets, batchId, NormalSumDeclaration());
    }
  }

  /** Each vertex-stage uniform, attribute and varying is declared in the vertex shader. */
  lemma VertexShaderDeclares(f: Flags, uniforms: OMap<Uniform>, targets: seq<MorphTarget>, batchId: bool,
                             e: Entry<Uniform>, d: Declaration)
    ensures e in uniforms && StageOf(e.key, e.value) == VertexStage
            ==> UniformDeclaration(e.key, e.value) in VertexShaderLines(f, uniforms, targets, batchId)
    ensures d in VertexDeclarations(f, targets, batchId) ==> DeclarationLine(d) in VertexShaderLines(f, uniforms, targets, batchId)
  {
    if e in uniforms && StageOf(e.key, e.value) == VertexStage {
      UniformDeclaredInStage(uniforms, e);
    }
    if d in VertexDeclarations(f, targets, batchId) {
      DeclarationLinesDeclare(VertexDeclarations(f, targets, batchId), d);
    }
  }
}

=== FILE: wrappers.dfy ===
/** Optional values and success/failure results.

    `Option` stands for a JavaScript value that may be `undefined`; `Result`
    stands for an operation that either returns a value or throws.
 */
module Wrappers {

  datatype Option<+T> = None | Some(value: T) {

    /** The value, or `default` when there is none (JavaScript's `defaultValue`). */
    function GetOr(default: T): T {
      match this
      case Some(v) => v
      case None => default
    }
  }

  datatype Result<+T, +E> = Success(value: T) | Failure(error: E) {

    predicate IsFailure() {
      Failure?
    }

    function PropagateFailure<U>(): Result<U, E>
      requires Failure?
    {
      Failure(error)
    }

    function Extract(): T
      requires Success?
    {
      value
    }
  }
}
